=== FILE: README.md ===
# Sticky note widget: preview, configuration screen and compositor

This project models, in Dafny, the core of an Android home-screen sticky-note
widget. A note shows either its text or a photo card with a caption. The
model covers three parts:

- **The editor preview (`CaptionPreviewView`).**
  - Its state: the photo, crop zoom and centre, rotation, and the caption with its size and position.
  - The setters that keep each value in range.
  - The layout of a draw: the 4:5 stage, the photo's fit rectangle and the caption's box.
  - The crop window, and its export as a normalised crop.
  - The touch state machine: caption drag, crop pan, crop pinch with twist, caption pinch, finger lift, and tap.
- **The configuration activity.**
  - The Photo and Note tabs, the caption and note fields, and the inline caption editor.
  - The positions each tab remembers, and photo picking.
  - `handleSave`: every preference write it makes, in order.
  - `onCreate`: rebuilding the screen from the stored settings.
- **The widget's companion object (`StickyNoteWidget`).**
  - The per-widget preference keys and every save and load function, with their defaults and clamps.
  - The six-decimal crop text and its parser.
  - `deleteNote`, and the widget mode with its toggle.
  - The bitmap compositor's geometry: target canvas size, note frame and stage, button overlay, photo card, the photo's source window (normalised crop or centre crop with zoom), the rotation cover and shrink factors, card caption placement, and the decoder's power-of-two subsampling.

Modules follow the program's structure:

| module | contents |
|---|---|
| `Numeric` | Kotlin's float truncation, integer division, `coerceIn` and float remainder |
| `Geometry` | `Rect`, the 4:5 stage fit, `cropToAspectWithin`, the rotation cover and shrink factors |
| `Caption` | caption placement, shared by the preview and the widget |
| `Crop` | the crop window, its export and its restore |
| `Text` | `isBlank`, integer and six-decimal rendering and parsing, `split` |
| `Store` | preferences and the save and load functions |
| `Compositor` | widget bitmap geometry |
| `Editor` | the preview's state, setters and draw |
| `Touch` | `onTouchEvent` |
| `Configure` | the activity |

### How values are represented

- Kotlin `Float` is a Dafny `real`. `toInt()`, `Int / Int`, `Float % m` and `coerceIn` are written out with Kotlin's rounding: toward zero, with the remainder taking the dividend's sign.
- Preferences are a `map<string, Value>` keyed by prefix plus the decimal widget id.
- `handleSave` is a sequence of writes applied in order. Opening the screen is a function from the preferences, the widget id and the decoded photo size to the rebuilt screen, or nothing for the invalid id.
- The photo decoder, the clock, the finger distance and twist angle, and measured text sizes are inputs.

### Behaviour to be aware of

The model follows the code, which behaves as follows:

- `handleSave` never stores the widget mode.
- Opening the screen always shows the Photo tab, whatever mode the widget was in.
- `deleteNote` leaves the crop, zoom, note position and mode keys behind.
- Without a bitmap, `onTouchEvent` returns false for every event.
- The inline caption watcher mirrors typing into the preview only on the Photo tab.
- `ACTION_POINTER_UP` during a crop pinch returns to the platform rather than consuming the event.
- Refitting a stage into itself is not idempotent: truncation can lose a pixel (`Geometry.StageRefitCanShrink`).

## Model

| member | source | states |
|---|---|---|
| Numeric.Trunc | app/src/main/java/com/floveit/notewidget/StickyNoteWidget.kt:908 | `toInt()` keeps the whole part toward zero: within one below a non-negative value, within one above a negative one |
| Numeric.Div | app/src/main/java/com/floveit/notewidget/StickyNoteWidget.kt:910 | integer `/` by a positive divisor truncates toward zero, bracketing the dividend between consecutive multiples on the zero side |
| Numeric.Clamp | app/src/main/java/com/floveit/notewidget/StickyNoteWidget.kt:139-140 | `coerceIn` lands in the range, keeps in-range values and sends values below or above to the nearer bound |
| Numeric.ClampInt | app/src/main/java/com/floveit/notewidget/StickyNoteWidget.kt:946-949 | the integer `coerceIn`: in range, identity inside, nearer bound outside |
| Numeric.Rem | app/src/main/java/com/floveit/notewidget/StickyNoteWidget.kt:88 | float `%` takes the dividend's sign, stays within one modulus of zero and differs from the dividend by whole moduli |
| Numeric.NormalizeDegrees | app/src/main/java/com/floveit/notewidget/StickyNoteWidget.kt:86-92 | the stored rotation lies in [0, 360), differs from the given angle by whole turns, and equals it when it was already in range |
| Numeric.NormalizeDegreesIdempotent | app/src/main/java/com/floveit/notewidget/StickyNoteWidget.kt:86-92 | normalising a normalised angle changes nothing, so re-saving a loaded rotation stores it unchanged |
| Numeric.HalfIsTruncatedHalf | app/src/main/java/com/floveit/notewidget/StickyNoteWidget.kt:1180-1196 | the float centring offset `(n / 2f).toInt()` and the integer `n / 2` agree for every integer, negative ones included |
| Geometry.HalfSlackIsDiv | app/src/main/java/com/floveit/notewidget/StickyNoteWidget.kt:328-336 | on whole extents the stage's float centring equals the integer centring of `fitAspectInside` |
| Geometry.Stage | app/src/main/java/com/floveit/notewidget/StickyNoteWidget.kt:325-336 | on a non-empty area the stage is a portrait fit: inside the area, spanning it on one axis, centred on the other, 4:5 up to truncation |
| Geometry.StageFitProperties | app/src/main/java/com/floveit/notewidget/StickyNoteConfigureActivity.kt:962-974 | the preview's stage has the same fit properties: inside the view, at least a pixel each way, one axis spanned |
| Geometry.StageRefitCanShrink | app/src/main/java/com/floveit/notewidget/StickyNoteConfigureActivity.kt:1016-1026 | the crop window (the stage fitted again) can be a pixel narrower than the stage: 10x13 gives 10x12, which refits to 9x12 |
| Geometry.CentredSpanInside | app/src/main/java/com/floveit/notewidget/StickyNoteWidget.kt:953-962 | trimming around the integer midpoint with half-widths keeps a span no longer than the extent inside it, losing at most one pixel |
| Geometry.CropToAspectWithin | app/src/main/java/com/floveit/notewidget/StickyNoteWidget.kt:1160-1178 | the trimmed rectangle stays inside a non-empty original and keeps one of its axes whole |
| Geometry.RotationSpan | app/src/main/java/com/floveit/notewidget/StickyNoteWidget.kt:1141-1145 | every pair of absolute cosine and sine satisfies the side condition the cover and shrink factors rely on |
| Geometry.CoverScale | app/src/main/java/com/floveit/notewidget/StickyNoteConfigureActivity.kt:1060-1068 | the cover factor is at least one, exactly one below 0.01 degrees, and otherwise stretches the frame over its rotated bounding box with no slack on one side |
| Geometry.CoverFactor | app/src/main/java/com/floveit/notewidget/StickyNoteConfigureActivity.kt:1065-1067 | the cover factor is the least factor of at least one that covers both sides of the rotated box |
| Geometry.LeastCover | app/src/main/java/com/floveit/notewidget/StickyNoteConfigureActivity.kt:1067 | `max(rw / w, rh / h)` floored at one covers both extents with no slack on one of them, so no smaller factor covers |
| Geometry.ShrinkToFitRotation | app/src/main/java/com/floveit/notewidget/StickyNoteWidget.kt:1141-1158 | the shrink factor lies in (0, 1], fits the rotated box back inside the frame, and is tight on one side |
| Geometry.ShrinkFactor | app/src/main/java/com/floveit/notewidget/StickyNoteWidget.kt:1147-1157 | `min(w / w', h / h')` is the greatest factor fitting the rotated box inside the frame |
| Geometry.GreatestFit | app/src/main/java/com/floveit/notewidget/StickyNoteWidget.kt:1152-1154 | the smaller of the two axis ratios fits both axes with no slack on one of them, so no larger factor fits |
| Caption.PlaceAxis | app/src/main/java/com/floveit/notewidget/StickyNoteConfigureActivity.kt:1206-1239 | when the margins leave room, the box lies within them; a box centred on the target that already fits stays centred there; a box that overflows a margin is moved to that margin and no further; with no room it takes the fallback |
| Caption.TargetInside | app/src/main/java/com/floveit/notewidget/StickyNoteConfigureActivity.kt:1202-1203 | the target point, with the position clamped to the unit square, lies inside the area |
| Caption.CaptionBox | app/src/main/java/com/floveit/notewidget/StickyNoteConfigureActivity.kt:1198-1268 | for a measured text of at least a pixel in an area with room, the plain or bubble box lies within the area inset by its margin |
| Caption.BoxLength | app/src/main/java/com/floveit/notewidget/StickyNoteConfigureActivity.kt:1147-1149 | the box's extent on an axis is the text plus padding, capped by the room between the margins |
| Caption.BoxFloorIrrelevant | app/src/main/java/com/floveit/notewidget/StickyNoteConfigureActivity.kt:1147-1148 | with a pixel of room the preview's one-pixel floor gives the same box as the widget's unfloored extent |
| Crop.ClampZoom | app/src/main/java/com/floveit/notewidget/StickyNoteConfigureActivity.kt:748 | the zoom lies in [1, 3] and an in-range zoom is kept |
| Crop.LargestPortrait | app/src/main/java/com/floveit/notewidget/StickyNoteConfigureActivity.kt:921-930 | the unzoomed window is 4:5, fits the photo, and spans it on one axis |
| Crop.WindowSize | app/src/main/java/com/floveit/notewidget/StickyNoteConfigureActivity.kt:921-934 | the zoomed window stays 4:5 and inside the photo, and times the zoom gives the largest window back |
| Crop.KeepInside | app/src/main/java/com/floveit/notewidget/StickyNoteConfigureActivity.kt:941-943 | the centre is pulled into [half, extent - half], and an admissible centre is untouched |
| Crop.CropRectInSource | app/src/main/java/com/floveit/notewidget/StickyNoteConfigureActivity.kt:921-946 | the source window is 4:5, of the zoomed size, non-empty, inside the photo, and centred on the clamped centre |
| Crop.ExportNormCrop | app/src/main/java/com/floveit/notewidget/StickyNoteConfigureActivity.kt:1506-1517 | nothing without a photo; otherwise a non-empty box inside the unit square |
| Crop.RestoreCentre | app/src/main/java/com/floveit/notewidget/StickyNoteConfigureActivity.kt:220-224 | the restored centre lies in the unit square and is the crop's midpoint for a crop inside it |
| Crop.AxisRoundTrip | app/src/main/java/com/floveit/notewidget/StickyNoteConfigureActivity.kt:1506-1517 | on one axis, the midpoint of the exported edges is the window's actual centre |
| Crop.AxisExact | app/src/main/java/com/floveit/notewidget/StickyNoteConfigureActivity.kt:1506-1517 | on one axis, an admissible centre fraction comes back exactly after export and restore |
| Crop.ExportRestoreRoundTrip | app/src/main/java/com/floveit/notewidget/StickyNoteConfigureActivity.kt:1506-1517 | the centre restored from an exported crop selects the same source window, so saving and restoring never moves the crop |
| Crop.ExactAcross | app/src/main/java/com/floveit/notewidget/StickyNoteConfigureActivity.kt:1506-1517 | the horizontal centre survives export and restore exactly when its window has room |
| Crop.ExactDown | app/src/main/java/com/floveit/notewidget/StickyNoteConfigureActivity.kt:1506-1517 | the vertical centre survives export and restore exactly when its window has room |
| Crop.ExportRestoreExact | app/src/main/java/com/floveit/notewidget/StickyNoteConfigureActivity.kt:1506-1517 | an admissible crop centre survives export and restore exactly |
| Text.IfBlank | app/src/main/java/com/floveit/notewidget/StickyNoteConfigureActivity.kt:655 | the result is the text or the default, text with content is kept, and the result is blank only when both are, so a non-blank default never yields blank |
| Text.ShowNatRoundTrip | app/src/main/java/com/floveit/notewidget/StickyNoteWidget.kt:96 | reading back the decimal digits of a rendered widget id gives the id |
| Text.ShowIntRoundTrip | app/src/main/java/com/floveit/notewidget/StickyNoteWidget.kt:96 | parsing a rendered integer, negative ones included, gives it back |
| Text.ShowIntInjective | app/src/main/java/com/floveit/notewidget/StickyNoteWidget.kt:96 | two ids render the same exactly when they are equal |
| Text.PadDigitsValue | app/src/main/java/com/floveit/notewidget/StickyNoteWidget.kt:100-104 | the zero-padded fraction digits read back as the number modulo the field's range |
| Text.Round6 | app/src/main/java/com/floveit/notewidget/StickyNoteWidget.kt:100-104 | the six-decimal value is within half a millionth of the original |
| Text.Round6Monotone | app/src/main/java/com/floveit/notewidget/StickyNoteWidget.kt:100-104 | rounding to six decimals keeps the order of values, so a saved crop keeps its edges ordered |
| Text.Round6Unit | app/src/main/java/com/floveit/notewidget/StickyNoteWidget.kt:100-104 | rounding keeps a unit-interval value in the unit interval |
| Text.Format6RoundTrip | app/src/main/java/com/floveit/notewidget/StickyNoteWidget.kt:99-116 | parsing the `%.6f` rendering of any value, negative ones included, gives its six-decimal rounding |
| Text.Split | app/src/main/java/com/floveit/notewidget/StickyNoteWidget.kt:111 | `split` gives at least one piece and no piece holds the separator |
| Text.JoinSplit | app/src/main/java/com/floveit/notewidget/StickyNoteWidget.kt:111 | joining the pieces of a split with the separator gives the text back |
| Text.SplitJoin | app/src/main/java/com/floveit/notewidget/StickyNoteWidget.kt:111 | splitting joined separator-free pieces gives the pieces back |
| Text.SplitCount | app/src/main/java/com/floveit/notewidget/StickyNoteWidget.kt:111-112 | a split yields one piece more than the text has separators |
| Store.KeyInjective | app/src/main/java/com/floveit/notewidget/StickyNoteWidget.kt:137-142 | two keys are equal exactly when setting and widget id are, so no save clobbers another setting or widget |
| Store.Put | app/src/main/java/com/floveit/notewidget/StickyNoteWidget.kt:89-91 | a store leaves its key holding the value and every other key as it was |
| Store.GetFloatAfterPut | app/src/main/java/com/floveit/notewidget/StickyNoteWidget.kt:94-96 | a float saved to a setting reads back as saved, whatever the default, and a read of any other setting or widget sees the value from before the save |
| Store.GetStringAfterPut | app/src/main/java/com/floveit/notewidget/StickyNoteWidget.kt:110 | a text saved to a setting reads back as saved, and a read of any other setting or widget sees the value from before the save |
| Store.PutKeepsOthers | app/src/main/java/com/floveit/notewidget/StickyNoteWidget.kt:89-91 | saving one setting of one widget leaves every other setting of every widget |
| Store.SavePhotoRotation | app/src/main/java/com/floveit/notewidget/StickyNoteWidget.kt:86-96 | after the save the loaded rotation lies in [0, 360), is the angle up to whole turns, and is the angle itself when in range |
| Store.CropString | app/src/main/java/com/floveit/notewidget/StickyNoteWidget.kt:100-104 | the crop text splits at its commas into the four six-decimal renderings |
| Store.SaveNormCrop | app/src/main/java/com/floveit/notewidget/StickyNoteWidget.kt:99-107 | after the save the crop key holds the crop text and nothing else changed |
| Store.Defensive | app/src/main/java/com/floveit/notewidget/StickyNoteWidget.kt:117-122 | the defensive clamp always yields a box inside the unit square and keeps a box already there |
| Store.ParseNormCrop | app/src/main/java/com/floveit/notewidget/StickyNoteWidget.kt:111-122 | the text parses exactly when it has four numeric pieces, and the result lies in the unit square |
| Store.LoadNormCrop | app/src/main/java/com/floveit/notewidget/StickyNoteWidget.kt:109-123 | a missing key loads nothing and anything loaded lies in the unit square |
| Store.NormCropRoundTrip | app/src/main/java/com/floveit/notewidget/StickyNoteWidget.kt:99-123 | saving then loading any crop gives the defensive clamp of its six-decimal rounding |
| Store.NormCropRoundTripInBox | app/src/main/java/com/floveit/notewidget/StickyNoteWidget.kt:99-123 | a crop inside the unit square loads back as its rounding, within half a millionth per edge |
| Store.ParseNormCropRejects | app/src/main/java/com/floveit/notewidget/StickyNoteWidget.kt:112 | any text without exactly three commas, such as `bad,data`, loads as no crop |
| Store.SavePhotoZoom | app/src/main/java/com/floveit/notewidget/StickyNoteWidget.kt:127-134 | the loaded zoom lies in [1, 3]: the saved zoom when in range, the nearer bound otherwise |
| Store.ClampPos | app/src/main/java/com/floveit/notewidget/StickyNoteWidget.kt:139-140 | a position is clamped into the unit square and an inside position is kept |
| Store.SavePos | app/src/main/java/com/floveit/notewidget/StickyNoteWidget.kt:137-150 | a position's two writes load back as the clamped position and touch only its two keys |
| Store.SaveCaptionPos | app/src/main/java/com/floveit/notewidget/StickyNoteWidget.kt:137-142 | the caption position loads back clamped into the unit square |
| Store.LoadCaptionPos | app/src/main/java/com/floveit/notewidget/StickyNoteWidget.kt:144-150 | with nothing stored the caption sits at (0.5, 0.8) |
| Store.SaveNotePos | app/src/main/java/com/floveit/notewidget/StickyNoteWidget.kt:200-205 | the note position loads back clamped into the unit square |
| Store.LoadNotePos | app/src/main/java/com/floveit/notewidget/StickyNoteWidget.kt:207-213 | with nothing stored the note text sits at (0.5, 0.8) |
| Store.SaveCaptionSize | app/src/main/java/com/floveit/notewidget/StickyNoteWidget.kt:152-156 | the caption size loads back exactly as saved, unclamped |
| Store.LoadCaptionSize | app/src/main/java/com/floveit/notewidget/StickyNoteWidget.kt:158-159 | with nothing stored the caption size is 14 sp |
| Store.SaveNote | app/src/main/java/com/floveit/notewidget/StickyNoteWidget.kt:161-164 | the note loads back exactly as saved |
| Store.LoadNote | app/src/main/java/com/floveit/notewidget/StickyNoteWidget.kt:166-167 | with nothing stored the note is empty |
| Store.SaveCaption | app/src/main/java/com/floveit/notewidget/StickyNoteWidget.kt:170-173 | the caption loads back exactly as saved |
| Store.LoadCaption | app/src/main/java/com/floveit/notewidget/StickyNoteWidget.kt:175-176 | with nothing stored the caption is empty |
| Store.SavePhotoUri | app/src/main/java/com/floveit/notewidget/StickyNoteWidget.kt:178-181 | a saved address loads back, except that a missing or blank one loads as no photo |
| Store.LoadPhotoUri | app/src/main/java/com/floveit/notewidget/StickyNoteWidget.kt:183-184 | a loaded address is non-blank and stored; no photo means a missing or blank entry |
| Store.DeleteNote | app/src/main/java/com/floveit/notewidget/StickyNoteWidget.kt:186-197 | the seven keys are gone, so note, caption, photo, size, rotation and caption position load their defaults; other keys are kept |
| Store.DeleteNoteKeeps | app/src/main/java/com/floveit/notewidget/StickyNoteWidget.kt:186-197 | the crop, zoom, note position and mode of the deleted widget, and every key of other widgets, survive |
| Store.SaveMode | app/src/main/java/com/floveit/notewidget/StickyNoteWidget.kt:217-219 | a saved mode loads back |
| Store.LoadMode | app/src/main/java/com/floveit/notewidget/StickyNoteWidget.kt:221-224 | the mode is PHOTO exactly when the stored name is `PHOTO`; missing or unknown names mean NOTE |
| Store.ToggleMode | app/src/main/java/com/floveit/notewidget/StickyNoteWidget.kt:226-230 | the toggle returns and stores the mode other than the loaded one, touching nothing else |
| Store.ToggleTwice | app/src/main/java/com/floveit/notewidget/StickyNoteWidget.kt:226-230 | two toggles bring the loaded mode back |
| Store.EffectiveMode | app/src/main/java/com/floveit/notewidget/StickyNoteWidget.kt:261 | the widget renders the photo exactly when the mode is PHOTO and a photo is stored |
| Compositor.Dp | app/src/main/java/com/floveit/notewidget/StickyNoteWidget.kt:307 | non-negative dp at a non-negative density convert to non-negative pixels |
| Compositor.DpMonotone | app/src/main/java/com/floveit/notewidget/StickyNoteWidget.kt:307 | the dp conversion preserves order, so capping in dp caps in pixels |
| Compositor.TargetSide | app/src/main/java/com/floveit/notewidget/StickyNoteWidget.kt:395-415 | a side is the reported minimum capped at 600 dp, or 180 dp when none is reported, and never exceeds 600 dp in pixels |
| Compositor.ResolveTargetSize | app/src/main/java/com/floveit/notewidget/StickyNoteWidget.kt:395-415 | both canvas sides are within 600 dp, default to 180 dp when unreported, and follow an in-range report exactly |
| Compositor.NoteOnlyFrame | app/src/main/java/com/floveit/notewidget/StickyNoteWidget.kt:543-570 | the note bitmap's stage is the content area's portrait fit, and its note bounds stay on the canvas |
| Compositor.NoteTextArea | app/src/main/java/com/floveit/notewidget/StickyNoteWidget.kt:580-586 | the text area starts at the padding, is never negative, and is the content area when there is room |
| Compositor.PhotoFrame | app/src/main/java/com/floveit/notewidget/StickyNoteWidget.kt:637-669 | from the padding of its own background (`noteuf_with_clip`), the photo bitmap builds its stage and inner box as the note bitmap does, and clamps its bounds onto the canvas |
| Compositor.OverlayLayout | app/src/main/java/com/floveit/notewidget/StickyNoteWidget.kt:313-376 | the overlay's stage is the content area's fit, its paddings are non-negative, and the toggle shows exactly when the note's shorter side has room for it |
| Compositor.OverlayFrame | app/src/main/java/com/floveit/notewidget/StickyNoteWidget.kt:325-357 | the overlay's frame is the stage fit, with bounds clamped onto the canvas |
| Compositor.SamePadFramesAgree | app/src/main/java/com/floveit/notewidget/StickyNoteWidget.kt:325-357 | with room and one shared padding, the overlay, the photo bitmap and the note bitmap build the same frame, since no clamp changes anything |
| Compositor.FramesAgree | app/src/main/java/com/floveit/notewidget/StickyNoteWidget.kt:310-357 | with room, the overlay buttons sit where the note bitmap draws the note (both read `note_with_clip`); the photo bitmap frames the same note when `noteuf_with_clip` has the same padding |
| Compositor.PhotoCard | app/src/main/java/com/floveit/notewidget/StickyNoteWidget.kt:908-940 | the card is centred on the origin, fits the frame when shrunk, and holds a 4:5 photo area inside its padded container |
| Compositor.CardHalf | app/src/main/java/com/floveit/notewidget/StickyNoteWidget.kt:908-910 | the card's half-extent is non-negative, mirrors the negative half, and two halves fit the side |
| Compositor.DestAspect | app/src/main/java/com/floveit/notewidget/StickyNoteWidget.kt:941 | the destination aspect is positive and times the height gives the width |
| Compositor.CardCaption | app/src/main/java/com/floveit/notewidget/StickyNoteWidget.kt:1025-1095 | no caption exactly when it is blank; otherwise a box inside the photo area less its margin |
| Compositor.CaptionFloorIrrelevant | app/src/main/java/com/floveit/notewidget/StickyNoteWidget.kt:1065-1080 | with room, the card caption and the preview caption are placed by the same rule |
| Compositor.NormWindow | app/src/main/java/com/floveit/notewidget/StickyNoteWidget.kt:945-949 | the normalised crop's pixel window is non-empty, inside the bitmap, and its edges are the truncated fractions unless clamped |
| Compositor.TrimToAspect | app/src/main/java/com/floveit/notewidget/StickyNoteWidget.kt:950-963 | the trimmed window stays inside the original and keeps one axis whole |
| Compositor.CentreCropBase | app/src/main/java/com/floveit/notewidget/StickyNoteWidget.kt:966-978 | without a crop the base window is a non-empty window inside the bitmap that spans it on one axis |
| Compositor.FitInside | app/src/main/java/com/floveit/notewidget/StickyNoteWidget.kt:1180-1196 | `fitAspectInside` keeps a non-empty container's fit inside it, at least a pixel each way |
| Compositor.CentreCrop | app/src/main/java/com/floveit/notewidget/StickyNoteWidget.kt:966-987 | a zoom of at most one keeps the base window; a larger zoom tightens it within the base |
| Compositor.CentreCropZoomCap | app/src/main/java/com/floveit/notewidget/StickyNoteWidget.kt:979-981 | any zoom above three crops exactly as three does |
| Compositor.SourceWindow | app/src/main/java/com/floveit/notewidget/StickyNoteWidget.kt:944-987 | the source window is inside the bitmap, and inside the crop's window or the centre crop |
| Compositor.PhotoCoverScale | app/src/main/java/com/floveit/notewidget/StickyNoteWidget.kt:1001-1002 | the card's cover factor is the preview's cover factor |
| Compositor.CoverIsInverseShrink | app/src/main/java/com/floveit/notewidget/StickyNoteWidget.kt:1001-1002 | `1 / shrinkToFitRotation` is the least cover factor of the rotated box |
| Compositor.SampleSize | app/src/main/java/com/floveit/notewidget/StickyNoteWidget.kt:1116-1131 | the sample is the least power of two bringing both sides within twice the request |
| Compositor.LargeSide | app/src/main/java/com/floveit/notewidget/StickyNoteWidget.kt:1122 | a side still too large after subsampling is at least the sample, so the doubling ends |
| Editor.Initial | app/src/main/java/com/floveit/notewidget/StickyNoteConfigureActivity.kt:747-790 | a new preview is in range, has no photo, is in photo mode, and allows crop gestures |
| Editor.SetCropZoom | app/src/main/java/com/floveit/notewidget/StickyNoteConfigureActivity.kt:748 | only the zoom changes; it lies in [1, 3] and an in-range zoom is kept |
| Editor.SetCropCenter | app/src/main/java/com/floveit/notewidget/StickyNoteConfigureActivity.kt:850-854 | only the crop centre changes; it lies in the unit square and an inside one is kept |
| Editor.SetCaptionSizeSp | app/src/main/java/com/floveit/notewidget/StickyNoteConfigureActivity.kt:859-863 | only the caption size changes; it lies in [9, 48] sp and an in-range size is kept |
| Editor.SetRotationDeg | app/src/main/java/com/floveit/notewidget/StickyNoteConfigureActivity.kt:891-895 | only the rotation changes; it lies in [0, 360) and is the angle up to whole turns |
| Editor.SetPosition | app/src/main/java/com/floveit/notewidget/StickyNoteConfigureActivity.kt:899-901 | only the caption position changes; it lies in the unit square and an inside one is kept |
| Editor.SetImage | app/src/main/java/com/floveit/notewidget/StickyNoteConfigureActivity.kt:881-889 | a new photo recentres the crop and changes nothing else |
| Editor.SettersIdempotent | app/src/main/java/com/floveit/notewidget/StickyNoteConfigureActivity.kt:848-901 | applying any setter twice with the same argument is applying it once |
| Editor.FitBitmap | app/src/main/java/com/floveit/notewidget/StickyNoteConfigureActivity.kt:1033-1043 | the whole photo's fit lies inside the crop window and is at least a pixel each way |
| Editor.PreviewCaption | app/src/main/java/com/floveit/notewidget/StickyNoteConfigureActivity.kt:1131-1268 | no caption exactly when hidden, blank, or a hidden bubble; otherwise a box within the stage's margins |
| Editor.Draw | app/src/main/java/com/floveit/notewidget/StickyNoteConfigureActivity.kt:958-1043 | the stage is the view's portrait fit; a photo-mode fit lies in the crop window; otherwise taps measure against the stage |
| Editor.CropWindow | app/src/main/java/com/floveit/notewidget/StickyNoteConfigureActivity.kt:1016-1026 | the crop window is a portrait fit of the stage |
| Editor.MapUVToView | app/src/main/java/com/floveit/notewidget/StickyNoteConfigureActivity.kt:832-846 | in note mode or without a photo a normalised point maps into the measuring rectangle |
| Touch.InitialGesture | app/src/main/java/com/floveit/notewidget/StickyNoteConfigureActivity.kt:1284-1292 | a new gesture tracks nothing and is valid |
| Touch.PointerIndex | app/src/main/java/com/floveit/notewidget/StickyNoteConfigureActivity.kt:1439-1440 | `findPointerIndex` gives the first pointer with the id, or -1 exactly when none has it |
| Touch.OnDown | app/src/main/java/com/floveit/notewidget/StickyNoteConfigureActivity.kt:1299-1318 | a first finger records where and when it went down, starts a caption drag on the caption or a crop pan elsewhere, and keeps the preview |
| Touch.OnPointerDown | app/src/main/java/com/floveit/notewidget/StickyNoteConfigureActivity.kt:1320-1351 | only a second finger starts a pinch, on the caption or the crop, recording the starting size (caption) or zoom, rotation and angle (crop) whatever gesture was in progress; other counts go to the platform |
| Touch.DragCaption | app/src/main/java/com/floveit/notewidget/StickyNoteConfigureActivity.kt:1356-1363 | a drag moves only the caption, to the finger clamped into the stage, and reports the new position |
| Touch.AdmitAxis | app/src/main/java/com/floveit/notewidget/StickyNoteConfigureActivity.kt:1394-1397 | a moved centre is pulled back so its window stays inside the photo, and an admissible one is kept |
| Touch.AdmitAxisMonotone | app/src/main/java/com/floveit/notewidget/StickyNoteConfigureActivity.kt:1394-1397 | pulling centres back preserves their order, so a pan never reverses |
| Touch.AdmitCentre | app/src/main/java/com/floveit/notewidget/StickyNoteConfigureActivity.kt:1392-1398 | the new centre is admissible, and an admissible request is kept |
| Touch.PanCrop | app/src/main/java/com/floveit/notewidget/StickyNoteConfigureActivity.kt:1365-1400 | a pan moves only the crop centre and keeps it admissible; with crop gestures off it is consumed and ignored |
| Touch.PanCentre | app/src/main/java/com/floveit/notewidget/StickyNoteConfigureActivity.kt:1375-1398 | the panned centre is admissible, and a still finger leaves an admissible centre where it was |
| Touch.PanAxis | app/src/main/java/com/floveit/notewidget/StickyNoteConfigureActivity.kt:1377-1398 | the panned fraction keeps the window inside the photo and moves against the finger |
| Touch.PanDirection | app/src/main/java/com/floveit/notewidget/StickyNoteConfigureActivity.kt:1379-1395 | for an admissible centre, a finger moving right (down) never moves the crop centre right (down), and a finger moving left (up) never moves it left (up) |
| Touch.PinchCrop | app/src/main/java/com/floveit/notewidget/StickyNoteConfigureActivity.kt:1402-1435 | a crop pinch sets the zoom from the finger distance, keeps the centre admissible and the rotation normalised; with crop gestures off it is ignored |
| Touch.PinchCentre | app/src/main/java/com/floveit/notewidget/StickyNoteConfigureActivity.kt:1411-1426 | after a zoom the centre is admissible, and zooming in keeps an admissible centre where it was |
| Touch.Twist | app/src/main/java/com/floveit/notewidget/StickyNoteConfigureActivity.kt:1429-1432 | the twisted rotation lies in [0, 360) and is the start rotation plus the angle change, up to whole turns |
| Touch.ZoomInKeepsCentre | app/src/main/java/com/floveit/notewidget/StickyNoteConfigureActivity.kt:1414-1423 | zooming in shrinks the window, so an admissible centre stays admissible |
| Touch.PinchCaption | app/src/main/java/com/floveit/notewidget/StickyNoteConfigureActivity.kt:1437-1451 | a caption pinch changes only the caption size, reports it exactly when it changed, and is ignored unless both tracked fingers are down |
| Touch.CaptionResized | app/src/main/java/com/floveit/notewidget/StickyNoteConfigureActivity.kt:1445-1450 | only the caption size changes, and the callback fires exactly when it differs |
| Touch.OnMove | app/src/main/java/com/floveit/notewidget/StickyNoteConfigureActivity.kt:1353-1456 | a move is consumed, keeps the gesture's mode, keeps the preview in range and reports what it changed |
| Touch.PointerUpFrom | app/src/main/java/com/floveit/notewidget/StickyNoteConfigureActivity.kt:1458-1471 | a lifted finger ends a crop pinch in a pan (or nothing with crop gestures off) from the given baseline, and ends a caption pinch in a drag |
| Touch.LiftedAnchorIndex | app/src/main/java/com/floveit/notewidget/StickyNoteConfigureActivity.kt:1462 | as written, with two fingers in tracking order the baseline index is the lifted finger's |
| Touch.OnPointerUpAsWritten | app/src/main/java/com/floveit/notewidget/StickyNoteConfigureActivity.kt:1458-1464 | as written, a crop pinch's pan baseline is the lifted finger's position; the preview stays in range and every change is reported |
| Touch.PinchEndJumps | app/src/main/java/com/floveit/notewidget/StickyNoteConfigureActivity.kt:1458-1464 | as written, lifting one of two pinching fingers makes the remaining finger's next still move pan by 200 pixels |
| Touch.RemainingIndex | app/src/main/java/com/floveit/notewidget/StickyNoteConfigureActivity.kt:1460 | the baseline index is a finger that is not being lifted |
| Touch.OnPointerUp | app/src/main/java/com/floveit/notewidget/StickyNoteConfigureActivity.kt:1458-1471 | corrected: the pan baseline after a crop pinch is a finger that stays down |
| Touch.PinchEndKeepsCrop | app/src/main/java/com/floveit/notewidget/StickyNoteConfigureActivity.kt:1458-1464 | after the corrected lift, the remaining finger's still move leaves an admissible crop where it was |
| Touch.TapUV | app/src/main/java/com/floveit/notewidget/StickyNoteConfigureActivity.kt:1482-1484 | as written, a tap normalises through the photo's pixels into the unit square |
| Touch.NoteTapMisplaced | app/src/main/java/com/floveit/notewidget/StickyNoteConfigureActivity.kt:1478-1486 | as written, a note-mode tap at (40, 50) on an 80x100 stage with a 100x100 photo puts the caption at (40, 62.5) |
| Touch.TapFixed | app/src/main/java/com/floveit/notewidget/StickyNoteConfigureActivity.kt:1478-1486 | corrected: a tap normalises into the unit square through the rectangle the preview maps back through |
| Touch.TapRoundTrip | app/src/main/java/com/floveit/notewidget/StickyNoteConfigureActivity.kt:832-846 | a tap on the stage (note mode) or on the fitted photo (photo mode) maps back to the tapped point |
| Touch.PhotoAxisRoundTrip | app/src/main/java/com/floveit/notewidget/StickyNoteConfigureActivity.kt:1482-1484 | on one axis, a photo-mode tap on the image and its mapping back agree |
| Touch.OnUp | app/src/main/java/com/floveit/notewidget/StickyNoteConfigureActivity.kt:1473-1491 | as written, a lift ends every gesture and reports a caption tap, normalised through the photo's pixels, exactly for a short, still, one-finger touch |
| Touch.OnUpCorrected | app/src/main/java/com/floveit/notewidget/StickyNoteConfigureActivity.kt:1473-1491 | corrected: the same lift, with the tap normalised through the rectangle the preview maps back through |
| Touch.OnTouch | app/src/main/java/com/floveit/notewidget/StickyNoteConfigureActivity.kt:1294-1494 | as written: without a photo nothing is consumed; every step keeps the preview in range and reports each change through its callback |
| Touch.OnTouchCorrected | app/src/main/java/com/floveit/notewidget/StickyNoteConfigureActivity.kt:1294-1494 | corrected: the same guarantees with both lift handlers corrected, and the same reaction as written for every other action |
| Configure.ApplyPosition | app/src/main/java/com/floveit/notewidget/StickyNoteConfigureActivity.kt:579-585 | the preview takes the tab's remembered position and nothing else changes |
| Configure.CommitInline | app/src/main/java/com/floveit/notewidget/StickyNoteConfigureActivity.kt:603-626 | the inline text becomes the tab's field and the shown caption, the editor closes, and the other tab's text is kept |
| Configure.OnCaptionTap | app/src/main/java/com/floveit/notewidget/StickyNoteConfigureActivity.kt:251-283 | a tap opens the editor on the tab's text, moves the tab's position to the tap, and hides the drawn caption |
| Configure.TypeInline | app/src/main/java/com/floveit/notewidget/StickyNoteConfigureActivity.kt:413-421 | typing changes the editor's text and mirrors it into the preview on the Photo tab only |
| Configure.OnPositionChanged | app/src/main/java/com/floveit/notewidget/StickyNoteConfigureActivity.kt:381-386 | the tab shown remembers the dragged position; the other tab's is kept |
| Configure.OnPreviewTouch | app/src/main/java/com/floveit/notewidget/StickyNoteConfigureActivity.kt:1294-1494 | a touch keeps the preview in range and the gesture valid, and keeps the preview where the tab remembers it |
| Configure.TouchOutsideEditor | app/src/main/java/com/floveit/notewidget/StickyNoteConfigureActivity.kt:629-651 | a touch is consumed exactly while the editor shows; afterwards it is closed with its text committed |
| Configure.SelectTab | app/src/main/java/com/floveit/notewidget/StickyNoteConfigureActivity.kt:114-157 | the new tab shows its text at its position, crop gestures follow the tab, and the crop and photo are kept |
| Configure.PickPhoto | app/src/main/java/com/floveit/notewidget/StickyNoteConfigureActivity.kt:96-107 | a picked photo is remembered and shown recentred, with the caption field's text, and nothing else changes |
| Configure.ApplyWrites | app/src/main/java/com/floveit/notewidget/StickyNoteConfigureActivity.kt:654-707 | applying typed writes keeps every key holding its setting's kind |
| Configure.LastWriteWins | app/src/main/java/com/floveit/notewidget/StickyNoteConfigureActivity.kt:654-707 | after a run of writes, a setting holds the value of the last write to it |
| Configure.Untouched | app/src/main/java/com/floveit/notewidget/StickyNoteConfigureActivity.kt:654-707 | a setting no write names, and every key of another widget, keeps what it held |
| Configure.SavedNote | app/src/main/java/com/floveit/notewidget/StickyNoteConfigureActivity.kt:655 | the saved note is never blank |
| Configure.VisibleCrop | app/src/main/java/com/floveit/notewidget/StickyNoteConfigureActivity.kt:699 | a crop is saved exactly when there is a photo, and lies in the unit square |
| Configure.SaveValues | app/src/main/java/com/floveit/notewidget/StickyNoteConfigureActivity.kt:654-700 | the caption position is saved exactly on the Photo tab; positions, zoom and rotation are in range; the crop text is the visible crop's, exactly with a photo |
| Configure.LayoutWrites | app/src/main/java/com/floveit/notewidget/StickyNoteConfigureActivity.kt:675-689 | the first writes name only the caption size, the note position, and the caption position on the Photo tab |
| Configure.ContentWrites | app/src/main/java/com/floveit/notewidget/StickyNoteConfigureActivity.kt:693-696 | the middle writes name only the note, caption, photo address and zoom |
| Configure.FinishWrites | app/src/main/java/com/floveit/notewidget/StickyNoteConfigureActivity.kt:699-700 | the last writes name only the rotation, and the crop when there is one |
| Configure.PositionWritesAreSaves | app/src/main/java/com/floveit/notewidget/StickyNoteWidget.kt:137-142 | a position's two writes are `saveCaptionPos` or `saveNotePos` |
| Configure.TextWritesAreSaves | app/src/main/java/com/floveit/notewidget/StickyNoteConfigureActivity.kt:693-695 | the text and address writes are `saveNote`, `saveCaption` and `savePhotoUri` |
| Configure.NumberWritesAreSaves | app/src/main/java/com/floveit/notewidget/StickyNoteConfigureActivity.kt:675-700 | the size, zoom, crop and rotation writes are their save functions |
| Configure.PersistLayout | app/src/main/java/com/floveit/notewidget/StickyNoteConfigureActivity.kt:675-689 | after all writes the size and positions hold the saved values, despite later writes |
| Configure.PersistContent | app/src/main/java/com/floveit/notewidget/StickyNoteConfigureActivity.kt:693-696 | after all writes the texts, address and zoom hold the saved values |
| Configure.PersistFinish | app/src/main/java/com/floveit/notewidget/StickyNoteConfigureActivity.kt:699-700 | after all writes the rotation, and the crop when saved, hold the saved values |
| Configure.PersistKeeps | app/src/main/java/com/floveit/notewidget/StickyNoteConfigureActivity.kt:654-707 | a save leaves settings it does not write, and other widgets, as they were |
| Configure.HandleSave | app/src/main/java/com/floveit/notewidget/StickyNoteConfigureActivity.kt:654-707 | a save keeps the preferences well typed |
| Configure.SavedCaptionSize | app/src/main/java/com/floveit/notewidget/StickyNoteConfigureActivity.kt:675-676 | after a save the caption size loads as the preview's |
| Configure.SavedPhotoPositions | app/src/main/java/com/floveit/notewidget/StickyNoteConfigureActivity.kt:680-689 | on the Photo tab a save stores the preview's position as the caption's and the remembered note position, both clamped |
| Configure.SavedNotePositions | app/src/main/java/com/floveit/notewidget/StickyNoteConfigureActivity.kt:680-689 | on the Note tab a save stores the preview's position as the note's and leaves the caption's stored position alone |
| Configure.SavedTexts | app/src/main/java/com/floveit/notewidget/StickyNoteConfigureActivity.kt:655-661 | after a save the note loads as the field (`(empty)` when blank), the caption as the open editor's text or the field |
| Configure.SavedPhoto | app/src/main/java/com/floveit/notewidget/StickyNoteConfigureActivity.kt:695 | after a save the photo loads as the chosen address, none when missing or blank |
| Configure.SavedZoom | app/src/main/java/com/floveit/notewidget/StickyNoteConfigureActivity.kt:696 | after a save the zoom loads as the preview's |
| Configure.SavedRotation | app/src/main/java/com/floveit/notewidget/StickyNoteConfigureActivity.kt:700 | after a save the rotation loads as the preview's |
| Configure.SavedCrop | app/src/main/java/com/floveit/notewidget/StickyNoteConfigureActivity.kt:699 | with a photo, a save stores the visible crop, which loads back rounded to six decimals |
| Configure.SavedWithoutCrop | app/src/main/java/com/floveit/notewidget/StickyNoteConfigureActivity.kt:699 | without a photo a save leaves the stored crop as it was |
| Configure.SaveKeepsOthers | app/src/main/java/com/floveit/notewidget/StickyNoteConfigureActivity.kt:654-707 | a save touches no other widget and never the stored mode |
| Configure.LoadAll | app/src/main/java/com/floveit/notewidget/StickyNoteConfigureActivity.kt:173-228 | a loaded crop lies in the unit square and a loaded address is non-blank |
| Configure.Fresh | app/src/main/java/com/floveit/notewidget/StickyNoteConfigureActivity.kt:110-170 | the screen starts for its widget, in range, with no photo and the editor closed |
| Configure.RestoreView | app/src/main/java/com/floveit/notewidget/StickyNoteConfigureActivity.kt:173-210 | the stored rotation, zoom and positions are restored when in range, and the preview sits at the tab's position |
| Configure.RestorePhoto | app/src/main/java/com/floveit/notewidget/StickyNoteConfigureActivity.kt:213-225 | a stored photo is shown, centred on the stored crop's middle; with none the screen is untouched |
| Configure.RestoreCrop | app/src/main/java/com/floveit/notewidget/StickyNoteConfigureActivity.kt:219-224 | a stored crop moves only the crop centre, to the crop's middle |
| Configure.RestoreCaption | app/src/main/java/com/floveit/notewidget/StickyNoteConfigureActivity.kt:228-238 | the preview shows the caption field's text at the stored size (when in range) at the tab's position |
| Configure.Reopen | app/src/main/java/com/floveit/notewidget/StickyNoteConfigureActivity.kt:170-238 | the rebuilt screen is on the Photo tab with every stored text, position, photo, and in-range setting |
| Configure.Restore | app/src/main/java/com/floveit/notewidget/StickyNoteConfigureActivity.kt:159-238 | the invalid id closes the screen; any other id opens it with the stored texts, positions and photo |
| Configure.SaveThenLoadContent | app/src/main/java/com/floveit/notewidget/StickyNoteConfigureActivity.kt:654-707 | loading after a save gives the saved texts and photo, and the preview's zoom, rotation and caption size |
| Configure.SaveThenLoadLayout | app/src/main/java/com/floveit/notewidget/StickyNoteConfigureActivity.kt:680-700 | loading after a save gives each tab's position, and the visible crop rounded to six decimals |
| Configure.ReopenTexts | app/src/main/java/com/floveit/notewidget/StickyNoteConfigureActivity.kt:213-230 | reopening after a save fills both fields with the saved texts and shows the saved caption |
| Configure.ReopenPhoto | app/src/main/java/com/floveit/notewidget/StickyNoteConfigureActivity.kt:213-218 | reopening after a save shows the chosen photo, and none when none was saved |
| Configure.ReopenSettings | app/src/main/java/com/floveit/notewidget/StickyNoteConfigureActivity.kt:173-231 | reopening after a save shows the preview's zoom, rotation and caption size exactly |
| Configure.ReopenPhotoPositions | app/src/main/java/com/floveit/notewidget/StickyNoteConfigureActivity.kt:198-210 | reopening after a Photo-tab save puts the caption where it was |
| Configure.ReopenNotePositions | app/src/main/java/com/floveit/notewidget/StickyNoteConfigureActivity.kt:198-210 | reopening after a Note-tab save puts the note text where it was |
| Configure.ReopenCrop | app/src/main/java/com/floveit/notewidget/StickyNoteConfigureActivity.kt:220-224 | reopening after a save centres the crop within half a millionth of where it was |
| Configure.VisibleCropRestores | app/src/main/java/com/floveit/notewidget/StickyNoteConfigureActivity.kt:1506-1517 | the middle of the visible crop is the crop centre when that centre is admissible |
| Configure.RoundedCentreClose | app/src/main/java/com/floveit/notewidget/StickyNoteWidget.kt:100-104 | rounding a crop's edges to six decimals moves its middle by at most half a millionth |
| Configure.InlineEditSaved | app/src/main/java/com/floveit/notewidget/StickyNoteConfigureActivity.kt:603-651 | tapping the caption, typing, then touching outside leaves the typed text in the tab's field |

## Left out

- Drawing itself (paint, shadows, round rectangles, clip paths, canvas transforms and `invalidate`) is left out. The model keeps only the rectangles the draw computes.
- Text layout is left out. `StaticLayout` line breaking, maximum line widths and the font-size shrink loops of the preview, the card caption and the note text are measurements outside the model. Measured text sizes are inputs.
- `cos`, `sin`, `atan2`, `hypot` and `Math.toRadians` are left out. The rotation factors take the absolute cosine and sine as inputs with cos² + sin² = 1. The pinch distance and twist angle arrive with each event.
- IEEE float rounding is left out. Floats are reals: `Float` arithmetic is exact in the model, and only the `toInt`, `/`, `%` and `%.6f` roundings are modelled.
- I/O is left out: `ContentResolver` decoding, persistable URI permissions, `RemoteViews`, `AppWidgetManager` updates and broadcasts. The decoder's result is an input, and `loadScaledBitmap` is modelled only as its sample-size loop.
- The system clock is left out. Each event carries a clock reading in milliseconds, which the down records and the lift compares against.
- Views and focus are left out: keyboard showing and hiding, the inline editor's placement margins, the rotation seek bar's UI, the font picker, button styling and `handleCancel`.
- `dispatchTouchEvent` is modelled only as its effect on the inline editor (`Configure.TouchOutsideEditor`). Hit testing against the editor's screen rectangle is left out.
- Reaching the commit paths is left out. A touch anywhere outside the open editor commits it and consumes the event first. So `handleSave`'s inline branch and the commit after a tab switch run with an editor that the user cannot leave open by touch, and they are modelled exactly as written.
- `onReceive`, `onUpdate` and `onDeleted` only dispatch to the modelled `toggleMode`, `updateWidget` geometry and `deleteNote`.
- `drawCaptionOverlay`, `drawClipOverlay` and `drawNoteTextAtPos` are left out. They are text drawing with shrink loops.
- Editor.MapUVToView: the photo-mode branch's image-area bound is stated only through `Touch.TapRoundTrip`, because the fit's height is not the photo's height at the fit's scale in general.
- Configure.ReopenCrop: the crop centre comes back within half a millionth rather than exactly, because the crop text keeps six decimals. The claim is only for a centre whose window fits the photo.
- Configure.OnPreviewTouch: it states that the screen stays consistent, not each gesture's effect, which `Touch.OnTouch` and the gesture members state.
- Store.ParseNormCrop: it accepts only an optional sign, decimal digits and one point. Kotlin's `toFloatOrNull` also accepts exponents, `f` and `d` suffixes, surrounding whitespace, `NaN`, `Infinity` and hexadecimal, so text such as `1e-1,0.2,0.9,0.95` loads in the app and not in the model. The app only ever stores Locale.US `%.6f` text, which the model parses exactly.
- Store.KeyInjective: the note-position keys are built with `"note_pos_x_%d".format(id)`, which renders the id in the default locale's digits. The model renders ASCII digits only, as under an ASCII-digit locale.
- Compositor.FramesAgree: the photo bitmap reads its padding from `noteuf_with_clip` and the overlay from `note_with_clip`. The drawable resources are not part of this model, so agreement of the photo bitmap with the overlay is proved only under equal paddings.
- Compositor.SampleSize: it requires a non-negative request. The photo path passes the stage width uncapped, which is negative for a widget narrower than its padding. The app's loop then doubles `sample` until 32-bit overflow makes it 0, the division by zero throws, and `runCatching` falls back to a full decode. That path is not modelled.

## Findings

| source | as written | input that shows it | evidently intended | confidence | as-written member | corrected member |
|---|---|---|---|---|---|---|
| app/src/main/java/com/floveit/notewidget/StickyNoteConfigureActivity.kt:1458-1464 | when one finger of a crop pinch lifts, the pan baseline is read at index 0 if the lifted pointer is the first tracked one, else index 1. With the two fingers in tracking order, that is always the lifted finger | pointers 1 at (100, 100) and 2 at (300, 100), pointer 2 lifted; the baseline becomes x = 300, and pointer 1's next move at x = 100 pans by -200 pixels | the baseline is the remaining finger, so the crop does not jump when a pinch ends | high, not executed | Touch.PinchEndJumps | Touch.PinchEndKeepsCrop |
| app/src/main/java/com/floveit/notewidget/StickyNoteConfigureActivity.kt:1478-1486 | a tap is normalised through the photo's pixels even in note mode, where the preview measures and maps positions through the stage | note mode, 100x100 photo, 80x100 stage, tap at (40, 50): normalised to (0.5, 0.625), which the preview maps back to (40, 62.5) | the tap normalises through the same rectangle that `mapUVToView` maps back through, so the caption lands where tapped | medium, not executed | Touch.NoteTapMisplaced | Touch.TapRoundTrip |

The configuration screen (`Configure.OnPreviewTouch`) runs `Touch.OnTouch`, which dispatches both lifts as written. The corrected handlers (`Touch.OnPointerUp`, `Touch.OnUpCorrected`) are assembled in `Touch.OnTouchCorrected`, which keeps the same guarantees.

=== FILE: caption.dfy ===
/**
 Caption placement, shared by the editor preview and the two widget
 renderers: a measured text block is centred on a normalised target point of
 an area, then clamped into the area inset by a margin, with a fallback for
 areas too small to hold it.
 */
module Caption {
  import opened Numeric
  import opened Geometry

  /** Plain text boxes the text alone; a bubble adds horizontal and vertical padding around it. */
  datatype Style = Plain | Bubble

  /** Margin to the area's edges and the bubble's padding, in pixels. */
  datatype Metrics = Metrics(margin: real, padH: real, padV: real)

  /**
   One axis of the placement: a box of length `size` centred on `target`,
   moved as little as possible to lie in `[lo + margin, hi - margin]`; when
   the box is longer than that range the axis uses `fallback` instead.
   */
  function PlaceAxis(target: real, size: real, lo: real, hi: real, margin: real, fallback: real): (start: real)
    ensures lo + margin <= hi - margin - size ==> lo + margin <= start && start + size <= hi - margin
    ensures lo + margin <= target - size / 2.0 && target - size / 2.0 + size <= hi - margin ==>
      start == target - size / 2.0
    ensures lo + margin <= hi - margin - size && target - size / 2.0 < lo + margin ==> start == lo + margin
    ensures lo + margin <= hi - margin - size && target - size / 2.0 > hi - margin - size ==> start == hi - margin - size
    ensures hi - margin - size < lo + margin ==> start == fallback
  {
    var low := lo + margin;
    var high := hi - margin - size;
    if high >= low then Clamp(target - size / 2.0, low, high) else fallback
  }

  /** The area less its margin on every side. */
  function Inset(area: Rect, margin: real): RectF {
    RectF(area.left as real + margin, area.top as real + margin,
          area.right as real - margin, area.bottom as real - margin)
  }

  /** `b` lies within `outer`. */
  predicate WithinF(b: RectF, outer: RectF) {
    outer.left <= b.left && b.right <= outer.right && outer.top <= b.top && b.bottom <= outer.bottom
  }

  /** The point at normalised position `(posX, posY)` of `area`, the position clamped into the unit square. */
  function TargetX(area: Rect, posX: real): real {
    area.left as real + area.Width() as real * Clamp(posX, 0.0, 1.0)
  }

  function TargetY(area: Rect, posY: real): real {
    area.top as real + area.Height() as real * Clamp(posY, 0.0, 1.0)
  }

  /** On an area of non-negative size the target point lies between its left and right and between its top and bottom. */
  lemma TargetInside(area: Rect, posX: real, posY: real)
    ensures area.Width() >= 0 ==> area.left as real <= TargetX(area, posX) <= area.right as real
    ensures area.Height() >= 0 ==> area.top as real <= TargetY(area, posY) <= area.bottom as real
  {
    if area.Width() >= 0 {
      FractionOnExtent(area.left as real, area.Width() as real, area.right as real, Clamp(posX, 0.0, 1.0));
    }
    if area.Height() >= 0 {
      FractionOnExtent(area.top as real, area.Height() as real, area.bottom as real, Clamp(posY, 0.0, 1.0));
    }
  }

  lemma FractionOnExtent(lo: real, extent: real, hi: real, f: real)
    requires extent >= 0.0 && lo + extent == hi && 0.0 <= f <= 1.0
    ensures lo <= lo + extent * f <= hi
  {
    ScaleWeak(extent, 0.0, f);
    ScaleWeak(extent, f, 1.0);
  }

  /** The area leaves at least one pixel, and room for the padding, inside its margins. */
  predicate Roomy(area: Rect, m: Metrics) {
    && m.padH >= 0.0 && m.padV >= 0.0
    && area.Width() as real - 2.0 * m.margin >= Max(1.0, 2.0 * m.padH)
    && area.Height() as real - 2.0 * m.margin >= Max(1.0, 2.0 * m.padV)
  }

  /**
   The caption's box in `area`: the measured text `textW` x `textH` is
   limited to the area less the margins and padding, boxed in the given
   style, centred on the point at the normalised position `(posX, posY)`
   and clamped inside the margins. An axis too short for the box centres it
   horizontally, or pins it to the top margin vertically. `floorAtOne` says
   whether the available box extent is floored at one pixel, as the editor
   does and the photo card does not.

   In a roomy area the box never leaves the margins, is not inverted and is
   never larger than the text (plus padding for a bubble). Where the box
   centred on the target already fits, that is where it goes.
   */
  function CaptionBox(area: Rect, textW: real, textH: real, posX: real, posY: real,
                      m: Metrics, style: Style, floorAtOne: bool): (b: RectF)
    ensures textW >= 1.0 && textH >= 1.0 && Roomy(area, m) ==>
      && WithinF(b, Inset(area, m.margin))
      && 0.0 <= b.Width() <= textW + (if style == Bubble then 2.0 * m.padH else 0.0)
      && 0.0 <= b.Height() <= textH + (if style == Bubble then 2.0 * m.padV else 0.0)
    ensures var inset := Inset(area, m.margin);
      inset.left <= TargetX(area, posX) - b.Width() / 2.0 && TargetX(area, posX) + b.Width() / 2.0 <= inset.right ==>
        (b.left + b.right) / 2.0 == TargetX(area, posX)
    ensures var inset := Inset(area, m.margin);
      inset.top <= TargetY(area, posY) - b.Height() / 2.0 && TargetY(area, posY) + b.Height() / 2.0 <= inset.bottom ==>
        (b.top + b.bottom) / 2.0 == TargetY(area, posY)
    ensures var inset := Inset(area, m.margin);
      inset.right - b.Width() < inset.left ==> (b.left + b.right) / 2.0 == (area.left as real + area.right as real) / 2.0
    ensures var inset := Inset(area, m.margin);
      inset.bottom - b.Height() < inset.top ==> b.top == inset.top
  {
    var w := area.Width() as real;
    var h := area.Height() as real;
    var boxW := BoxLength(w, m.margin, m.padH, textW, style, floorAtOne);
    var boxH := BoxLength(h, m.margin, m.padV, textH, style, floorAtOne);
    var left := PlaceAxis(TargetX(area, posX), boxW, area.left as real, area.right as real, m.margin,
                          area.left as real + (w - boxW) / 2.0);
    var top := PlaceAxis(TargetY(area, posY), boxH, area.top as real, area.bottom as real, m.margin,
                         area.top as real + m.margin);
    RectF(left, top, left + boxW, top + boxH)
  }

  /**
   The box's length along one axis of extent `extent`: the text's length,
   limited to the extent less both margins (floored at one pixel when
   `floorAtOne`) and less the padding, with the padding added back for a
   bubble. With room for the padding the box fits between the margins and
   is never longer than the padded text.
   */
  function BoxLength(extent: real, margin: real, pad: real, text: real, style: Style, floorAtOne: bool): (len: real)
    ensures text >= 1.0 && pad >= 0.0 && extent - 2.0 * margin >= Max(1.0, 2.0 * pad) ==>
      && 0.0 <= len <= text + (if style == Bubble then 2.0 * pad else 0.0)
      && len <= extent - 2.0 * margin
  {
    var maxBox := if floorAtOne then Max(extent - 2.0 * margin, 1.0) else extent - 2.0 * margin;
    var inner := Min(text, maxBox - 2.0 * pad);
    if style == Bubble then inner + 2.0 * pad else inner
  }

  /** With at least a pixel between the margins, the one-pixel floor does not change the box's length. */
  lemma BoxFloorIrrelevant(extent: real, margin: real, pad: real, text: real, style: Style)
    requires extent - 2.0 * margin >= 1.0
    ensures BoxLength(extent, margin, pad, text, style, true) == BoxLength(extent, margin, pad, text, style, false)
  {
  }
}

=== FILE: compositor.dfy ===
/**
 The widget's bitmap compositor (`StickyNoteWidget` companion object): the
 target canvas size, the note frame of both bitmaps and of the button
 overlay, the photo card inside the frame, the choice of the photo's source
 window, the rotation cover factor, the card caption and the decoder's
 power-of-two subsampling.
 */
module Compositor {
  import opened Numeric
  import opened Optional
  import opened Geometry
  import opened Caption
  import opened Crop
  import opened Text

  /** `TypedValue.applyDimension(DIP, v).toInt()`: `v` density-independent pixels in whole pixels. */
  function Dp(v: real, density: real): (px: int)
    ensures 0.0 <= v && 0.0 <= density ==> 0 <= px
  {
    NonNegativeProduct(v, density);
    Trunc(v * density)
  }

  lemma NonNegativeProduct(a: real, b: real)
    ensures 0.0 <= a && 0.0 <= b ==> 0.0 <= a * b
  {
    if 0.0 <= a && 0.0 <= b {
      ScaleWeak(a, 0.0, b);
    }
  }

  lemma TruncMonotone(x: real, y: real)
    requires x <= y
    ensures Trunc(x) <= Trunc(y)
  {
  }

  lemma DpMonotone(a: real, b: real, density: real)
    requires a <= b && 0.0 <= density
    ensures Dp(a, density) <= Dp(b, density)
  {
    ScaleWeak(density, a, b);
    TruncMonotone(a * density, b * density);
  }

  // ---------------------------------------------------------------------
  // Target size (`resolveTargetSizePx`)
  // ---------------------------------------------------------------------

  const DefaultSideDp: int := 180
  const MaxSideDp: int := 600

  /**
   One side of the canvas: the host's minimum size in dp when it reports
   one, otherwise 180 dp, converted to pixels and capped at 600 dp. Capping
   the pixels is the same as capping the dp value before the conversion,
   so the side is never above 600 dp and never negative.
   */
  function TargetSide(minDp: int, density: real): (px: int)
    requires density >= 0.0
    ensures px == Dp(if minDp > 0 then MinInt(minDp, MaxSideDp) as real else DefaultSideDp as real, density)
    ensures minDp > 0 ==> px <= Dp(minDp as real, density)
    ensures 0 <= px <= Dp(MaxSideDp as real, density)
  {
    var requested := if minDp > 0 then Dp(minDp as real, density) else Dp(DefaultSideDp as real, density);
    var cap := Dp(MaxSideDp as real, density);
    CapInDp(minDp, density);
    MinInt(requested, cap)
  }

  /** Capping after the conversion is capping before it, the conversion being monotone. */
  lemma CapInDp(minDp: int, density: real)
    requires density >= 0.0
    ensures minDp > 0 ==>
      MinInt(Dp(minDp as real, density), Dp(MaxSideDp as real, density)) == Dp(MinInt(minDp, MaxSideDp) as real, density)
    ensures Dp(DefaultSideDp as real, density) <= Dp(MaxSideDp as real, density)
  {
    if minDp > 0 {
      if minDp <= MaxSideDp {
        DpMonotone(minDp as real, MaxSideDp as real, density);
      } else {
        DpMonotone(MaxSideDp as real, minDp as real, density);
      }
    }
    DpMonotone(DefaultSideDp as real, MaxSideDp as real, density);
  }

  /** `resolveTargetSizePx`: the canvas width and height for the host's reported minimum size. */
  function ResolveTargetSize(minWdp: int, minHdp: int, density: real): (size: (int, int))
    requires density >= 0.0
    ensures 0 <= size.0 <= Dp(MaxSideDp as real, density) && 0 <= size.1 <= Dp(MaxSideDp as real, density)
    ensures minWdp <= 0 ==> size.0 == Dp(DefaultSideDp as real, density)
    ensures minHdp <= 0 ==> size.1 == Dp(DefaultSideDp as real, density)
    ensures 0 < minWdp <= MaxSideDp ==> size.0 == Dp(minWdp as real, density)
    ensures 0 < minHdp <= MaxSideDp ==> size.1 == Dp(minHdp as real, density)
  {
    (TargetSide(minWdp, density), TargetSide(minHdp, density))
  }

  // ---------------------------------------------------------------------
  // Note frame and button overlay
  // ---------------------------------------------------------------------

  /** The note background's 9-patch padding, in pixels. */
  datatype Insets = Insets(left: int, top: int, right: int, bottom: int) {
    predicate NonNegative() { left >= 0 && top >= 0 && right >= 0 && bottom >= 0 }
  }

  /** The 9-patch padding, or 12 dp on every side when the drawable is not a 9-patch. */
  function NotePadding(ninePatch: Option<Insets>, density: real): Insets {
    match ninePatch
    case Some(p) => p
    case None => var d := Dp(12.0, density); Insets(d, d, d, d)
  }

  /** The note's content area in a `w` x `h` canvas. */
  function ContentRect(w: int, h: int, pad: Insets): Rect {
    Rect(pad.left, pad.top, w - pad.right, h - pad.bottom)
  }

  /** The content area is at least one pixel each way. */
  predicate RoomyContent(w: int, h: int, pad: Insets) {
    ContentRect(w, h, pad).Width() >= 1 && ContentRect(w, h, pad).Height() >= 1
  }

  function Deflate(r: Rect, d: int): Rect {
    Rect(r.left + d, r.top + d, r.right - d, r.bottom - d)
  }

  function Inflate(r: Rect, pad: Insets): Rect {
    Rect(r.left - pad.left, r.top - pad.top, r.right + pad.right, r.bottom + pad.bottom)
  }

  /** Each edge pulled back onto a `w` x `h` canvas. */
  function ClampToCanvas(r: Rect, w: int, h: int): Rect {
    Rect(MaxInt(r.left, 0), MaxInt(r.top, 0), MinInt(r.right, w), MinInt(r.bottom, h))
  }

  function Canvas(w: int, h: int): Rect {
    Rect(0, 0, w, h)
  }

  /** The inset between the stage and the note's inner content, 6 dp. */
  function NoteInset(density: real): int {
    Dp(6.0, density)
  }

  /**
   The note's geometry: the 4:5 stage, the inner content (the stage less
   the inset) and the note's bounds (the inner content grown by the 9-patch
   padding), where the background and the clip are drawn.
   */
  datatype Frame = Frame(stage: Rect, inner: Rect, bounds: Rect)

  /**
   `makeNoteOnlyBitmap`'s frame. With a non-negative padding and inset the
   stage is the editor's stage of the content area and the note never
   leaves the canvas, although nothing clamps it.
   */
  function NoteOnlyFrame(w: int, h: int, pad: Insets, density: real): (f: Frame)
    ensures RoomyContent(w, h, pad) ==> IsPortraitFit(ContentRect(w, h, pad), f.stage)
    ensures pad.NonNegative() && density >= 0.0 && RoomyContent(w, h, pad) ==> f.bounds.Inside(Canvas(w, h))
  {
    var stage := Stage(ContentRect(w, h, pad));
    var inner := Deflate(stage, NoteInset(density));
    Frame(stage, inner, Inflate(inner, pad))
  }

  /**
   The area the note-only bitmap lays its text out in: the content area
   from the padding's corner, its extent floored at zero. It is the whole
   content area, not the stage.
   */
  function NoteTextArea(w: int, h: int, pad: Insets): (a: Rect)
    ensures a.left == pad.left && a.top == pad.top && a.Width() >= 0 && a.Height() >= 0
    ensures RoomyContent(w, h, pad) ==> a == ContentRect(w, h, pad)
  {
    Rect(pad.left, pad.top, pad.left + MaxInt(w - pad.left - pad.right, 0),
         pad.top + MaxInt(h - pad.top - pad.bottom, 0))
  }

  /**
   `makePhotoOnlyBitmap`'s frame, from the padding of its own background
   (`noteuf_with_clip`, not the note bitmap's `note_with_clip`): the stage
   and inner content are built as the note-only bitmap builds them from
   that padding, and the bounds are clamped onto the canvas.
   */
  function PhotoFrame(w: int, h: int, pad: Insets, density: real): (f: Frame)
    ensures f.stage == NoteOnlyFrame(w, h, pad, density).stage && f.inner == NoteOnlyFrame(w, h, pad, density).inner
    ensures w >= 0 && h >= 0 ==> 0 <= f.bounds.left && f.bounds.right <= w && 0 <= f.bounds.top && f.bounds.bottom <= h
  {
    var f := NoteOnlyFrame(w, h, pad, density);
    Frame(f.stage, f.inner, ClampToCanvas(f.bounds, w, h))
  }

  /** The overlay's frame, its padding (where the buttons sit) and whether the toggle button shows. */
  datatype Overlay = Overlay(frame: Frame, padding: Insets, toggleVisible: bool)

  /** The gap between the buttons and the note's corner, 8 dp. */
  function EdgeGap(density: real): int {
    Dp(8.0, density)
  }

  /** The least side the note needs to show the toggle: a 44 dp button and an 8 dp gap. */
  function ToggleRoom(density: real): int {
    Dp(44.0, density) + Dp(8.0, density)
  }

  /**
   The button overlay of `updateWidget`: the stage is fitted from the content
   area's extents floored at one pixel, the inner content and the bounds are
   clamped onto the canvas, and the overlay's padding puts the buttons'
   corner `EdgeGap` inside the note's corner. The toggle shows exactly when
   both sides of the note hold `ToggleRoom`.
   */
  function OverlayLayout(w: int, h: int, pad: Insets, density: real): (o: Overlay)
    ensures RoomyContent(w, h, pad) ==> o.frame.stage == Stage(ContentRect(w, h, pad))
    ensures w >= 0 && h >= 0 ==>
      && 0 <= o.frame.inner.left && o.frame.inner.right <= w && 0 <= o.frame.inner.top && o.frame.inner.bottom <= h
      && 0 <= o.frame.bounds.left && o.frame.bounds.right <= w && 0 <= o.frame.bounds.top && o.frame.bounds.bottom <= h
    ensures o.padding.NonNegative()
    ensures w >= 0 && h >= 0 && density >= 0.0 ==>
      && o.padding.left == o.frame.bounds.left + EdgeGap(density)
      && o.padding.top == o.frame.bounds.top + EdgeGap(density)
      && w - o.padding.right == o.frame.bounds.right - EdgeGap(density)
      && h - o.padding.bottom == o.frame.bounds.bottom - EdgeGap(density)
    ensures o.toggleVisible <==>
      o.frame.bounds.Width() >= ToggleRoom(density) && o.frame.bounds.Height() >= ToggleRoom(density)
  {
    var f := OverlayFrame(w, h, pad, density);
    var bounds := f.bounds;
    var gap := EdgeGap(density);
    var padding := Insets(MaxInt(bounds.left + gap, 0), MaxInt(bounds.top + gap, 0),
                          MaxInt(w - bounds.right + gap, 0), MaxInt(h - bounds.bottom + gap, 0));
    var minSide := MinInt(bounds.Width(), bounds.Height());
    Overlay(f, padding, !(minSide < ToggleRoom(density)))
  }

  /** The overlay's own frame: the stage fitted by floats, its inset and padded boxes clamped to the canvas. */
  function OverlayFrame(w: int, h: int, pad: Insets, density: real): (f: Frame)
    ensures RoomyContent(w, h, pad) ==> f.stage == Stage(ContentRect(w, h, pad))
    ensures w >= 0 && h >= 0 ==>
      && 0 <= f.inner.left && f.inner.right <= w && 0 <= f.inner.top && f.inner.bottom <= h
      && 0 <= f.bounds.left && f.bounds.right <= w && 0 <= f.bounds.top && f.bounds.bottom <= h
  {
    var content := ContentRect(w, h, pad);
    var stage := FitAspect(content, Max(content.Width() as real, 1.0), Max(content.Height() as real, 1.0),
                           PortraitAspect);
    var inner := ClampToCanvas(Deflate(stage, NoteInset(density)), w, h);
    Frame(stage, inner, ClampToCanvas(Inflate(inner, pad), w, h))
  }

  /**
   The three frames agree when they share a padding: for a non-negative
   padding and a content area of at least one pixel, none of the clamps
   changes anything.
   */
  lemma SamePadFramesAgree(w: int, h: int, pad: Insets, density: real)
    requires pad.NonNegative() && density >= 0.0 && RoomyContent(w, h, pad)
    ensures OverlayLayout(w, h, pad, density).frame == PhotoFrame(w, h, pad, density)
    ensures PhotoFrame(w, h, pad, density) == NoteOnlyFrame(w, h, pad, density)
  {
    var content := ContentRect(w, h, pad);
    var s := Stage(content);
    assert s.Inside(content);
    var inset := NoteInset(density);
    assert Deflate(s, inset) == ClampToCanvas(Deflate(s, inset), w, h);
    var f := NoteOnlyFrame(w, h, pad, density);
    assert f.bounds == ClampToCanvas(f.bounds, w, h);
  }

  /**
   The overlay and the note bitmap both read `note_with_clip`'s padding
   (`notePad`), so the buttons sit on the note exactly where the note bitmap
   draws it. The photo bitmap reads `noteuf_with_clip`'s (`photoPad`): its
   clamps change nothing either, and it frames the same note when
   the two backgrounds have the same padding.
   */
  lemma FramesAgree(w: int, h: int, notePad: Insets, photoPad: Insets, density: real)
    requires notePad.NonNegative() && photoPad.NonNegative() && density >= 0.0
    requires RoomyContent(w, h, notePad) && RoomyContent(w, h, photoPad)
    ensures OverlayLayout(w, h, notePad, density).frame == NoteOnlyFrame(w, h, notePad, density)
    ensures PhotoFrame(w, h, photoPad, density) == NoteOnlyFrame(w, h, photoPad, density)
    ensures photoPad == notePad ==> PhotoFrame(w, h, photoPad, density) == OverlayLayout(w, h, notePad, density).frame
  {
    SamePadFramesAgree(w, h, notePad, density);
    SamePadFramesAgree(w, h, photoPad, density);
  }

  // ---------------------------------------------------------------------
  // The photo card
  // ---------------------------------------------------------------------

  /** The card (centred on the origin of the card transform), the photo's container and the photo area. */
  datatype Card = Card(card: Rect, container: Rect, photo: Rect)

  /** Space left under the photo inside the card, in pixels on top of the padding. */
  const CardBottomExtra: int := 50

  /**
   `drawPhotoCardWithCaption`'s card for a `w` x `h` stage and the frame
   tilt's shrink factor: a card of the shrunk extents (floored at a pixel,
   then halved with integer division) centred on the origin, padded by
   10 dp (50 pixels more at the bottom); the photo area is the 4:5 stage of
   that container. A shrink of at most one keeps the card within the stage's
   extents.
   */
  function PhotoCard(w: int, h: int, shrink: real, density: real): (c: Card)
    ensures c.card.left == -c.card.right && c.card.top == -c.card.bottom
    ensures c.card.right >= 0 && c.card.bottom >= 0
    ensures w >= 1 && h >= 1 && 0.0 < shrink <= 1.0 ==> c.card.Width() <= w && c.card.Height() <= h
    ensures density >= 0.0 && c.container.Width() >= 1 && c.container.Height() >= 1 ==>
      IsPortraitFit(c.container, c.photo) && c.photo.Inside(c.card)
  {
    var halfW := CardHalf(w, shrink);
    var halfH := CardHalf(h, shrink);
    var card := Rect(-halfW, -halfH, halfW, halfH);
    var pad := Dp(10.0, density);
    var container := Rect(card.left + pad, card.top + pad, card.right - pad, card.bottom - (pad + CardBottomExtra));
    Card(card, container, Stage(container))
  }

  /**
   Half the card's side for a stage side `n`: the shrunk side floored at a
   pixel, halved with integer division (`-drawW / 2` is the negated half).
   Twice that half is within the stage side when the shrink is at most one.
   */
  function CardHalf(n: int, shrink: real): (half: int)
    ensures half >= 0
    ensures Div(-MaxInt(Trunc(n as real * shrink), 1), 2) == -half
    ensures n >= 1 && 0.0 < shrink <= 1.0 ==> 2 * half <= n
  {
    var drawn := MaxInt(Trunc(n as real * shrink), 1);
    ShrunkSide(n, shrink);
    Div(drawn, 2)
  }

  lemma ShrunkSide(n: int, shrink: real)
    ensures n >= 1 && 0.0 < shrink <= 1.0 ==> MaxInt(Trunc(n as real * shrink), 1) <= n
  {
    if n >= 1 && 0.0 < shrink <= 1.0 {
      ScaleWeak(n as real, shrink, 1.0);
      assert n as real * shrink <= n as real;
      TruncMonotone(n as real * shrink, n as real);
    }
  }

  /** The destination aspect `imgRect.width / imgRect.height` of a non-empty photo area. */
  function DestAspect(photo: Rect): (ar: real)
    requires photo.Width() >= 1 && photo.Height() >= 1
    ensures ar > 0.0
    ensures ar * photo.Height() as real == photo.Width() as real
  {
    QuotientFacts(photo.Width() as real, photo.Height() as real);
    QuotientPositive(photo.Width() as real, photo.Height() as real);
    photo.Width() as real / photo.Height() as real
  }

  /**
   The card's caption: nothing for a blank caption, otherwise a bubble
   (6 dp margin, 10 dp and 6 dp padding) placed in the photo area with the
   shared caption clamp, without the editor's one-pixel floor on the
   available extent.
   */
  function CardCaption(photo: Rect, caption: string, textW: real, textH: real, posX: real, posY: real,
                       density: real): (b: Option<RectF>)
    ensures b.None? <==> IsBlank(caption)
    ensures b.Some? && textW >= 1.0 && textH >= 1.0 && Roomy(photo, CardMetrics(density)) ==>
      WithinF(b.value, Inset(photo, CardMetrics(density).margin))
  {
    if IsBlank(caption) then None
    else Some(CaptionBox(photo, textW, textH, posX, posY, CardMetrics(density), Bubble, false))
  }

  /** The card caption's float margin and bubble padding. */
  function CardMetrics(density: real): Metrics {
    Metrics(6.0 * density, 10.0 * density, 6.0 * density)
  }

  /**
   Where the area is roomy the editor's one-pixel floor on the available
   extent never applies, so the card places a caption exactly where the
   editor's preview does.
   */
  lemma CaptionFloorIrrelevant(area: Rect, textW: real, textH: real, posX: real, posY: real, m: Metrics, style: Style)
    requires Roomy(area, m)
    ensures CaptionBox(area, textW, textH, posX, posY, m, style, true) ==
            CaptionBox(area, textW, textH, posX, posY, m, style, false)
  {
    BoxFloorIrrelevant(area.Width() as real, m.margin, m.padH, textW, style);
    BoxFloorIrrelevant(area.Height() as real, m.margin, m.padV, textH, style);
  }

  // ---------------------------------------------------------------------
  // Source window
  // ---------------------------------------------------------------------

  function BitmapRect(b: Size): Rect {
    Rect(0, 0, b.w, b.h)
  }

  /**
   The persisted crop in the bitmap's pixels: each edge truncated and
   clamped so that the window is at least one pixel each way and inside the
   bitmap. Where the crop's own pixels already satisfy that, they are used
   as they are.
   */
  function NormWindow(b: Size, n: NormCrop): (r: Rect)
    requires b.Valid()
    ensures 0 <= r.left <= b.w - 1 && r.left + 1 <= r.right <= b.w
    ensures 0 <= r.top <= b.h - 1 && r.top + 1 <= r.bottom <= b.h
    ensures var x0 := Trunc(n.left * b.w as real); var x1 := Trunc(n.right * b.w as real);
      0 <= x0 < x1 <= b.w ==> r.left == x0 && r.right == x1
    ensures var y0 := Trunc(n.top * b.h as real); var y1 := Trunc(n.bottom * b.h as real);
      0 <= y0 < y1 <= b.h ==> r.top == y0 && r.bottom == y1
  {
    var x0 := ClampInt(Trunc(n.left * b.w as real), 0, b.w - 1);
    var y0 := ClampInt(Trunc(n.top * b.h as real), 0, b.h - 1);
    var x1 := ClampInt(Trunc(n.right * b.w as real), x0 + 1, b.w);
    var y1 := ClampInt(Trunc(n.bottom * b.h as real), y0 + 1, b.h);
    Rect(x0, y0, x1, y1)
  }

  /** The aspect test's tolerance: windows this close to the destination aspect are left alone. */
  const AspectTolerance: real := 0.001

  /**
   The window trimmed toward the destination aspect: the longer axis is cut
   to the length the other axis calls for (at least one pixel) around the
   window's integer midpoint. The result stays inside the window, keeps the
   window's extent on the axis it does not trim and is centred on the axis
   it does; the trimmed length is the called-for length, less one pixel when
   that length is odd.
   */
  function TrimToAspect(r: Rect, destAR: real): (t: Rect)
    requires r.Width() >= 1 && r.Height() >= 1 && destAR > 0.0
    ensures t.Inside(r)
    ensures (t.top == r.top && t.bottom == r.bottom) || (t.left == r.left && t.right == r.right)
    ensures t.top == r.top && t.bottom == r.bottom && t != r ==>
      t.left + t.right == 2 * Div(r.left + r.right, 2)
      && r.Height() as real * destAR - 2.0 < t.Width() as real <= Max(r.Height() as real * destAR, 1.0)
    ensures t.left == r.left && t.right == r.right && t != r ==>
      t.top + t.bottom == 2 * Div(r.top + r.bottom, 2)
      && r.Width() as real / destAR - 2.0 < t.Height() as real <= Max(r.Width() as real / destAR, 1.0)
  {
    var ar := r.Width() as real / r.Height() as real;
    if !(Abs(ar - destAR) > AspectTolerance) then r
    else if ar > destAR then
      var newW := MaxInt(Trunc(r.Height() as real * destAR), 1);
      var cx := Div(r.left + r.right, 2);
      TrimWidthInside(r, destAR);
      CentredSpanInside(r.left, r.right, newW);
      NonNegativeProduct(r.Height() as real, destAR);
      Rect(cx - Div(newW, 2), r.top, cx + Div(newW, 2), r.bottom)
    else
      var newH := MaxInt(Trunc(r.Width() as real / destAR), 1);
      var cy := Div(r.top + r.bottom, 2);
      TrimHeightInside(r, destAR);
      CentredSpanInside(r.top, r.bottom, newH);
      QuotientFacts(r.Width() as real, destAR);
      QuotientPositive(r.Width() as real, destAR);
      Rect(r.left, cy - Div(newH, 2), r.right, cy + Div(newH, 2))
  }

  /**
   The centre crop of the bitmap to the destination aspect: it lies inside
   the bitmap, is at least one pixel each way and spans the bitmap on one
   axis.
   */
  function CentreCropBase(b: Size, destAR: real): (r: Rect)
    requires b.Valid() && destAR > 0.0
    ensures r.Inside(BitmapRect(b)) && r.Width() >= 1 && r.Height() >= 1
    ensures (r.left == 0 && r.right == b.w) || (r.top == 0 && r.bottom == b.h)
  {
    FitInside(BitmapRect(b), destAR);
    FitAspectInside(BitmapRect(b), destAR)
  }

  /** `fitAspectInside` keeps a non-empty container's fit inside it, at least a pixel each way. */
  lemma FitInside(c: Rect, ar: real)
    requires c.Width() >= 1 && c.Height() >= 1 && ar > 0.0
    ensures var f := FitAspectInside(c, ar);
      f.Inside(c) && f.Width() >= 1 && f.Height() >= 1
      && ((f.left == c.left && f.right == c.right) || (f.top == c.top && f.bottom == c.bottom))
  {
    if WiderThan(c.Width() as real, c.Height() as real, ar) {
      WideSpanFits(c.Width(), c.Height(), ar);
      CentredAcrossInside(c, SpanFor(c.Height() as real * ar));
    } else {
      TallSpanFits(c.Width(), c.Height(), ar);
      CentredDownInside(c, SpanFor(c.Width() as real / ar));
    }
  }

  /**
   The centre-crop fallback: the base crop, tightened around its integer
   midpoint by the zoom (capped at three) when the zoom is above one. The
   tightened window stays inside the base crop, which stays inside the
   bitmap.
   */
  function CentreCrop(b: Size, destAR: real, zoom: real): (r: Rect)
    requires b.Valid() && destAR > 0.0
    ensures zoom <= 1.0 ==> r == CentreCropBase(b, destAR)
    ensures zoom > 1.0 ==> r.Inside(CentreCropBase(b, destAR))
    ensures r.Inside(BitmapRect(b))
  {
    var base := CentreCropBase(b, destAR);
    if zoom <= 1.0 then base
    else
      var z := Min(zoom, MaxZoom);
      var newW := MaxInt(Trunc(base.Width() as real / z), 1);
      var newH := MaxInt(Trunc(base.Height() as real / z), 1);
      ShrinkByZoom(base.Width() as real, z);
      ShrinkByZoom(base.Height() as real, z);
      CentredSpanInside(base.left, base.right, newW);
      CentredSpanInside(base.top, base.bottom, newH);
      var cx := Div(base.left + base.right, 2);
      var cy := Div(base.top + base.bottom, 2);
      Rect(cx - Div(newW, 2), cy - Div(newH, 2), cx + Div(newW, 2), cy + Div(newH, 2))
  }

  /** A zoom above three tightens the centre crop exactly as much as three does. */
  lemma CentreCropZoomCap(b: Size, destAR: real, zoom: real)
    requires b.Valid() && destAR > 0.0 && zoom >= MaxZoom
    ensures CentreCrop(b, destAR, zoom) == CentreCrop(b, destAR, MaxZoom)
  {
  }

  /**
   The photo's source window: the persisted crop trimmed to the destination
   aspect when there is one (the zoom is then ignored), otherwise the
   zoomed centre crop. Either way the window lies inside the bitmap.
   */
  function SourceWindow(b: Size, norm: Option<NormCrop>, destAR: real, zoom: real): (r: Rect)
    requires b.Valid() && destAR > 0.0
    ensures r.Inside(BitmapRect(b))
    ensures norm.Some? ==> r.Inside(NormWindow(b, norm.value))
    ensures norm.None? ==> r.Inside(CentreCropBase(b, destAR))
  {
    match norm
    case Some(n) => TrimToAspect(NormWindow(b, n), destAR)
    case None => CentreCrop(b, destAR, zoom)
  }

  // ---------------------------------------------------------------------
  // Rotation cover
  // ---------------------------------------------------------------------

  /**
   The widget's cover factor for the user's photo rotation: one below a
   hundredth of a degree, otherwise the inverse of the frame-tilt shrink.
   It is the factor the editor's preview uses, so the widget scales the
   rotated photo as the preview showed it.
   */
  function PhotoCoverScale(w: real, h: real, deg: real, c: real, s: real): (k: real)
    requires w > 0.0 && h > 0.0 && Spanning(c, s)
    ensures k == CoverScale(w, h, deg, c, s)
  {
    if Abs(deg) < 0.01 then 1.0
    else
      CoverIsInverseShrink(w, h, c, s);
      1.0 / ShrinkToFitRotation(w, h, c, s)
  }

  lemma CoverIsInverseShrink(w: real, h: real, c: real, s: real)
    requires w > 0.0 && h > 0.0 && Spanning(c, s)
    ensures 1.0 / ShrinkToFitRotation(w, h, c, s) == LeastCoverOf(w, h, w * c + h * s, w * s + h * c)
  {
    RotatedBoxAtLeast(w, h, c, s);
    var rw := w * c + h * s;
    var rh := w * s + h * c;
    InverseQuotient(w, rw);
    InverseQuotient(h, rh);
    InverseMin(w / rw, h / rh);
    QuotientAtLeastOneEither(w, h, rw, rh);
  }

  lemma InverseQuotient(a: real, b: real)
    requires a > 0.0 && b > 0.0
    ensures a / b > 0.0 && 1.0 / (a / b) == b / a
  {
    QuotientPositive(a, b);
    QuotientFacts(a, b);
    QuotientFacts(b, a);
    assert (b / a) * (a / b) == 1.0;
  }

  lemma InverseMin(a: real, b: real)
    requires a > 0.0 && b > 0.0
    ensures 1.0 / Min(a, b) == Max(1.0 / a, 1.0 / b)
  {
    if a <= b {
      InverseOrder(a, b);
    } else {
      InverseOrder(b, a);
    }
  }

  lemma InverseOrder(a: real, b: real)
    requires 0.0 < a <= b
    ensures 1.0 / b <= 1.0 / a
  {
    QuotientFacts(1.0, a);
    QuotientFacts(1.0, b);
    QuotientPositive(1.0, b);
    ReciprocalOrder(a, b, 1.0 / a, 1.0 / b);
  }

  lemma ReciprocalOrder(a: real, b: real, x: real, y: real)
    requires 0.0 < a <= b && x * a == 1.0 && y * b == 1.0 && y > 0.0
    ensures y <= x
  {
    if y > x {
      ScaleStrict(a, x, y);
      ScaleWeak(y, a, b);
      assert false;
    }
  }

  lemma QuotientAtLeastOneEither(w: real, h: real, rw: real, rh: real)
    requires w > 0.0 && h > 0.0 && (rw >= w || rh >= h)
    ensures Max(rw / w, rh / h) >= 1.0
  {
    if rw >= w {
      QuotientAtLeastOne(rw, w);
    } else {
      QuotientAtLeastOne(rh, h);
    }
  }

  // ---------------------------------------------------------------------
  // Decoder subsampling (`loadScaledBitmap`)
  // ---------------------------------------------------------------------

  function Pow2(k: nat): (p: int)
    ensures p >= 1
  {
    if k == 0 then 1 else 2 * Pow2(k - 1)
  }

  /** Decoding at `sample` leaves each side within twice the requested side. */
  predicate SmallEnough(outW: int, outH: int, reqW: int, reqH: int, sample: int)
    requires sample >= 1
  {
    Div(outW, sample) <= 2 * reqW && Div(outH, sample) <= 2 * reqH
  }

  /**
   The subsampling factor for an image of `outW` x `outH` (a failed bounds
   decode reports -1) and a request of `reqW` x `reqH`: the least power of
   two that brings both sides within twice the request.
   */
  method SampleSize(outW: int, outH: int, reqW: int, reqH: int) returns (sample: int)
    requires reqW >= 0 && reqH >= 0
    ensures sample >= 1 && SmallEnough(outW, outH, reqW, reqH, sample)
    ensures exists k: nat :: sample == Pow2(k) && forall j: nat :: j < k ==> !SmallEnough(outW, outH, reqW, reqH, Pow2(j))
  {
    sample := 1;
    ghost var k: nat := 0;
    while Div(outW, sample) > 2 * reqW || Div(outH, sample) > 2 * reqH
      invariant sample >= 1 && sample == Pow2(k)
      invariant forall j: nat :: j < k ==> !SmallEnough(outW, outH, reqW, reqH, Pow2(j))
      decreases MaxInt(outW, outH) - sample
    {
      LargeSide(outW, sample, reqW);
      LargeSide(outH, sample, reqH);
      sample := sample * 2;
      k := k + 1;
    }
  }

  /** A side that is still too large after subsampling by `sample` is at least `sample`. */
  lemma LargeSide(out: int, sample: int, req: int)
    requires sample >= 1 && req >= 0
    ensures Div(out, sample) > 2 * req ==> out >= sample
  {
  }
}

=== FILE: configure.dfy ===
/**
 The configuration screen around the preview: the Photo and Note tabs, the
 caption field and the hidden note field, the inline editor the screen
 opens over the preview on a tap, the positions the caption and the note
 text remember, the chosen photo's address, and the preview itself. Saving
 writes every setting of the widget into the preferences; opening the
 screen again restores them.
 */
module Configure {
  import opened Numeric
  import opened Optional
  import opened Text
  import opened Crop
  import opened Store
  import opened Editor
  import opened Touch

  /** The inline editor: whether it shows over the preview, and the text in it. */
  datatype InlineEditor = InlineEditor(open: bool, text: string)

  datatype Screen = Screen(
    id: int,
    mode: Mode,
    noteInput: string,
    captionInput: string,
    inline: InlineEditor,
    captionPos: Pos,
    notePos: Pos,
    photoUri: Option<string>,
    preview: Preview)

  /** The position the tab shown remembers: the caption's on the Photo tab, the note text's on the Note tab. */
  function TabPos(s: Screen): Pos {
    if s.mode == NoteMode then s.notePos else s.captionPos
  }

  /** The text the tab shown edits. */
  function TabText(s: Screen): string {
    if s.mode == NoteMode then s.noteInput else s.captionInput
  }

  /** The preview shows the caption where the tab shown remembers it, clamped into the unit square. */
  predicate Synced(s: Screen) {
    Pos(s.preview.posX, s.preview.posY) == ClampPos(TabPos(s).x, TabPos(s).y)
  }

  /** `applyPositionForCurrentMode`: the preview takes the tab's remembered position. */
  function ApplyPosition(s: Screen): (t: Screen)
    ensures Synced(t)
    ensures t == s.(preview := t.preview) && t.preview == s.preview.(posX := t.preview.posX, posY := t.preview.posY)
    ensures s.preview.Valid() ==> t.preview.Valid()
  {
    s.(preview := SetPosition(s.preview, TabPos(s).x, TabPos(s).y))
  }

  // ---------------------------------------------------------------------
  // The inline editor and the preview's callbacks
  // ---------------------------------------------------------------------

  /**
   `commitInlineCaption`: the inline text goes into the field of the tab
   shown and onto the preview, which shows its caption again; the editor
   closes.
   */
  function CommitInline(s: Screen): (t: Screen)
    ensures !t.inline.open && t.preview.captionVisible && t.preview.caption == s.inline.text
    ensures TabText(t) == s.inline.text
    ensures s.mode == PhotoMode ==> t.noteInput == s.noteInput && t.preview.bubbleVisible
    ensures s.mode == NoteMode ==> t.captionInput == s.captionInput && t.preview.plain
    ensures t.mode == s.mode && t.id == s.id && t.photoUri == s.photoUri
    ensures t.captionPos == s.captionPos && t.notePos == s.notePos
    ensures t.preview == s.preview.(caption := t.preview.caption, bubbleVisible := t.preview.bubbleVisible,
                                    plain := t.preview.plain, captionVisible := true)
    ensures s.preview.Valid() ==> t.preview.Valid()
  {
    var text := s.inline.text;
    var t := if s.mode == PhotoMode then s.(captionInput := text, preview := s.preview.(caption := text, bubbleVisible := true))
             else s.(noteInput := text, preview := s.preview.(caption := text, plain := true));
    t.(inline := t.inline.(open := false), preview := t.preview.(captionVisible := true))
  }

  /**
   `onCaptionTap`: the tab's position becomes the tapped point, the inline
   editor opens seeded with the tab's text, and the preview hides its own
   caption (and, on the Photo tab, the bubble) while the editor shows.
   Seeding the editor is a change of its text, which on the Photo tab the
   preview's caption follows.
   */
  function OnCaptionTap(s: Screen, u: real, v: real): (t: Screen)
    ensures t.inline == InlineEditor(true, TabText(s))
    ensures TabPos(t) == Pos(u, v) && TabText(t) == TabText(s)
    ensures t.mode == s.mode && t.id == s.id && t.noteInput == s.noteInput && t.captionInput == s.captionInput
    ensures s.mode == PhotoMode ==> t.notePos == s.notePos && !t.preview.bubbleVisible
    ensures s.mode == NoteMode ==> t.captionPos == s.captionPos
    ensures !t.preview.captionVisible
    ensures s.mode == PhotoMode ==> t.preview.caption == s.captionInput
    ensures s.mode == NoteMode ==> t.preview.caption == s.preview.caption
    ensures 0.0 <= u <= 1.0 && 0.0 <= v <= 1.0 ==> Synced(t)
    ensures s.preview.Valid() ==> t.preview.Valid()
  {
    var s1 := if s.mode == PhotoMode then s.(captionPos := Pos(u, v)) else s.(notePos := Pos(u, v));
    var shown := SetPosition(s1.preview, u, v).(captionVisible := false);
    s1.(preview := if s.mode == PhotoMode then shown.(caption := s.captionInput, bubbleVisible := false) else shown,
        inline := InlineEditor(true, TabText(s)))
  }

  /**
   Typing into the open inline editor. On the Photo tab the preview's
   caption follows the text as it is typed; on the Note tab it does not.
   */
  function TypeInline(s: Screen, text: string): (t: Screen)
    ensures t.inline == s.inline.(text := text)
    ensures t == s.(inline := t.inline, preview := t.preview)
    ensures t.preview == s.preview.(caption := t.preview.caption)
    ensures s.mode == PhotoMode ==> t.preview.caption == text
    ensures s.mode == NoteMode ==> t.preview == s.preview
  {
    s.(inline := s.inline.(text := text),
       preview := if s.mode == PhotoMode then s.preview.(caption := text) else s.preview)
  }

  /** `onPositionChanged`: the tab shown remembers the caption's new position. */
  function OnPositionChanged(s: Screen, x: real, y: real): (t: Screen)
    ensures TabPos(t) == Pos(x, y)
    ensures t.mode == s.mode && t.preview == s.preview && t.inline == s.inline
    ensures s.mode == PhotoMode ==> t.notePos == s.notePos
    ensures s.mode == NoteMode ==> t.captionPos == s.captionPos
  {
    if s.mode == PhotoMode then s.(captionPos := Pos(x, y)) else s.(notePos := Pos(x, y))
  }

  /**
   A touch on the preview: the preview reacts, and the screen follows the
   callback it fires. A change of caption size only resizes the caption
   field's text, which this model does not hold.
   */
  function OnPreviewTouch(s: Screen, l: Layout, g: Gesture, ev: Event, slop: int): (r: (Screen, Gesture))
    requires s.preview.Valid() && Drawn(l) && WellFormed(ev) && GestureValid(g)
    ensures r.0.preview.Valid() && GestureValid(r.1) && r.0.mode == s.mode
    ensures Synced(s) ==> Synced(r.0)
  {
    var re := OnTouch(s.preview, l, g, ev, slop);
    var t := s.(preview := re.view);
    var next := match re.notice
      case None => t
      case Some(PositionChanged(x, y)) => OnPositionChanged(t, x, y)
      case Some(CaptionSizeChanged(_)) => t
      case Some(CaptionTap(u, v)) => OnCaptionTap(t, u, v);
    (next, re.gesture)
  }

  /**
   `dispatchTouchEvent` for a finger that comes down outside the open
   inline editor: the editor is committed and the touch is consumed, so it
   reaches no button. With the editor closed the touch goes on to its
   target.
   */
  function TouchOutsideEditor(s: Screen): (r: (Screen, bool))
    ensures r.1 <==> s.inline.open
    ensures !r.0.inline.open
    ensures r.1 ==> TabText(r.0) == s.inline.text
  {
    if s.inline.open then (CommitInline(s), true) else (s, false)
  }

  /**
   `selectTab`: the preview is set up for the tab (the Note tab draws the
   note text plainly, without crop gestures; the Photo tab draws the
   bubble), takes the tab's position, and an open inline editor is
   committed afterwards, into the newly shown tab's field.
   */
  function SelectTab(s: Screen, m: Mode): (t: Screen)
    ensures t.mode == m && Synced(t) && !t.inline.open && t.preview.captionVisible
    ensures t.preview.noteMode <==> m == NoteMode
    ensures t.preview.cropGestures <==> m == PhotoMode
    ensures !s.inline.open ==> t.noteInput == s.noteInput && t.captionInput == s.captionInput
    ensures !s.inline.open && m == NoteMode ==> t.preview.caption == s.noteInput
    ensures s.inline.open ==> TabText(t) == s.inline.text
    ensures t.captionPos == s.captionPos && t.notePos == s.notePos && t.photoUri == s.photoUri && t.id == s.id
    ensures s.preview.Valid() ==> t.preview.Valid()
    ensures CropKept(s.preview, t.preview) && t.preview.photo == s.preview.photo
      && t.preview.captionSp == s.preview.captionSp
  {
    var v := s.preview;
    var shown := if m == NoteMode then
                   v.(noteMode := true, cropGestures := false, plain := true, bubbleVisible := false,
                      caption := s.noteInput)
                 else v.(noteMode := false, cropGestures := true, plain := false, bubbleVisible := true);
    var t := ApplyPosition(s.(mode := m, preview := shown));
    var u := t.(preview := t.preview.(captionVisible := true));
    if s.inline.open then CommitInline(u) else u
  }

  /** The file picker's result: the photo's address is kept and the preview shows its decoding. */
  function PickPhoto(s: Screen, uri: string, decoded: Option<Size>): (t: Screen)
    requires decoded.Some? ==> decoded.value.Valid()
    ensures t.photoUri == Some(uri) && t.preview.photo == decoded
    ensures t.preview.centreU == 0.5 && t.preview.centreV == 0.5
    ensures t.preview.caption == s.captionInput && Synced(t)
    ensures s.preview.Valid() ==> t.preview.Valid()
    ensures t == s.(photoUri := t.photoUri, preview := t.preview)
    ensures t.preview == s.preview.(photo := t.preview.photo, centreU := t.preview.centreU, centreV := t.preview.centreV,
                                    caption := t.preview.caption, posX := t.preview.posX, posY := t.preview.posY)
  {
    ApplyPosition(s.(photoUri := Some(uri), preview := SetImage(s.preview, decoded).(caption := s.captionInput)))
  }

  // ---------------------------------------------------------------------
  // Saving: a sequence of preference writes
  // ---------------------------------------------------------------------

  /** One preference write: the setting and the value stored for it. */
  datatype Write = Write(field: Field, value: Value)

  predicate FitsAll(ws: seq<Write>) {
    forall i :: 0 <= i < |ws| ==> Fits(ws[i].field, ws[i].value)
  }

  /** No write of `ws` names setting `g`. */
  predicate Avoids(ws: seq<Write>, g: Field) {
    forall k :: 0 <= k < |ws| ==> ws[k].field != g
  }

  /** The `i`-th write is the last one to its setting. */
  predicate LastOf(ws: seq<Write>, i: int) {
    0 <= i < |ws| && forall j :: i < j < |ws| ==> ws[j].field != ws[i].field
  }

  /** Widget `id`'s setting `f` holds `v`. */
  predicate Holds(q: Prefs, f: Field, id: int, v: Value) {
    Key(f, id) in q && q[Key(f, id)] == v
  }

  /** The writes of widget `id`, one after another. */
  function ApplyWrites(p: Prefs, id: int, ws: seq<Write>): (q: Prefs)
    requires WellTyped(p) && FitsAll(ws)
    ensures WellTyped(q)
    decreases |ws|
  {
    if ws == [] then p else ApplyWrites(Put(p, ws[0].field, id, ws[0].value), id, ws[1..])
  }

  /** The last write to a setting decides what it holds afterwards. */
  lemma {:induction false} LastWriteWins(p: Prefs, id: int, ws: seq<Write>, i: int)
    requires WellTyped(p) && FitsAll(ws) && LastOf(ws, i)
    ensures Holds(ApplyWrites(p, id, ws), ws[i].field, id, ws[i].value)
    decreases |ws|
  {
    var q := Put(p, ws[0].field, id, ws[0].value);
    if i == 0 {
      assert Avoids(ws[1..], ws[0].field) by {
        forall k | 0 <= k < |ws[1..]| ensures ws[1..][k].field != ws[0].field {
          assert ws[1..][k] == ws[k + 1];
        }
      }
      Untouched(q, id, ws[1..], ws[0].field, id);
    } else {
      assert ws[i] == ws[1..][i - 1];
      assert LastOf(ws[1..], i - 1) by {
        forall j | i - 1 < j < |ws[1..]| ensures ws[1..][j].field != ws[1..][i - 1].field {
          assert ws[1..][j] == ws[j + 1];
        }
      }
      LastWriteWins(q, id, ws[1..], i - 1);
    }
  }

  /** A setting no write names, and every setting of another widget, keeps what it held. */
  lemma {:induction false} Untouched(p: Prefs, id: int, ws: seq<Write>, g: Field, j: int)
    requires WellTyped(p) && FitsAll(ws)
    requires j != id || Avoids(ws, g)
    ensures Key(g, j) in ApplyWrites(p, id, ws) <==> Key(g, j) in p
    ensures Key(g, j) in p ==> ApplyWrites(p, id, ws)[Key(g, j)] == p[Key(g, j)]
    decreases |ws|
  {
    if ws != [] {
      assert (g, j) != (ws[0].field, id);
      PutKeepsOthers(p, ws[0].field, id, ws[0].value, g, j);
      var q := Put(p, ws[0].field, id, ws[0].value);
      assert j != id || Avoids(ws[1..], g) by {
        if j == id {
          forall k | 0 <= k < |ws[1..]| ensures ws[1..][k].field != g {
            assert ws[1..][k] == ws[k + 1];
          }
        }
      }
      Untouched(q, id, ws[1..], g, j);
    }
  }

  /** The caption `handleSave` stores: the inline editor's text while it shows, else the caption field. */
  function SavedCaption(s: Screen): string {
    if s.inline.open then s.inline.text else s.captionInput
  }

  /** The note `handleSave` stores: the note field, `"(empty)"` when it is blank. */
  function SavedNote(s: Screen): (n: string)
    ensures !IsBlank(n)
  {
    assert !IsWhitespace("(empty)"[0]);
    IfBlank(s.noteInput, "(empty)")
  }

  /**
   What `handleSave` stores, before it is written: the caption size, the
   caption's position (on the Photo tab only), the note text's position,
   the two texts, the photo's address (empty without one), the zoom, the
   visible crop (when there is a photo) and the rotation.
   */
  datatype Saved = Saved(
    captionSp: real,
    captionAt: Option<Pos>,
    noteAt: Pos,
    note: string,
    caption: string,
    photo: string,
    zoom: real,
    cropText: Option<string>,
    rotation: real)

  /** The crop the preview shows, as fractions of the photo; none without a photo. */
  function VisibleCrop(v: Preview): (n: Option<NormCrop>)
    requires v.Valid()
    ensures n.None? <==> v.photo.None?
    ensures n.Some? ==> InUnitBox(n.value)
  {
    ExportNormCrop(v.photo, v.zoom, v.centreU, v.centreV)
  }

  /**
   The values of a save. On the Photo tab the preview's position is the
   caption's and the note's remembered one is saved as well; on the Note
   tab the preview's position is the note text's. Positions are clamped
   into the unit square, the zoom into its range, the rotation into
   `[0, 360)`.
   */
  function SaveValues(s: Screen): (r: Saved)
    requires s.preview.Valid()
    ensures r.captionAt.Some? <==> s.mode == PhotoMode
    ensures r.captionAt.Some? ==> InUnitSquare(r.captionAt.value)
    ensures InUnitSquare(r.noteAt) && MinZoom <= r.zoom <= MaxZoom && 0.0 <= r.rotation < 360.0
    ensures r.cropText.Some? <==> s.preview.photo.Some?
    ensures r.cropText.Some? ==> r.cropText == Some(CropString(VisibleCrop(s.preview).value))
  {
    var v := s.preview;
    var here := ClampPos(v.posX, v.posY);
    Saved(v.captionSp,
          if s.mode == PhotoMode then Some(here) else None,
          if s.mode == PhotoMode then ClampPos(s.notePos.x, s.notePos.y) else here,
          SavedNote(s), SavedCaption(s),
          if s.photoUri.Some? then s.photoUri.value else "",
          ClampZoom(v.zoom),
          match VisibleCrop(v) case None => None case Some(n) => Some(CropString(n)),
          NormalizeDegrees(v.rotation))
  }

  /** The first writes: the caption size, then the positions. */
  function LayoutWrites(r: Saved): (ws: seq<Write>)
    ensures FitsAll(ws)
    ensures forall g ::
      !(g == CaptionSize || g == NoteX || g == NoteY || (r.captionAt.Some? && (g == CaptionX || g == CaptionY))) ==> Avoids(ws, g)
  {
    var size := Write(CaptionSize, FloatV(r.captionSp));
    var noteX, noteY := Write(NoteX, FloatV(r.noteAt.x)), Write(NoteY, FloatV(r.noteAt.y));
    match r.captionAt
    case Some(c) => [size, Write(CaptionX, FloatV(c.x)), Write(CaptionY, FloatV(c.y)), noteX, noteY]
    case None => [size, noteX, noteY]
  }

  /** Then the texts, the photo's address and the zoom. */
  function ContentWrites(r: Saved): (ws: seq<Write>)
    ensures FitsAll(ws)
    ensures forall g :: !(g == Note || g == Store.Caption || g == Photo || g == Zoom) ==> Avoids(ws, g)
    ensures Avoids(ws, CaptionSize) && Avoids(ws, CaptionX) && Avoids(ws, CaptionY) && Avoids(ws, NoteX) && Avoids(ws, NoteY)
  {
    [Write(Note, StrV(r.note)), Write(Store.Caption, StrV(r.caption)),
     Write(Photo, StrV(r.photo)), Write(Zoom, FloatV(r.zoom))]
  }

  /** Last the crop, when there is one, and the rotation. */
  function FinishWrites(r: Saved): (ws: seq<Write>)
    ensures FitsAll(ws)
    ensures forall g :: !(g == Rotation || (r.cropText.Some? && g == CropText)) ==> Avoids(ws, g)
    ensures Avoids(ws, CaptionSize) && Avoids(ws, CaptionX) && Avoids(ws, CaptionY) && Avoids(ws, NoteX) && Avoids(ws, NoteY)
    ensures Avoids(ws, Note) && Avoids(ws, Store.Caption) && Avoids(ws, Photo) && Avoids(ws, Zoom)
  {
    var rotation := Write(Rotation, FloatV(r.rotation));
    match r.cropText
    case None => [rotation]
    case Some(text) => [Write(CropText, StrV(text)), rotation]
  }

  /** The three groups of writes of widget `id`, in order. */
  function Persist(r: Saved, id: int, p: Prefs): (q: Prefs)
    requires WellTyped(p)
    ensures WellTyped(q)
  {
    ApplyWrites(ApplyWrites(ApplyWrites(p, id, LayoutWrites(r)), id, ContentWrites(r)), id, FinishWrites(r))
  }

  /**
   `handleSave`, as far as the preferences go. Redrawing the widget and
   closing the screen follow it.
   */
  function HandleSave(s: Screen, p: Prefs): (q: Prefs)
    requires WellTyped(p) && s.preview.Valid()
    ensures WellTyped(q)
  {
    Persist(SaveValues(s), s.id, p)
  }

  /** A single write is one store. */
  lemma OneWrite(p: Prefs, id: int, w: Write)
    requires WellTyped(p) && Fits(w.field, w.value)
    ensures ApplyWrites(p, id, [w]) == Put(p, w.field, id, w.value)
  {
    assert [w][1..] == [];
  }

  /** Two writes are two stores, in order. */
  lemma TwoWrites(p: Prefs, id: int, w1: Write, w2: Write)
    requires WellTyped(p) && Fits(w1.field, w1.value) && Fits(w2.field, w2.value)
    ensures ApplyWrites(p, id, [w1, w2]) == Put(Put(p, w1.field, id, w1.value), w2.field, id, w2.value)
  {
    assert [w1, w2][1..] == [w2];
    OneWrite(Put(p, w1.field, id, w1.value), id, w2);
  }

  /** The writes of a position are the saves of the caption's or the note's position. */
  lemma PositionWritesAreSaves(p: Prefs, id: int, x: real, y: real)
    requires WellTyped(p)
    ensures ApplyWrites(p, id, [Write(CaptionX, FloatV(ClampPos(x, y).x)), Write(CaptionY, FloatV(ClampPos(x, y).y))])
      == SaveCaptionPos(p, id, x, y)
    ensures ApplyWrites(p, id, [Write(NoteX, FloatV(ClampPos(x, y).x)), Write(NoteY, FloatV(ClampPos(x, y).y))])
      == SaveNotePos(p, id, x, y)
  {
    TwoWrites(p, id, Write(CaptionX, FloatV(ClampPos(x, y).x)), Write(CaptionY, FloatV(ClampPos(x, y).y)));
    TwoWrites(p, id, Write(NoteX, FloatV(ClampPos(x, y).x)), Write(NoteY, FloatV(ClampPos(x, y).y)));
  }

  /** The writes of the texts and the photo's address are the saves of those settings. */
  lemma TextWritesAreSaves(p: Prefs, id: int, text: string, uri: Option<string>)
    requires WellTyped(p)
    ensures ApplyWrites(p, id, [Write(Note, StrV(text))]) == SaveNote(p, id, text)
    ensures ApplyWrites(p, id, [Write(Store.Caption, StrV(text))]) == SaveCaption(p, id, text)
    ensures ApplyWrites(p, id, [Write(Photo, StrV(if uri.Some? then uri.value else ""))]) == SavePhotoUri(p, id, uri)
  {
    OneWrite(p, id, Write(Note, StrV(text)));
    OneWrite(p, id, Write(Store.Caption, StrV(text)));
    OneWrite(p, id, Write(Photo, StrV(if uri.Some? then uri.value else "")));
  }

  /** The writes of the caption size, the zoom, the crop and the rotation are the saves of those settings. */
  lemma NumberWritesAreSaves(p: Prefs, id: int, sp: real, z: real, n: NormCrop, deg: real)
    requires WellTyped(p)
    ensures ApplyWrites(p, id, [Write(CaptionSize, FloatV(sp))]) == SaveCaptionSize(p, id, sp)
    ensures ApplyWrites(p, id, [Write(Zoom, FloatV(ClampZoom(z)))]) == SavePhotoZoom(p, id, z)
    ensures ApplyWrites(p, id, [Write(CropText, StrV(CropString(n)))]) == SaveNormCrop(p, id, n)
    ensures ApplyWrites(p, id, [Write(Rotation, FloatV(NormalizeDegrees(deg)))]) == SavePhotoRotation(p, id, deg)
  {
    OneWrite(p, id, Write(CaptionSize, FloatV(sp)));
    OneWrite(p, id, Write(Zoom, FloatV(ClampZoom(z))));
    OneWrite(p, id, Write(CropText, StrV(CropString(n))));
    OneWrite(p, id, Write(Rotation, FloatV(NormalizeDegrees(deg))));
  }

  // ---------------------------------------------------------------------
  // What the writes leave in the preferences
  // ---------------------------------------------------------------------

  /** The settings a save writes: everything but the mode, and the caption's position and the crop only when saved. */
  predicate Written(r: Saved, g: Field) {
    || g == CaptionSize || g == NoteX || g == NoteY
    || g == Note || g == Store.Caption || g == Photo || g == Zoom || g == Rotation
    || (r.captionAt.Some? && (g == CaptionX || g == CaptionY))
    || (r.cropText.Some? && g == CropText)
  }

  /** What the layout writes leave. */
  lemma LayoutLeaves(p: Prefs, id: int, r: Saved)
    requires WellTyped(p)
    ensures var q := ApplyWrites(p, id, LayoutWrites(r));
      && Holds(q, CaptionSize, id, FloatV(r.captionSp))
      && Holds(q, NoteX, id, FloatV(r.noteAt.x)) && Holds(q, NoteY, id, FloatV(r.noteAt.y))
      && (r.captionAt.Some? ==>
            Holds(q, CaptionX, id, FloatV(r.captionAt.value.x)) && Holds(q, CaptionY, id, FloatV(r.captionAt.value.y)))
  {
    var ws := LayoutWrites(r);
    LastWriteWins(p, id, ws, 0);
    LastWriteWins(p, id, ws, |ws| - 2);
    LastWriteWins(p, id, ws, |ws| - 1);
    if r.captionAt.Some? {
      LastWriteWins(p, id, ws, 1);
      LastWriteWins(p, id, ws, 2);
    }
  }

  /** What the content writes leave. */
  lemma ContentLeaves(p: Prefs, id: int, r: Saved)
    requires WellTyped(p)
    ensures var q := ApplyWrites(p, id, ContentWrites(r));
      && Holds(q, Note, id, StrV(r.note)) && Holds(q, Store.Caption, id, StrV(r.caption))
      && Holds(q, Photo, id, StrV(r.photo)) && Holds(q, Zoom, id, FloatV(r.zoom))
  {
    var ws := ContentWrites(r);
    LastWriteWins(p, id, ws, 0);
    LastWriteWins(p, id, ws, 1);
    LastWriteWins(p, id, ws, 2);
    LastWriteWins(p, id, ws, 3);
  }

  /** What the finishing writes leave. */
  lemma FinishLeaves(p: Prefs, id: int, r: Saved)
    requires WellTyped(p)
    ensures var q := ApplyWrites(p, id, FinishWrites(r));
      && Holds(q, Rotation, id, FloatV(r.rotation))
      && (r.cropText.Some? ==> Holds(q, CropText, id, StrV(r.cropText.value)))
  {
    var ws := FinishWrites(r);
    match r.cropText
    case None =>
      LastWriteWins(p, id, ws, 0);
    case Some(_) =>
      LastWriteWins(p, id, ws, 0);
      LastWriteWins(p, id, ws, 1);
  }

  /** Two groups of writes that do not name `g` keep what `g` holds. */
  lemma Carried(p: Prefs, q: Prefs, id: int, ws1: seq<Write>, ws2: seq<Write>, g: Field, v: Value)
    requires WellTyped(p) && FitsAll(ws1) && FitsAll(ws2) && Avoids(ws1, g) && Avoids(ws2, g)
    requires Holds(p, g, id, v) && q == ApplyWrites(p, id, ws1)
    ensures Holds(ApplyWrites(q, id, ws2), g, id, v)
  {
    Untouched(p, id, ws1, g, id);
    Untouched(q, id, ws2, g, id);
  }

  /** After a save the caption size and the positions hold the values saved for them. */
  lemma PersistLayout(r: Saved, id: int, p: Prefs)
    requires WellTyped(p)
    ensures var q := Persist(r, id, p);
      && Holds(q, CaptionSize, id, FloatV(r.captionSp))
      && Holds(q, NoteX, id, FloatV(r.noteAt.x)) && Holds(q, NoteY, id, FloatV(r.noteAt.y))
      && (r.captionAt.Some? ==>
            Holds(q, CaptionX, id, FloatV(r.captionAt.value.x)) && Holds(q, CaptionY, id, FloatV(r.captionAt.value.y)))
  {
    LayoutLeaves(p, id, r);
    LayoutCarried(r, id, p, CaptionSize, FloatV(r.captionSp));
    LayoutCarried(r, id, p, NoteX, FloatV(r.noteAt.x));
    LayoutCarried(r, id, p, NoteY, FloatV(r.noteAt.y));
    if r.captionAt.Some? {
      LayoutCarried(r, id, p, CaptionX, FloatV(r.captionAt.value.x));
      LayoutCarried(r, id, p, CaptionY, FloatV(r.captionAt.value.y));
    }
  }

  /** What the layout writes leave, the later writes keep. */
  lemma LayoutCarried(r: Saved, id: int, p: Prefs, g: Field, v: Value)
    requires WellTyped(p) && (g == CaptionSize || g == NoteX || g == NoteY || g == CaptionX || g == CaptionY)
    requires Holds(ApplyWrites(p, id, LayoutWrites(r)), g, id, v)
    ensures Holds(Persist(r, id, p), g, id, v)
  {
    var q1 := ApplyWrites(p, id, LayoutWrites(r));
    Carried(q1, ApplyWrites(q1, id, ContentWrites(r)), id, ContentWrites(r), FinishWrites(r), g, v);
  }

  /** After a save the texts, the photo's address and the zoom hold the values saved for them. */
  lemma PersistContent(r: Saved, id: int, p: Prefs)
    requires WellTyped(p)
    ensures var q := Persist(r, id, p);
      && Holds(q, Note, id, StrV(r.note)) && Holds(q, Store.Caption, id, StrV(r.caption))
      && Holds(q, Photo, id, StrV(r.photo)) && Holds(q, Zoom, id, FloatV(r.zoom))
  {
    var f := FinishWrites(r);
    var q2 := ApplyWrites(ApplyWrites(p, id, LayoutWrites(r)), id, ContentWrites(r));
    ContentLeaves(ApplyWrites(p, id, LayoutWrites(r)), id, r);
    Carried(q2, q2, id, [], f, Note, StrV(r.note));
    Carried(q2, q2, id, [], f, Store.Caption, StrV(r.caption));
    Carried(q2, q2, id, [], f, Photo, StrV(r.photo));
    Carried(q2, q2, id, [], f, Zoom, FloatV(r.zoom));
  }

  /** After a save the rotation, and the crop when one is saved, hold the values saved for them. */
  lemma PersistFinish(r: Saved, id: int, p: Prefs)
    requires WellTyped(p)
    ensures var q := Persist(r, id, p);
      && Holds(q, Rotation, id, FloatV(r.rotation))
      && (r.cropText.Some? ==> Holds(q, CropText, id, StrV(r.cropText.value)))
  {
    FinishLeaves(ApplyWrites(ApplyWrites(p, id, LayoutWrites(r)), id, ContentWrites(r)), id, r);
  }

  /** A setting the writes do not name, and every setting of another widget, keeps what it held. */
  lemma PersistKeeps(r: Saved, id: int, p: Prefs, g: Field, j: int)
    requires WellTyped(p)
    requires j != id || !Written(r, g)
    ensures Key(g, j) in Persist(r, id, p) <==> Key(g, j) in p
    ensures Key(g, j) in p ==> Persist(r, id, p)[Key(g, j)] == p[Key(g, j)]
  {
    var q1 := ApplyWrites(p, id, LayoutWrites(r));
    var q2 := ApplyWrites(q1, id, ContentWrites(r));
    Untouched(p, id, LayoutWrites(r), g, j);
    Untouched(q1, id, ContentWrites(r), g, j);
    Untouched(q2, id, FinishWrites(r), g, j);
  }

  // ---------------------------------------------------------------------
  // What `handleSave` leaves in the preferences
  // ---------------------------------------------------------------------

  /** The photo address a save leaves behind: none for a missing or blank one. */
  function StoredUri(s: Screen): Option<string> {
    if s.photoUri.None? || IsBlank(s.photoUri.value) then None else s.photoUri
  }

  /** After a save the caption size is the preview's. */
  lemma SavedCaptionSize(s: Screen, p: Prefs)
    requires WellTyped(p) && s.preview.Valid()
    ensures LoadCaptionSize(HandleSave(s, p), s.id) == s.preview.captionSp
  {
    PersistLayout(SaveValues(s), s.id, p);
  }

  /**
   After a save on the Photo tab the caption's position is the preview's
   and the note's is the one the screen remembered, both clamped into the
   unit square.
   */
  lemma SavedPhotoPositions(s: Screen, p: Prefs)
    requires WellTyped(p) && s.preview.Valid() && s.mode == PhotoMode
    ensures var q := HandleSave(s, p);
      && LoadCaptionPos(q, s.id) == ClampPos(s.preview.posX, s.preview.posY)
      && LoadNotePos(q, s.id) == ClampPos(s.notePos.x, s.notePos.y)
  {
    PersistLayout(SaveValues(s), s.id, p);
  }

  /**
   After a save on the Note tab the note text's position is the preview's,
   clamped into the unit square, and the caption's is left as it was
   stored.
   */
  lemma SavedNotePositions(s: Screen, p: Prefs)
    requires WellTyped(p) && s.preview.Valid() && s.mode == NoteMode
    ensures var q := HandleSave(s, p);
      && LoadNotePos(q, s.id) == ClampPos(s.preview.posX, s.preview.posY)
      && LoadCaptionPos(q, s.id) == LoadCaptionPos(p, s.id)
  {
    var r := SaveValues(s);
    PersistLayout(r, s.id, p);
    CaptionPosKept(r, s.id, p);
  }

  /** Writes that leave out the caption's position leave its stored value as it was. */
  lemma CaptionPosKept(r: Saved, id: int, p: Prefs)
    requires WellTyped(p) && r.captionAt.None?
    ensures LoadCaptionPos(Persist(r, id, p), id) == LoadCaptionPos(p, id)
  {
    PersistKeeps(r, id, p, CaptionX, id);
    PersistKeeps(r, id, p, CaptionY, id);
  }

  /**
   After a save the note is the note field (`"(empty)"` when blank) and
   the caption is the inline editor's text while it shows, the caption
   field otherwise.
   */
  lemma SavedTexts(s: Screen, p: Prefs)
    requires WellTyped(p) && s.preview.Valid()
    ensures LoadNote(HandleSave(s, p), s.id) == SavedNote(s)
    ensures LoadCaption(HandleSave(s, p), s.id) == SavedCaption(s)
  {
    PersistContent(SaveValues(s), s.id, p);
  }

  /** After a save the photo is the chosen one, none when its address is blank. */
  lemma SavedPhoto(s: Screen, p: Prefs)
    requires WellTyped(p) && s.preview.Valid()
    ensures LoadPhotoUri(HandleSave(s, p), s.id) == StoredUri(s)
  {
    PersistContent(SaveValues(s), s.id, p);
  }

  /** After a save the zoom is the preview's. */
  lemma SavedZoom(s: Screen, p: Prefs)
    requires WellTyped(p) && s.preview.Valid()
    ensures LoadPhotoZoom(HandleSave(s, p), s.id) == s.preview.zoom
  {
    PersistContent(SaveValues(s), s.id, p);
  }

  /** After a save the rotation is the preview's. */
  lemma SavedRotation(s: Screen, p: Prefs)
    requires WellTyped(p) && s.preview.Valid()
    ensures LoadPhotoRotation(HandleSave(s, p), s.id) == s.preview.rotation
  {
    PersistFinish(SaveValues(s), s.id, p);
  }

  /** With a photo, a save leaves the visible crop, which loads back as its six-decimal rounding. */
  lemma SavedCrop(s: Screen, p: Prefs)
    requires WellTyped(p) && s.preview.Valid() && s.preview.photo.Some?
    ensures var n := VisibleCrop(s.preview).value;
      LoadNormCrop(HandleSave(s, p), s.id) == Some(NormCrop(Round6(n.left), Round6(n.top), Round6(n.right), Round6(n.bottom)))
  {
    PersistFinish(SaveValues(s), s.id, p);
    CropTextLoads(HandleSave(s, p), s.id, VisibleCrop(s.preview).value);
  }

  /** Without a photo, a save leaves the stored crop as it was. */
  lemma SavedWithoutCrop(s: Screen, p: Prefs)
    requires WellTyped(p) && s.preview.Valid() && s.preview.photo.None?
    ensures LoadNormCrop(HandleSave(s, p), s.id) == LoadNormCrop(p, s.id)
  {
    PersistKeeps(SaveValues(s), s.id, p, CropText, s.id);
  }

  /** Preferences holding a crop's text load it back as the text's six-decimal rounding. */
  lemma CropTextLoads(q: Prefs, id: int, n: NormCrop)
    requires WellTyped(q) && InUnitBox(n) && Holds(q, CropText, id, StrV(CropString(n)))
    ensures LoadNormCrop(q, id) == Some(NormCrop(Round6(n.left), Round6(n.top), Round6(n.right), Round6(n.bottom)))
  {
    var e: Prefs := map[];
    NormCropRoundTripInBox(e, id, n);
    assert LoadNormCrop(SaveNormCrop(e, id, n), id) == ParseNormCrop(CropString(n));
  }

  /** A save touches no other widget's settings, and never the stored mode. */
  lemma SaveKeepsOthers(s: Screen, p: Prefs, g: Field, j: int)
    requires WellTyped(p) && s.preview.Valid()
    requires j != s.id || g == ModeName
    ensures Key(g, j) in HandleSave(s, p) <==> Key(g, j) in p
    ensures Key(g, j) in p ==> HandleSave(s, p)[Key(g, j)] == p[Key(g, j)]
  {
    PersistKeeps(SaveValues(s), s.id, p, g, j);
  }

  // ---------------------------------------------------------------------
  // Opening the screen: restoring what was saved
  // ---------------------------------------------------------------------

  /** `AppWidgetManager.INVALID_APPWIDGET_ID`: the screen closes at once. */
  const InvalidWidgetId: int := 0

  /** What opening the screen reads from the preferences for one widget. */
  datatype Stored = Stored(
    rotation: real,
    zoom: real,
    captionPos: Pos,
    notePos: Pos,
    note: string,
    caption: string,
    photo: Option<string>,
    crop: Option<NormCrop>,
    captionSp: real)

  /** The stored settings of widget `id`, each with its loader's default when missing. */
  function LoadAll(p: Prefs, id: int): (st: Stored)
    requires WellTyped(p)
    ensures st.crop.Some? ==> InUnitBox(st.crop.value)
    ensures st.photo.Some? ==> !IsBlank(st.photo.value)
  {
    Stored(LoadPhotoRotation(p, id), LoadPhotoZoom(p, id), LoadCaptionPos(p, id), LoadNotePos(p, id),
           LoadNote(p, id), LoadCaption(p, id), LoadPhotoUri(p, id), LoadNormCrop(p, id), LoadCaptionSize(p, id))
  }

  /** The screen as built, before anything is restored: Photo tab, empty fields, default positions, no photo. */
  function Fresh(id: int): (s: Screen)
    ensures s.id == id && s.preview.Valid() && s.photoUri.None? && s.preview.photo.None? && !s.inline.open
  {
    var home := Pos(DefaultPosX, DefaultPosY);
    Screen(id, PhotoMode, "", "", InlineEditor(false, ""), home, home, None, Initial())
  }

  /** The rotation, then the zoom, then both positions are restored, and the preview takes the tab's position. */
  function RestoreView(s: Screen, st: Stored): (t: Screen)
    requires s.preview.Valid()
    ensures t.preview.Valid() && Synced(t)
    ensures t.captionPos == st.captionPos && t.notePos == st.notePos
    ensures 0.0 <= st.rotation < 360.0 ==> t.preview.rotation == st.rotation
    ensures MinZoom <= st.zoom <= MaxZoom ==> t.preview.zoom == st.zoom
    ensures t == s.(captionPos := t.captionPos, notePos := t.notePos, preview := t.preview)
    ensures t.preview == s.preview.(rotation := t.preview.rotation, zoom := t.preview.zoom,
                                    posX := t.preview.posX, posY := t.preview.posY)
  {
    var v := SetCropZoom(SetRotationDeg(s.preview, st.rotation), st.zoom);
    ApplyPosition(s.(captionPos := st.captionPos, notePos := st.notePos, preview := v))
  }

  /**
   With a stored photo the preview shows its decoding, and a stored crop
   moves the crop's centre to the crop's middle; without a stored photo
   the stored crop is not looked at.
   */
  function RestorePhoto(s: Screen, st: Stored, decoded: Option<Size>): (t: Screen)
    requires s.preview.Valid() && (decoded.Some? ==> decoded.value.Valid())
    ensures t.preview.Valid() && (Synced(s) ==> Synced(t))
    ensures st.photo.None? ==> t == s
    ensures st.photo.Some? ==> t.photoUri == st.photo && t.preview.photo == decoded
    ensures st.photo.Some? && st.crop.Some? ==> (t.preview.centreU, t.preview.centreV) == RestoreCentre(st.crop.value)
    ensures t == s.(photoUri := t.photoUri, preview := t.preview)
    ensures t.preview.zoom == s.preview.zoom && t.preview.rotation == s.preview.rotation
  {
    match st.photo
    case None => s
    case Some(uri) => RestoreCrop(PickPhoto(s, uri, decoded), st.crop)
  }

  /** A stored crop moves the crop's centre to the crop's middle. */
  function RestoreCrop(s: Screen, crop: Option<NormCrop>): (t: Screen)
    requires s.preview.Valid()
    ensures t.preview.Valid()
    ensures crop.None? ==> t == s
    ensures crop.Some? ==> (t.preview.centreU, t.preview.centreV) == RestoreCentre(crop.value)
    ensures t == s.(preview := s.preview.(centreU := t.preview.centreU, centreV := t.preview.centreV))
  {
    match crop
    case None => s
    case Some(n) =>
      var c := RestoreCentre(n);
      s.(preview := SetCropCenter(s.preview, c.0, c.1))
  }

  /** The caption field's text and the stored caption size go onto the preview, which takes the tab's position again. */
  function RestoreCaption(s: Screen, sp: real): (t: Screen)
    requires s.preview.Valid()
    ensures t.preview.Valid() && Synced(t)
    ensures t.preview.caption == s.captionInput
    ensures CaptionMinSp <= sp <= CaptionMaxSp ==> t.preview.captionSp == sp
    ensures t == s.(preview := t.preview)
    ensures t.preview == s.preview.(caption := t.preview.caption, captionSp := t.preview.captionSp,
                                    posX := t.preview.posX, posY := t.preview.posY)
  {
    var v := SetCaptionSizeSp(s.preview.(caption := s.captionInput), sp);
    ApplyPosition(s.(preview := v))
  }

  /**
   The screen rebuilt from what was read: the Photo tab is selected, the
   view settings and positions are restored, the fields are filled with
   the stored texts, the stored photo and crop are shown, and the caption
   and its size go onto the preview. `decoded` is the platform's decoding
   of the stored photo.
   */
  function Reopen(st: Stored, id: int, decoded: Option<Size>): (t: Screen)
    requires decoded.Some? ==> decoded.value.Valid()
    ensures t.id == id && t.mode == PhotoMode && !t.inline.open && t.preview.Valid() && Synced(t)
    ensures t.noteInput == st.note && t.captionInput == st.caption && t.preview.caption == st.caption
    ensures t.captionPos == st.captionPos && t.notePos == st.notePos
    ensures t.photoUri == st.photo && t.preview.photo == (if st.photo.Some? then decoded else None)
    ensures 0.0 <= st.rotation < 360.0 ==> t.preview.rotation == st.rotation
    ensures MinZoom <= st.zoom <= MaxZoom ==> t.preview.zoom == st.zoom
    ensures CaptionMinSp <= st.captionSp <= CaptionMaxSp ==> t.preview.captionSp == st.captionSp
    ensures st.photo.Some? && st.crop.Some? ==> (t.preview.centreU, t.preview.centreV) == RestoreCentre(st.crop.value)
  {
    var s1 := SelectTab(Fresh(id), PhotoMode);
    var s2 := RestoreView(s1, st);
    var s3 := s2.(noteInput := st.note, captionInput := st.caption);
    var s4 := RestorePhoto(s3, st, decoded);
    RestoreCaption(s4, st.captionSp)
  }

  /** `onCreate` for widget `id`: nothing for the invalid id; otherwise the screen rebuilt from the stored settings. */
  function Restore(p: Prefs, id: int, decoded: Option<Size>): (r: Option<Screen>)
    requires WellTyped(p) && (decoded.Some? ==> decoded.value.Valid())
    ensures r.None? <==> id == InvalidWidgetId
    ensures r.Some? ==> var t := r.value;
      && t.id == id && t.mode == PhotoMode && t.preview.Valid() && Synced(t)
      && t.noteInput == LoadNote(p, id) && t.captionInput == LoadCaption(p, id)
      && t.captionPos == LoadCaptionPos(p, id) && t.notePos == LoadNotePos(p, id)
      && t.photoUri == LoadPhotoUri(p, id)
  {
    if id == InvalidWidgetId then None else Some(Reopen(LoadAll(p, id), id, decoded))
  }

  // ---------------------------------------------------------------------
  // Saving and reading back
  // ---------------------------------------------------------------------

  /**
   Reading back after a save gives the saved texts, the photo's address
   (none when blank), and the preview's zoom, rotation and caption size
   exactly.
   */
  lemma SaveThenLoadContent(s: Screen, p: Prefs)
    requires WellTyped(p) && s.preview.Valid()
    ensures var st := LoadAll(HandleSave(s, p), s.id);
      && st.note == SavedNote(s) && st.caption == SavedCaption(s) && st.photo == StoredUri(s)
      && st.zoom == s.preview.zoom && st.rotation == s.preview.rotation && st.captionSp == s.preview.captionSp
  {
    SavedTexts(s, p);
    SavedPhoto(s, p);
    SavedZoom(s, p);
    SavedRotation(s, p);
    SavedCaptionSize(s, p);
  }

  /**
   Reading back after a save gives the positions the tab saved (the
   caption's as stored before, after a save on the Note tab), and, with a
   photo shown, the visible crop rounded to six decimals.
   */
  lemma SaveThenLoadLayout(s: Screen, p: Prefs)
    requires WellTyped(p) && s.preview.Valid()
    ensures var st := LoadAll(HandleSave(s, p), s.id);
      && (s.mode == PhotoMode ==>
            st.captionPos == Pos(s.preview.posX, s.preview.posY) && st.notePos == ClampPos(s.notePos.x, s.notePos.y))
      && (s.mode == NoteMode ==>
            st.notePos == Pos(s.preview.posX, s.preview.posY) && st.captionPos == LoadCaptionPos(p, s.id))
      && (s.preview.photo.Some? ==>
            var n := VisibleCrop(s.preview).value;
            st.crop == Some(NormCrop(Round6(n.left), Round6(n.top), Round6(n.right), Round6(n.bottom))))
  {
    if s.mode == PhotoMode {
      SavedPhotoPositions(s, p);
    } else {
      SavedNotePositions(s, p);
    }
    if s.preview.photo.Some? {
      SavedCrop(s, p);
    }
  }

  /** Reopening after a save fills the fields with the saved texts and shows the saved caption. */
  lemma ReopenTexts(s: Screen, p: Prefs, decoded: Option<Size>)
    requires WellTyped(p) && s.preview.Valid() && s.id != InvalidWidgetId
    requires decoded.Some? ==> decoded.value.Valid()
    ensures var t := Restore(HandleSave(s, p), s.id, decoded).value;
      && t.noteInput == SavedNote(s) && t.captionInput == SavedCaption(s) && t.preview.caption == SavedCaption(s)
  {
    SaveThenLoadContent(s, p);
  }

  /** Reopening after a save shows the chosen photo's decoding, and no photo when none was saved. */
  lemma ReopenPhoto(s: Screen, p: Prefs, decoded: Option<Size>)
    requires WellTyped(p) && s.preview.Valid() && s.id != InvalidWidgetId
    requires decoded.Some? ==> decoded.value.Valid()
    ensures var t := Restore(HandleSave(s, p), s.id, decoded).value;
      && t.photoUri == StoredUri(s) && t.preview.photo == (if StoredUri(s).Some? then decoded else None)
  {
    SaveThenLoadContent(s, p);
  }

  /** Reopening after a save shows the preview's zoom, rotation and caption size again, exactly. */
  lemma ReopenSettings(s: Screen, p: Prefs, decoded: Option<Size>)
    requires WellTyped(p) && s.preview.Valid() && s.id != InvalidWidgetId
    requires decoded.Some? ==> decoded.value.Valid()
    ensures var v := Restore(HandleSave(s, p), s.id, decoded).value.preview;
      && v.zoom == s.preview.zoom && v.rotation == s.preview.rotation && v.captionSp == s.preview.captionSp
  {
    SaveThenLoadContent(s, p);
  }

  /**
   Reopening after a save on the Photo tab puts the caption where the
   preview showed it, and the preview shows it there, and keeps the note
   text's remembered position.
   */
  lemma ReopenPhotoPositions(s: Screen, p: Prefs, decoded: Option<Size>)
    requires WellTyped(p) && s.preview.Valid() && s.id != InvalidWidgetId && s.mode == PhotoMode
    requires decoded.Some? ==> decoded.value.Valid()
    ensures var t := Restore(HandleSave(s, p), s.id, decoded).value;
      && t.captionPos == Pos(s.preview.posX, s.preview.posY) && t.notePos == ClampPos(s.notePos.x, s.notePos.y)
      && t.preview.posX == s.preview.posX && t.preview.posY == s.preview.posY
  {
    SaveThenLoadLayout(s, p);
  }

  /**
   Reopening after a save on the Note tab puts the note text's position
   where the preview showed it and keeps the caption's stored position.
   */
  lemma ReopenNotePositions(s: Screen, p: Prefs, decoded: Option<Size>)
    requires WellTyped(p) && s.preview.Valid() && s.id != InvalidWidgetId && s.mode == NoteMode
    requires decoded.Some? ==> decoded.value.Valid()
    ensures var t := Restore(HandleSave(s, p), s.id, decoded).value;
      && t.notePos == Pos(s.preview.posX, s.preview.posY) && t.captionPos == LoadCaptionPos(p, s.id)
  {
    SaveThenLoadLayout(s, p);
  }

  /**
   Reopening after a save with the photo shown puts the crop's centre back
   within half a millionth of where it was, when the centre was one the
   crop can be centred on. The only loss is the six-decimal text the crop
   is stored as.
   */
  lemma ReopenCrop(s: Screen, p: Prefs)
    requires WellTyped(p) && s.preview.Valid() && s.id != InvalidWidgetId
    requires s.preview.photo.Some? && StoredUri(s).Some?
    requires CentreAdmissible(s.preview.photo.value, s.preview.zoom, s.preview.centreU, s.preview.centreV)
    ensures var v := Restore(HandleSave(s, p), s.id, s.preview.photo).value.preview;
      && Abs(v.centreU - s.preview.centreU) <= 0.0000005
      && Abs(v.centreV - s.preview.centreV) <= 0.0000005
  {
    var w := s.preview;
    var n := VisibleCrop(w).value;
    var m := NormCrop(Round6(n.left), Round6(n.top), Round6(n.right), Round6(n.bottom));
    SavedPhoto(s, p);
    SavedCrop(s, p);
    RestoredCentre(HandleSave(s, p), s.id, w.photo, m);
    VisibleCropRestores(w);
    RoundedCentreClose(n);
  }

  /** Opening the screen with a photo and a crop stored centres the crop on the stored crop's middle. */
  lemma RestoredCentre(q: Prefs, id: int, decoded: Option<Size>, m: NormCrop)
    requires WellTyped(q) && id != InvalidWidgetId && (decoded.Some? ==> decoded.value.Valid())
    requires LoadPhotoUri(q, id).Some? && LoadNormCrop(q, id) == Some(m)
    ensures var v := Restore(q, id, decoded).value.preview;
      (v.centreU, v.centreV) == RestoreCentre(m)
  {
  }

  /** The middle of the visible crop is the crop's centre, when the crop can be centred there. */
  lemma VisibleCropRestores(w: Preview)
    requires w.Valid() && w.photo.Some? && CentreAdmissible(w.photo.value, w.zoom, w.centreU, w.centreV)
    ensures RestoreCentre(VisibleCrop(w).value) == (w.centreU, w.centreV)
  {
    ExportRestoreExact(w.photo.value, w.zoom, w.centreU, w.centreV);
  }

  /** Rounding a crop's edges to six decimals moves its middle by at most half a millionth. */
  lemma RoundedCentreClose(n: NormCrop)
    requires InUnitBox(n)
    ensures var c := RestoreCentre(NormCrop(Round6(n.left), Round6(n.top), Round6(n.right), Round6(n.bottom)));
      Abs(c.0 - RestoreCentre(n).0) <= 0.0000005 && Abs(c.1 - RestoreCentre(n).1) <= 0.0000005
  {
    Round6Unit(n.left);
    Round6Unit(n.top);
    Round6Unit(n.right);
    Round6Unit(n.bottom);
    Round6Monotone(n.left, n.right);
    Round6Monotone(n.top, n.bottom);
  }

  /**
   A tap on the caption, typing, and a touch outside the editor, then a
   save: the typed text is stored as the tab's text (as the note, or
   `"(empty)"` when blank, on the Note tab; as the caption on the Photo
   tab), and the other tab's text is stored as it was.
   */
  lemma InlineEditSaved(s: Screen, p: Prefs, u: real, v: real, typed: string)
    requires WellTyped(p) && s.preview.Valid()
    ensures var t := TouchOutsideEditor(TypeInline(OnCaptionTap(s, u, v), typed)).0;
      && t.preview.Valid() && t.id == s.id
      && (s.mode == PhotoMode ==>
            LoadCaption(HandleSave(t, p), s.id) == typed && LoadNote(HandleSave(t, p), s.id) == SavedNote(s))
      && (s.mode == NoteMode ==>
            LoadNote(HandleSave(t, p), s.id) == IfBlank(typed, "(empty)")
            && LoadCaption(HandleSave(t, p), s.id) == s.captionInput)
  {
    var t := TouchOutsideEditor(TypeInline(OnCaptionTap(s, u, v), typed)).0;
    SavedTexts(t, p);
  }
}

=== FILE: crop.dfy ===
/**
 The editor's crop window: a 4:5 window in the photo's own pixels, as large
 as the photo allows, shrunk by the zoom and centred on a normalised crop
 centre that is pulled back until the window lies inside the photo. The
 window is exported as a normalised crop (fractions of the photo's width
 and height) and later restored from one.
 */
module Crop {
  import opened Numeric
  import opened Optional
  import opened Geometry

  /** A photo's pixel size; decoded bitmaps are never empty. */
  datatype Size = Size(w: int, h: int) {
    predicate Valid() { w >= 1 && h >= 1 }
  }

  /** A real-valued extent. */
  datatype SizeF = SizeF(w: real, h: real)

  /** A crop as fractions of the photo's width and height. */
  datatype NormCrop = NormCrop(left: real, top: real, right: real, bottom: real)

  /** A normalised crop that is a (possibly empty) box inside the unit square. */
  predicate InUnitBox(c: NormCrop) {
    0.0 <= c.left <= c.right <= 1.0 && 0.0 <= c.top <= c.bottom <= 1.0
  }

  const MinZoom: real := 1.0
  const MaxZoom: real := 3.0

  /** `setCropZoom`: the zoom is kept in `[1, 3]`. */
  function ClampZoom(z: real): (r: real)
    ensures MinZoom <= r <= MaxZoom
    ensures MinZoom <= z <= MaxZoom ==> r == z
  {
    Clamp(z, MinZoom, MaxZoom)
  }

  /**
   The largest 4:5 window inside an `sw` x `sh` photo: it keeps the photo's
   full height when the photo is at least as wide as 4:5, otherwise its full
   width.
   */
  function LargestPortrait(sw: real, sh: real): (m: SizeF)
    requires sw > 0.0 && sh > 0.0
    ensures 5.0 * m.w == 4.0 * m.h
    ensures 0.0 < m.w <= sw && 0.0 < m.h <= sh
    ensures m.w == sw || m.h == sh
  {
    BelowRatio(sw, sh, PortraitAspect);
    if sw / sh >= PortraitAspect then SizeF(sh * PortraitAspect, sh)
    else SizeF(sw, sw / PortraitAspect)
  }

  /** The window's extent at zoom `z`: the largest window divided by `z`. */
  function WindowSize(sw: real, sh: real, z: real): (m: SizeF)
    requires sw > 0.0 && sh > 0.0 && z >= 1.0
    ensures 5.0 * m.w == 4.0 * m.h
    ensures m.w * z == LargestPortrait(sw, sh).w && m.h * z == LargestPortrait(sw, sh).h
    ensures 0.0 < m.w <= sw && 0.0 < m.h <= sh
  {
    var full := LargestPortrait(sw, sh);
    ShrinkByZoom(full.w, z);
    ShrinkByZoom(full.h, z);
    SizeF(full.w / z, full.h / z)
  }

  lemma ShrinkByZoom(a: real, z: real)
    requires a > 0.0 && z >= 1.0
    ensures (a / z) * z == a && 0.0 < a / z <= a
  {
    QuotientFacts(a, z);
    QuotientPositive(a, z);
    var q := a / z;
    ScaleWeak(q, 1.0, z);
  }

  /**
   One axis of the window's centre, in pixels: the desired centre `c`
   pulled into `[half, extent - half]` so that a window of half-length
   `half` stays inside `[0, extent]`.
   */
  function KeepInside(c: real, half: real, extent: real): (x: real)
    requires 0.0 <= half && 2.0 * half <= extent
    ensures half <= x <= extent - half
    ensures half <= c <= extent - half ==> x == c
  {
    Clamp(c, half, extent - half)
  }

  /**
   `computeCropRectInSource`: the 4:5 window at the given zoom (clamped
   into `[1, 3]`), centred on `(u, v)` of the photo (clamped into the unit
   square) as far as the photo allows. The window is exactly 4:5, is the
   largest 4:5 window divided by the zoom, lies inside the photo, and is
   centred on the requested point whenever that point leaves room for it.
   */
  function CropRectInSource(sw: int, sh: int, zoom: real, u: real, v: real): (r: RectF)
    requires sw >= 1 && sh >= 1
    ensures 5.0 * r.Width() == 4.0 * r.Height()
    ensures r.Width() == WindowSize(sw as real, sh as real, ClampZoom(zoom)).w
    ensures r.Height() == WindowSize(sw as real, sh as real, ClampZoom(zoom)).h
    ensures 0.0 <= r.left < r.right <= sw as real && 0.0 <= r.top < r.bottom <= sh as real
    ensures var size := WindowSize(sw as real, sh as real, ClampZoom(zoom));
      var cx := Clamp(u, 0.0, 1.0) * sw as real;
      size.w / 2.0 <= cx <= sw as real - size.w / 2.0 ==> (r.left + r.right) / 2.0 == cx
    ensures var size := WindowSize(sw as real, sh as real, ClampZoom(zoom));
      var cy := Clamp(v, 0.0, 1.0) * sh as real;
      size.h / 2.0 <= cy <= sh as real - size.h / 2.0 ==> (r.top + r.bottom) / 2.0 == cy
  {
    var size := WindowSize(sw as real, sh as real, ClampZoom(zoom));
    var halfW := size.w / 2.0;
    var halfH := size.h / 2.0;
    var cx := AxisCentre(u, halfW, sw as real);
    var cy := AxisCentre(v, halfH, sh as real);
    RectF(cx - halfW, cy - halfH, cx + halfW, cy + halfH)
  }

  /**
   The crop centre `(u, v)` leaves room for the whole window at `zoom`:
   restoring it reproduces the same window.
   */
  predicate CentreAdmissible(size: Size, zoom: real, u: real, v: real)
    requires size.Valid()
  {
    var hs := Halves(size, zoom);
    && 0.0 <= u <= 1.0 && 0.0 <= v <= 1.0
    && AxisInside(u, hs.w, size.w as real) && AxisInside(v, hs.h, size.h as real)
  }

  /** A centre fraction `f` whose window of half-extent `half` lies inside `[0, extent]`. */
  predicate AxisInside(f: real, half: real, extent: real) {
    half <= f * extent <= extent - half
  }

  /**
   `exportVisibleNormCrop`: nothing without a photo; otherwise the crop
   window as fractions of the photo, which is a non-empty box in the unit
   square of the same 4:5 shape in pixels.
   */
  function ExportNormCrop(photo: Option<Size>, zoom: real, u: real, v: real): (n: Option<NormCrop>)
    requires photo.Some? ==> photo.value.Valid()
    ensures n.None? <==> photo.None?
    ensures n.Some? ==> InUnitBox(n.value) && n.value.left < n.value.right && n.value.top < n.value.bottom
  {
    match photo
    case None => None
    case Some(size) =>
      var r := CropRectInSource(size.w, size.h, zoom, u, v);
      var sw := size.w as real;
      var sh := size.h as real;
      FractionOrder(r.left, r.right, sw);
      FractionOrder(r.top, r.bottom, sh);
      Some(NormCrop(Clamp(r.left / sw, 0.0, 1.0), Clamp(r.top / sh, 0.0, 1.0),
                    Clamp(r.right / sw, 0.0, 1.0), Clamp(r.bottom / sh, 0.0, 1.0)))
  }

  /** Dividing an ordered pair inside `[0, extent]` by the extent keeps it ordered inside `[0, 1]`. */
  lemma FractionOrder(a: real, b: real, extent: real)
    requires extent > 0.0 && 0.0 <= a < b <= extent
    ensures 0.0 <= a / extent < b / extent <= 1.0
  {
    QuotientFacts(b, extent);
    QuotientFacts(a, extent);
    QuotientFacts(b - a, extent);
    assert (b - a) / extent == b / extent - a / extent;
    if a > 0.0 {
      QuotientPositive(a, extent);
    }
  }

  /** The restore at start-up: the crop's midpoint, clamped into the unit square, becomes the crop centre. */
  function RestoreCentre(n: NormCrop): (c: (real, real))
    ensures 0.0 <= c.0 <= 1.0 && 0.0 <= c.1 <= 1.0
    ensures InUnitBox(n) ==> c.0 == (n.left + n.right) / 2.0 && c.1 == (n.top + n.bottom) / 2.0
  {
    (Clamp((n.left + n.right) / 2.0, 0.0, 1.0), Clamp((n.top + n.bottom) / 2.0, 0.0, 1.0))
  }

  /** The midpoint of two fractions of `e`, scaled back by `e`, is the midpoint of the originals. */
  lemma MidFraction(a: real, b: real, e: real)
    requires e > 0.0
    ensures ((a / e + b / e) / 2.0) * e == (a + b) / 2.0
    ensures (a + b) / 2.0 / e == (a / e + b / e) / 2.0
  {
    QuotientFacts(a, e);
    QuotientFacts(b, e);
    QuotientFacts((a + b) / 2.0, e);
    var qa, qb := a / e, b / e;
    assert ((qa + qb) / 2.0) * e == (qa * e + qb * e) / 2.0;
  }

  /** One axis of the window's centre: the requested fraction `p` of `e`, kept inside as far as `half` needs. */
  function AxisCentre(p: real, half: real, e: real): (x: real)
    requires 0.0 <= half && 2.0 * half <= e
    ensures half <= x <= e - half
  {
    KeepInside(Clamp(p, 0.0, 1.0) * e, half, e)
  }

  /** One axis of the saved crop's restored centre. */
  function RestoredAxis(lo: real, hi: real, e: real): real
    requires e > 0.0
  {
    Clamp((Clamp(lo / e, 0.0, 1.0) + Clamp(hi / e, 0.0, 1.0)) / 2.0, 0.0, 1.0)
  }

  /** On one axis, the centre restored from the window's edges reproduces the window's centre. */
  lemma AxisRoundTrip(p: real, half: real, e: real)
    requires 0.0 < half && 2.0 * half <= e
    ensures var x := AxisCentre(p, half, e);
      AxisCentre(RestoredAxis(x - half, x + half, e), half, e) == x
  {
    var x := AxisCentre(p, half, e);
    MidpointRestored(x, half, e);
    FractionCentred(x, half, e);
  }

  /** The window's edges around `x` restore the fraction `x / e`. */
  lemma MidpointRestored(x: real, half: real, e: real)
    requires 0.0 < half && 2.0 * half <= e && half <= x <= e - half
    ensures RestoredAxis(x - half, x + half, e) == x / e
  {
    FractionOrder(x - half, x + half, e);
    MidFraction(x - half, x + half, e);
    assert ((x - half) + (x + half)) / 2.0 == x;
  }

  /** The fraction `x / e` of an admissible centre `x` leads back to `x`. */
  lemma FractionCentred(x: real, half: real, e: real)
    requires 0.0 < half && 2.0 * half <= e && half <= x <= e - half
    ensures AxisCentre(x / e, half, e) == x
  {
    assert Clamp(x / e, 0.0, 1.0) * e == x by {
      QuotientFacts(x, e);
    }
  }

  /** On one axis, an admissible centre is restored exactly. */
  lemma AxisExact(p: real, half: real, e: real)
    requires 0.0 < half && 2.0 * half <= e && 0.0 <= p <= 1.0 && half <= p * e <= e - half
    ensures RestoredAxis(AxisCentre(p, half, e) - half, AxisCentre(p, half, e) + half, e) == p
  {
    var x := AxisCentre(p, half, e);
    assert x == p * e;
    FractionOrder(x - half, x + half, e);
    MidFraction(x - half, x + half, e);
    CancelScale(p, e);
  }

  lemma CancelScale(u: real, e: real)
    requires e > 0.0
    ensures (u * e) / e == u
  {
  }

  /** The window's half-extents at the editor's zoom. */
  function Halves(size: Size, zoom: real): (h: SizeF)
    requires size.Valid()
    ensures 0.0 < h.w && 2.0 * h.w <= size.w as real && 0.0 < h.h && 2.0 * h.h <= size.h as real
  {
    var m := WindowSize(size.w as real, size.h as real, ClampZoom(zoom));
    SizeF(m.w / 2.0, m.h / 2.0)
  }

  /** The exported crop's restored centre, one axis at a time. */
  lemma RestoredByAxis(size: Size, zoom: real, u: real, v: real)
    requires size.Valid()
    ensures var hs := Halves(size, zoom);
      var cx := AxisCentre(u, hs.w, size.w as real);
      var cy := AxisCentre(v, hs.h, size.h as real);
      && CropRectInSource(size.w, size.h, zoom, u, v) == RectF(cx - hs.w, cy - hs.h, cx + hs.w, cy + hs.h)
      && RestoreCentre(ExportNormCrop(Some(size), zoom, u, v).value)
         == (RestoredAxis(cx - hs.w, cx + hs.w, size.w as real), RestoredAxis(cy - hs.h, cy + hs.h, size.h as real))
  {
  }

  /**
   Saving the crop and restoring its centre reproduces the same window: the
   restored centre is the window's own centre, which always leaves room for
   the window, so nothing is pulled back a second time.
   */
  lemma ExportRestoreRoundTrip(size: Size, zoom: real, u: real, v: real)
    requires size.Valid()
    ensures var n := ExportNormCrop(Some(size), zoom, u, v).value;
      var c := RestoreCentre(n);
      CropRectInSource(size.w, size.h, zoom, c.0, c.1) == CropRectInSource(size.w, size.h, zoom, u, v)
  {
    var hs := Halves(size, zoom);
    RestoredByAxis(size, zoom, u, v);
    var c := RestoreCentre(ExportNormCrop(Some(size), zoom, u, v).value);
    RestoredByAxis(size, zoom, c.0, c.1);
    AxisRoundTrip(u, hs.w, size.w as real);
    AxisRoundTrip(v, hs.h, size.h as real);
  }

  /** The exact restore of the horizontal centre, given its room. */
  lemma ExactAcross(size: Size, zoom: real, u: real, v: real)
    requires size.Valid()
    requires 0.0 <= u <= 1.0 && Halves(size, zoom).w <= u * size.w as real <= size.w as real - Halves(size, zoom).w
    ensures RestoreCentre(ExportNormCrop(Some(size), zoom, u, v).value).0 == u
  {
    var hw := Halves(size, zoom).w;
    AxisExact(u, hw, size.w as real);
    RestoredByAxis(size, zoom, u, v);
  }

  /** The exact restore of the vertical centre, given its room. */
  lemma ExactDown(size: Size, zoom: real, u: real, v: real)
    requires size.Valid()
    requires 0.0 <= v <= 1.0 && Halves(size, zoom).h <= v * size.h as real <= size.h as real - Halves(size, zoom).h
    ensures RestoreCentre(ExportNormCrop(Some(size), zoom, u, v).value).1 == v
  {
    var hh := Halves(size, zoom).h;
    AxisExact(v, hh, size.h as real);
    RestoredByAxis(size, zoom, u, v);
  }

  /**
   When the crop centre already leaves room for the window (as every crop
   gesture guarantees), restoring the saved crop gives back exactly that
   centre.
   */
  lemma ExportRestoreExact(size: Size, zoom: real, u: real, v: real)
    requires size.Valid() && CentreAdmissible(size, zoom, u, v)
    ensures RestoreCentre(ExportNormCrop(Some(size), zoom, u, v).value) == (u, v)
  {
    ExactAcross(size, zoom, u, v);
    ExactDown(size, zoom, u, v);
  }
}

=== FILE: editor.dfy ===
/**
 The configuration screen's preview (`CaptionPreviewView`): its state, the
 setters the screen drives it with, and the layout each draw leaves behind
 for hit testing and mapping (the 4:5 stage, the photo's fit rectangle and
 the caption's box).
 */
module Editor {
  import opened Numeric
  import opened Optional
  import opened Geometry
  import opened Caption
  import opened Crop
  import opened Text

  const CaptionMinSp: real := 9.0
  const CaptionMaxSp: real := 48.0
  const InitialCaptionSp: real := 14.0

  /**
   The preview's state: the decoded photo's size (none before a photo is
   chosen or when decoding fails), the crop zoom, the crop centre as
   fractions of the photo, the photo rotation in degrees, the caption with
   its size in sp and its normalised position, and the presentation flags
   the screen sets per tab.
   */
  datatype Preview = Preview(
    photo: Option<Size>,
    zoom: real,
    centreU: real,
    centreV: real,
    rotation: real,
    caption: string,
    captionSp: real,
    posX: real,
    posY: real,
    noteMode: bool,
    cropGestures: bool,
    plain: bool,
    bubbleVisible: bool,
    captionVisible: bool)
  {
    /** Every value the setters and gestures keep in range is in range. */
    predicate Valid() {
      && (photo.Some? ==> photo.value.Valid())
      && MinZoom <= zoom <= MaxZoom
      && 0.0 <= centreU <= 1.0 && 0.0 <= centreV <= 1.0
      && 0.0 <= rotation < 360.0
      && CaptionMinSp <= captionSp <= CaptionMaxSp
      && 0.0 <= posX <= 1.0 && 0.0 <= posY <= 1.0
    }
  }

  /** A freshly created preview: photo mode, no photo, centred crop, caption low in the middle. */
  function Initial(): (e: Preview)
    ensures e.Valid() && e.photo.None? && !e.noteMode && e.cropGestures
  {
    Preview(None, 1.0, 0.5, 0.5, 0.0, "", InitialCaptionSp, 0.5, 0.8, false, true, false, true, true)
  }

  // ---------------------------------------------------------------------
  // Setters
  // ---------------------------------------------------------------------

  /** `setCropZoom`: the zoom, clamped into `[1, 3]`; nothing else changes. */
  function SetCropZoom(e: Preview, z: real): (r: Preview)
    ensures r == e.(zoom := r.zoom)
    ensures MinZoom <= r.zoom <= MaxZoom
    ensures MinZoom <= z <= MaxZoom ==> r.zoom == z
    ensures e.Valid() ==> r.Valid()
  {
    e.(zoom := ClampZoom(z))
  }

  /** `setCropCenter`: the crop centre, clamped into the unit square; nothing else changes. */
  function SetCropCenter(e: Preview, u: real, v: real): (r: Preview)
    ensures r == e.(centreU := r.centreU, centreV := r.centreV)
    ensures 0.0 <= r.centreU <= 1.0 && 0.0 <= r.centreV <= 1.0
    ensures 0.0 <= u <= 1.0 && 0.0 <= v <= 1.0 ==> r.centreU == u && r.centreV == v
    ensures e.Valid() ==> r.Valid()
  {
    e.(centreU := Clamp(u, 0.0, 1.0), centreV := Clamp(v, 0.0, 1.0))
  }

  /** `setCaptionSizeSp`: the caption size, clamped into `[9, 48]`; nothing else changes. */
  function SetCaptionSizeSp(e: Preview, sp: real): (r: Preview)
    ensures r == e.(captionSp := r.captionSp)
    ensures CaptionMinSp <= r.captionSp <= CaptionMaxSp
    ensures CaptionMinSp <= sp <= CaptionMaxSp ==> r.captionSp == sp
    ensures e.Valid() ==> r.Valid()
  {
    e.(captionSp := Clamp(sp, CaptionMinSp, CaptionMaxSp))
  }

  /** `setRotationDeg`: the rotation, normalised into `[0, 360)` by whole turns; nothing else changes. */
  function SetRotationDeg(e: Preview, deg: real): (r: Preview)
    ensures r == e.(rotation := r.rotation)
    ensures 0.0 <= r.rotation < 360.0 && IsWholeMultiple(deg - r.rotation, 360.0)
    ensures 0.0 <= deg < 360.0 ==> r.rotation == deg
    ensures e.Valid() ==> r.Valid()
  {
    e.(rotation := NormalizeDegrees(deg))
  }

  /** `setPosition`: the caption position, clamped into the unit square; nothing else changes. */
  function SetPosition(e: Preview, x: real, y: real): (r: Preview)
    ensures r == e.(posX := r.posX, posY := r.posY)
    ensures 0.0 <= r.posX <= 1.0 && 0.0 <= r.posY <= 1.0
    ensures 0.0 <= x <= 1.0 && 0.0 <= y <= 1.0 ==> r.posX == x && r.posY == y
    ensures e.Valid() ==> r.Valid()
  {
    e.(posX := Clamp(x, 0.0, 1.0), posY := Clamp(y, 0.0, 1.0))
  }

  /**
   `setImageUri`: the decoded photo (none when decoding fails) replaces the
   old one and the crop centre goes back to the middle; the zoom is kept.
   */
  function SetImage(e: Preview, decoded: Option<Size>): (r: Preview)
    requires decoded.Some? ==> decoded.value.Valid()
    ensures r == e.(photo := decoded, centreU := 0.5, centreV := 0.5)
    ensures e.Valid() ==> r.Valid()
  {
    e.(photo := decoded, centreU := 0.5, centreV := 0.5)
  }

  /** Applying a setter a second time with the same argument changes nothing. */
  lemma SettersIdempotent(e: Preview, z: real, u: real, v: real, sp: real, deg: real, x: real, y: real)
    ensures SetCropZoom(SetCropZoom(e, z), z) == SetCropZoom(e, z)
    ensures SetCropCenter(SetCropCenter(e, u, v), u, v) == SetCropCenter(e, u, v)
    ensures SetCaptionSizeSp(SetCaptionSizeSp(e, sp), sp) == SetCaptionSizeSp(e, sp)
    ensures SetRotationDeg(SetRotationDeg(e, deg), deg) == SetRotationDeg(e, deg)
    ensures SetPosition(SetPosition(e, x, y), x, y) == SetPosition(e, x, y)
  {
    NormalizeDegreesIdempotent(deg);
  }

  // ---------------------------------------------------------------------
  // Layout of a draw
  // ---------------------------------------------------------------------

  /**
   What a draw leaves behind: the stage (the view's 4:5 fit, which is also
   the caption's area), the rectangle taps and pans are measured against,
   and the caption's box when one was drawn.
   */
  datatype Layout = Layout(stage: Rect, fit: Rect, bubble: Option<RectF>)

  /** A layout of a view at least one pixel each way. */
  predicate Drawn(l: Layout) {
    l.stage.Width() >= 1 && l.stage.Height() >= 1 && l.fit.Width() >= 1 && l.fit.Height() >= 1
  }

  /**
   The whole photo fitted, without stretching, into `area`, centred with
   integer halving: it stays inside `area` and is at least a pixel each way.
   */
  function FitBitmap(area: Rect, b: Size): (f: Rect)
    requires area.Width() >= 1 && area.Height() >= 1 && b.Valid()
    ensures f.Inside(area) && f.Width() >= 1 && f.Height() >= 1
  {
    var aw := area.Width() as real;
    var ah := area.Height() as real;
    var s := Min(aw / b.w as real, ah / b.h as real);
    var dw := MaxInt(Trunc(b.w as real * s), 1);
    var dh := MaxInt(Trunc(b.h as real * s), 1);
    FittedSide(area.Width(), b.w, s, aw / b.w as real);
    FittedSide(area.Height(), b.h, s, ah / b.h as real);
    CentredBoxInside(area, dw, dh);
    CentredBox(area, dw, dh)
  }

  /** A box of `dw` x `dh` centred in `area` with Kotlin's integer halving. */
  function CentredBox(area: Rect, dw: int, dh: int): Rect {
    var left := area.left + Div(area.Width() - dw, 2);
    var top := area.top + Div(area.Height() - dh, 2);
    Rect(left, top, left + dw, top + dh)
  }

  lemma CentredBoxInside(area: Rect, dw: int, dh: int)
    requires 1 <= dw <= area.Width() && 1 <= dh <= area.Height()
    ensures var f := CentredBox(area, dw, dh);
      f.Inside(area) && f.Width() == dw && f.Height() == dh
  {
  }

  /** A side of `n` pixels scaled by at most `extent / n` truncates to a whole length in `[1, extent]`. */
  lemma FittedSide(extent: int, n: int, s: real, q: real)
    requires extent >= 1 && n >= 1 && q == extent as real / n as real && 0.0 < s <= q
    ensures 1 <= MaxInt(Trunc(n as real * s), 1) <= extent
  {
    ScaledWithin(extent as real, n as real, s, q);
    ScaleWeak(n as real, 0.0, s);
  }

  /** A side scaled by no more than `a / n` stays within `a`. */
  lemma ScaledWithin(a: real, n: real, s: real, q: real)
    requires a > 0.0 && n > 0.0 && q == a / n && s <= q
    ensures n * s <= a
  {
    QuotientFacts(a, n);
    ScaleWeak(n, s, q);
  }

  /** The caption's margin (a float 6 dp) and the bubble's padding (10 dp and 6 dp, whole pixels). */
  function PreviewMetrics(density: real): Metrics {
    Metrics(6.0 * density, Trunc(10.0 * density) as real, Trunc(6.0 * density) as real)
  }

  /**
   The caption `onDraw` lays out in the stage for a measured text block of
   `textW` x `textH`: nothing while the caption is hidden or blank, or in
   bubble style with the bubble hidden; otherwise the shared placement, plain
   or boxed, with the available extent floored at one pixel.
   */
  function PreviewCaption(e: Preview, stage: Rect, textW: real, textH: real, density: real): (b: Option<RectF>)
    ensures b.None? <==> !e.captionVisible || IsBlank(e.caption) || (!e.plain && !e.bubbleVisible)
    ensures b.Some? && textW >= 1.0 && textH >= 1.0 && Roomy(stage, PreviewMetrics(density)) ==>
      WithinF(b.value, Inset(stage, PreviewMetrics(density).margin))
  {
    if !e.captionVisible || IsBlank(e.caption) then None
    else if e.plain then
      Some(CaptionBox(stage, textW, textH, e.posX, e.posY, PreviewMetrics(density), Plain, true))
    else if !e.bubbleVisible then None
    else Some(CaptionBox(stage, textW, textH, e.posX, e.posY, PreviewMetrics(density), Bubble, true))
  }

  /**
   `onDraw` for a `viewW` x `viewH` view: the stage is the view's 4:5 fit.
   In photo mode with a photo the crop window is the stage fitted a second
   time and taps are measured against the whole photo fitted into that
   window; otherwise against the stage.
   */
  function Draw(e: Preview, viewW: int, viewH: int, textW: real, textH: real, density: real): (l: Layout)
    requires e.photo.Some? ==> e.photo.value.Valid()
    ensures viewW >= 1 && viewH >= 1 ==> Drawn(l) && IsPortraitFit(Rect(0, 0, viewW, viewH), l.stage)
    ensures viewW >= 1 && viewH >= 1 && !e.noteMode && e.photo.Some? ==> l.fit.Inside(CropWindow(l.stage))
    ensures e.noteMode || e.photo.None? ==> l.fit == l.stage
  {
    var stage := Stage(Rect(0, 0, viewW, viewH));
    var fit := if !e.noteMode && e.photo.Some? && stage.Width() >= 1 && stage.Height() >= 1
               && CropWindow(stage).Width() >= 1 && CropWindow(stage).Height() >= 1
               then FitBitmap(CropWindow(stage), e.photo.value)
               else stage;
    Layout(stage, fit, PreviewCaption(e, stage, textW, textH, density))
  }

  /**
   The visible crop window of photo mode: the stage fitted to 4:5 a second
   time, which can lose a pixel to truncation.
   */
  function CropWindow(stage: Rect): (w: Rect)
    ensures stage.Width() >= 1 && stage.Height() >= 1 ==> IsPortraitFit(stage, w)
  {
    Stage(stage)
  }

  /**
   `mapUVToView`: a normalised point in view pixels. In note mode (or
   without a photo) it is a point of the measuring rectangle; otherwise a
   point of the photo, scaled by the fit's width over the photo's width.
   */
  function MapUVToView(e: Preview, l: Layout, u: real, v: real): (p: (real, real))
    requires e.photo.Some? ==> e.photo.value.Valid()
    ensures l.fit.Width() >= 0 && l.fit.Height() >= 0 && (e.noteMode || e.photo.None?) ==>
      l.fit.left as real <= p.0 <= l.fit.right as real && l.fit.top as real <= p.1 <= l.fit.bottom as real
  {
    if e.noteMode || e.photo.None? then
      TargetInside(l.fit, u, v);
      (TargetX(l.fit, u), TargetY(l.fit, v))
    else
      var b := e.photo.value;
      var s := l.fit.Width() as real / b.w as real;
      (PhotoToView(l.fit.left as real, Clamp(u, 0.0, 1.0), b.w as real, s),
       PhotoToView(l.fit.top as real, Clamp(v, 0.0, 1.0), b.h as real, s))
  }

  /**
   The view coordinate of fraction `f` along an axis of `n` photo pixels
   drawn from `lo` at `s` view pixels per photo pixel.
   */
  function PhotoToView(lo: real, f: real, n: real, s: real): real {
    lo + (f * n) * s
  }
}

=== FILE: geometry.dfy ===
/**
 Rectangle arithmetic shared by the configuration editor and the widget
 compositor: the 4:5 portrait stage fit, the two unused helpers that trim or
 fit a rectangle to an aspect ratio, and the rotated-bounding-box factors that
 keep a rotated photo covering (or fitting inside) its frame.
 */
module Geometry {
  import opened Numeric

  /** `android.graphics.Rect`: integer edges, right and bottom exclusive. */
  datatype Rect = Rect(left: int, top: int, right: int, bottom: int) {

    function Width(): int { right - left }

    function Height(): int { bottom - top }

    predicate Inside(outer: Rect) {
      outer.left <= left && outer.top <= top && right <= outer.right && bottom <= outer.bottom
    }
  }

  /** `android.graphics.RectF`. */
  datatype RectF = RectF(left: real, top: real, right: real, bottom: real) {

    function Width(): real { right - left }

    function Height(): real { bottom - top }

    /** `RectF.contains(x, y)`: false for an empty rectangle, right and bottom edges excluded. */
    predicate Contains(x: real, y: real) {
      left < right && top < bottom && left <= x < right && top <= y < bottom
    }
  }

  /** The photo and note stage aspect, width over height. */
  const PortraitAspect: real := 0.8

  /**
   Kotlin's float test `w / h > ar` for a positive `ar`, including IEEE
   division by zero: `w / 0` is `+Infinity` for positive `w`, `NaN` for zero
   (every comparison false) and `-Infinity` for negative `w`.
   */
  predicate WiderThan(w: real, h: real, ar: real) {
    if h > 0.0 then w > ar * h
    else if h == 0.0 then w > 0.0
    else w < ar * h
  }

  /** A fitted side `max(x.toInt(), 1)`: whole pixels, never empty. */
  function SpanFor(x: real): int {
    MaxInt(Trunc(x), 1)
  }

  /** The centring offset `((avail - len) / 2f).toInt()`. */
  function HalfSlack(avail: real, len: int): int {
    Trunc((avail - len as real) / 2.0)
  }

  /** On whole extents the float centring offset is Kotlin's integer half. */
  lemma HalfSlackIsDiv(extent: int, len: int)
    ensures HalfSlack(extent as real, len) == Div(extent - len, 2)
  {
    assert (extent as real - len as real) / 2.0 == (extent - len) as real / 2.0;
    HalfIsTruncatedHalf(extent - len);
  }

  /**
   The aspect fit written out four times in the sources: the largest box of
   aspect `ar` that spans `r` on one axis and is centred on the other, from
   the float extents `availW` x `availH` of `r`.
   */
  function FitAspect(r: Rect, availW: real, availH: real, ar: real): Rect
    requires ar > 0.0
  {
    if WiderThan(availW, availH, ar) then HalvedAcross(r, availW, SpanFor(availH * ar))
    else HalvedDown(r, availH, SpanFor(availW / ar))
  }

  /** A box `w` wide spanning `r` vertically, centred horizontally with the float half of `availW - w`. */
  function HalvedAcross(r: Rect, availW: real, w: int): Rect {
    var left := r.left + HalfSlack(availW, w);
    Rect(left, r.top, left + w, r.bottom)
  }

  /** A box `h` tall spanning `r` horizontally, centred vertically with the float half of `availH - h`. */
  function HalvedDown(r: Rect, availH: real, h: int): Rect {
    var top := r.top + HalfSlack(availH, h);
    Rect(r.left, top, r.right, top + h)
  }

  /**
   What the stage fit promises for a non-empty rectangle `r`: the stage lies
   inside `r`, is at least one pixel each way and 4:5 up to integer
   truncation; it spans `r` on its tighter axis, is as long as a 4:5 box can
   be on the other (the largest whole length whose 4:5 partner fits, but at
   least one pixel), and is centred there with half the slack, rounded down,
   on the leading side.
   */
  predicate IsPortraitFit(r: Rect, s: Rect) {
    && s.Inside(r)
    && s.Width() >= 1 && s.Height() >= 1
    && -5 < 5 * s.Width() - 4 * s.Height() < 5
    && (5 * r.Width() > 4 * r.Height() ==>
          && s.top == r.top && s.bottom == r.bottom
          && s.Width() == MaxInt(4 * r.Height() / 5, 1)
          && s.left - r.left == (r.Width() - s.Width()) / 2)
    && (5 * r.Width() <= 4 * r.Height() ==>
          && s.left == r.left && s.right == r.right
          && s.Height() == 5 * r.Width() / 4
          && s.top - r.top == (r.Height() - s.Height()) / 2)
  }

  /**
   The 4:5 stage centred in `r` (editor `onDraw` and the widget's note and
   photo bitmaps). Defined once, so the editor and the compositor agree by
   construction.
   */
  function Stage(r: Rect): (s: Rect)
    ensures r.Width() >= 1 && r.Height() >= 1 ==> IsPortraitFit(r, s)
  {
    StageFitProperties(r);
    FitAspect(r, r.Width() as real, r.Height() as real, PortraitAspect)
  }

  lemma StageFitProperties(r: Rect)
    ensures r.Width() >= 1 && r.Height() >= 1 ==>
      IsPortraitFit(r, FitAspect(r, r.Width() as real, r.Height() as real, PortraitAspect))
  {
    if r.Width() < 1 || r.Height() < 1 {
      return;
    }
    var W := r.Width();
    var H := r.Height();
    var s := FitAspect(r, W as real, H as real, PortraitAspect);
    if 5 * W > 4 * H {
      assert WiderThan(W as real, H as real, PortraitAspect);
      var t0 := Trunc(H as real * 0.8);
      assert 5 * t0 <= 4 * H < 5 * t0 + 5;
      var tw := SpanFor(H as real * 0.8);
      assert W >= tw;
      HalfSlackIsDiv(W, tw);
      assert s == Rect(r.left + (W - tw) / 2, r.top, r.left + (W - tw) / 2 + tw, r.bottom);
    } else {
      assert !WiderThan(W as real, H as real, PortraitAspect);
      var t0 := Trunc(W as real / 0.8);
      assert 4 * t0 <= 5 * W < 4 * t0 + 4;
      assert t0 >= 1 && t0 <= H && SpanFor(W as real / 0.8) == t0;
      HalfSlackIsDiv(H, t0);
      assert s == Rect(r.left, r.top + (H - t0) / 2, r.right, r.top + (H - t0) / 2 + t0);
    }
  }

  /**
   The stage fit is not idempotent: fitting the 10 x 13 view gives a 10 x 12
   stage, and fitting that stage again (as the editor's photo branch does)
   gives 9 x 12.
   */
  lemma StageRefitCanShrink(r: Rect)
    requires r == Rect(0, 0, 10, 13)
    ensures Stage(r) == Rect(0, 0, 10, 12)
    ensures Stage(Stage(r)) == Rect(0, 0, 9, 12)
  {
    TallStage(r);
    WideStage(Rect(0, 0, 10, 12));
  }

  lemma TallStage(r: Rect)
    requires r == Rect(0, 0, 10, 13)
    ensures Stage(r) == Rect(0, 0, 10, 12)
  {
    assert IsPortraitFit(r, Stage(r));
  }

  lemma WideStage(r: Rect)
    requires r == Rect(0, 0, 10, 12)
    ensures Stage(r) == Rect(0, 0, 9, 12)
  {
    assert IsPortraitFit(r, Stage(r));
  }

  /**
   The widget file's top-level `fitAspectInside`, which centres with integer
   division where the stage code uses `(x / 2f).toInt()`.
   */
  function FitAspectInside(container: Rect, aspect: real): Rect
    requires aspect > 0.0
  {
    var cw := container.Width() as real;
    var ch := container.Height() as real;
    if WiderThan(cw, ch, aspect) then CentredAcross(container, SpanFor(ch * aspect))
    else CentredDown(container, SpanFor(cw / aspect))
  }

  /** A box `w` wide spanning `c` vertically, centred horizontally with Kotlin's integer half. */
  function CentredAcross(c: Rect, w: int): Rect {
    var left := c.left + Div(c.Width() - w, 2);
    Rect(left, c.top, left + w, c.bottom)
  }

  /** A box `h` tall spanning `c` horizontally, centred vertically with Kotlin's integer half. */
  function CentredDown(c: Rect, h: int): Rect {
    var top := c.top + Div(c.Height() - h, 2);
    Rect(c.left, top, c.right, top + h)
  }

  /** A span no longer than the extent, centred with the integer half, stays inside and keeps its length. */
  lemma CentredAcrossInside(c: Rect, w: int)
    requires 1 <= w <= c.Width()
    ensures var f := CentredAcross(c, w);
      f.Inside(c) && f.Width() == w && f.top == c.top && f.bottom == c.bottom
  {
  }

  lemma CentredDownInside(c: Rect, h: int)
    requires 1 <= h <= c.Height()
    ensures var f := CentredDown(c, h);
      f.Inside(c) && f.Height() == h && f.left == c.left && f.right == c.right
  {
  }

  /** In a container wider than the aspect, the aspect-true width fits across it. */
  lemma WideSpanFits(wd: int, ht: int, ar: real)
    requires wd >= 1 && ht >= 1 && ar > 0.0 && WiderThan(wd as real, ht as real, ar)
    ensures 1 <= SpanFor(ht as real * ar) <= wd
  {
    ProductSign(ht as real, ar);
  }

  /** In a container no wider than the aspect, the aspect-true height fits down it. */
  lemma TallSpanFits(wd: int, ht: int, ar: real)
    requires wd >= 1 && ht >= 1 && ar > 0.0 && !WiderThan(wd as real, ht as real, ar)
    ensures 1 <= SpanFor(wd as real / ar) <= ht
  {
    var q := wd as real / ar;
    QuotientFacts(wd as real, ar);
    if q > ht as real {
      ScaleStrict(ar, ht as real, q);
      assert false;
    }
  }

  /**
   On whole extents, float and integer centring place a box alike, so the
   widget's integer-centred fit and the float-centred stage fit, which pick
   the same branch and the same span, give the same rectangle.
   */
  lemma HalvedAcrossIsCentred(c: Rect, w: int)
    ensures HalvedAcross(c, c.Width() as real, w) == CentredAcross(c, w)
  {
    HalfSlackIsDiv(c.Width(), w);
  }

  lemma HalvedDownIsCentred(c: Rect, h: int)
    ensures HalvedDown(c, c.Height() as real, h) == CentredDown(c, h)
  {
    HalfSlackIsDiv(c.Height(), h);
  }

  /**
   Centring a span of `n` pixels on the midpoint of `[lo, hi)` with
   Kotlin's truncating division keeps it inside `[lo, hi]`.
   */
  lemma CentredSpanInside(lo: int, hi: int, n: int)
    ensures 0 <= n <= hi - lo ==> lo <= Div(lo + hi, 2) - Div(n, 2)
    ensures 0 <= n <= hi - lo ==> Div(lo + hi, 2) + Div(n, 2) <= hi
    ensures 0 <= n ==> n - 1 <= 2 * Div(n, 2) <= n
  {
  }

  /** Trimming the width of a too-wide rectangle keeps the new width within the old one. */
  lemma TrimWidthInside(r: Rect, t: real)
    requires t > 0.0
    ensures var rw := Max(r.Width() as real, 1.0); var rh := Max(r.Height() as real, 1.0);
      r.Width() >= 1 && r.Height() >= 1 && rw / rh > t ==> 0 <= Trunc(rh * t) <= r.Width()
  {
    var rw := Max(r.Width() as real, 1.0);
    var rh := Max(r.Height() as real, 1.0);
    if r.Width() >= 1 && r.Height() >= 1 && rw / rh > t {
      BelowRatio(rw, rh, t);
      ScaleStrict(rh, 0.0, t);
    }
  }

  /** Trimming the height of a rectangle that is not too wide keeps the new height within the old one. */
  lemma TrimHeightInside(r: Rect, t: real)
    requires t > 0.0
    ensures var rw := Max(r.Width() as real, 1.0); var rh := Max(r.Height() as real, 1.0);
      r.Width() >= 1 && r.Height() >= 1 && !(rw / rh > t) ==> 0 <= Trunc(rw / t) <= r.Height()
  {
    var rw := Max(r.Width() as real, 1.0);
    var rh := Max(r.Height() as real, 1.0);
    if r.Width() >= 1 && r.Height() >= 1 && !(rw / rh > t) {
      assert rw == (rw / rh) * rh;
      ScaleWeak(rh, rw / rh, t);
      var q := rw / t;
      assert q * t == rw;
      if q > rh {
        ScaleStrict(t, rh, q);
      }
      ScaleWeak(1.0 / t, 0.0, rw);
    }
  }

  lemma BelowRatio(a: real, b: real, t: real)
    requires b > 0.0 && t > 0.0
    ensures a / b > t <==> b * t < a
  {
    assert a == b * (a / b);
    if a / b > t {
      ScaleStrict(b, t, a / b);
    }
    if b * t < a {
      if a / b <= t {
        ScaleWeak(b, a / b, t);
      }
    }
  }

  /**
   The widget file's unused `cropToAspectWithin`: trims the longer axis of a
   non-empty `r` around its centre toward `targetAR`. The result stays inside
   `r` and keeps `r`'s extent on the axis it does not trim.
   */
  function CropToAspectWithin(r: Rect, targetAR: real): (c: Rect)
    requires targetAR > 0.0
    ensures r.Width() >= 1 && r.Height() >= 1 ==> c.Inside(r)
    ensures (c.top == r.top && c.bottom == r.bottom) || (c.left == r.left && c.right == r.right)
  {
    var rw := Max(r.Width() as real, 1.0);
    var rh := Max(r.Height() as real, 1.0);
    var ar := rw / rh;
    if Abs(ar - targetAR) < 0.001 then r
    else if ar > targetAR then
      var newW := Trunc(rh * targetAR);
      var cx := Div(r.left + r.right, 2);
      TrimWidthInside(r, targetAR);
      CentredSpanInside(r.left, r.right, newW);
      Rect(cx - Div(newW, 2), r.top, cx + Div(newW, 2), r.bottom)
    else
      var newH := Trunc(rw / targetAR);
      var cy := Div(r.top + r.bottom, 2);
      TrimHeightInside(r, targetAR);
      CentredSpanInside(r.top, r.bottom, newH);
      Rect(r.left, cy - Div(newH, 2), r.right, cy + Div(newH, 2))
  }

  /** `c` and `s` are |cos θ| and |sin θ| of some angle θ. */
  predicate IsRotation(c: real, s: real) {
    0.0 <= c && 0.0 <= s && c * c + s * s == 1.0
  }

  /**
   What the cover and shrink factors need of |cos θ| and |sin θ|: both are
   non-negative and together at least one.
   */
  predicate Spanning(c: real, s: real) {
    0.0 <= c && 0.0 <= s && c + s >= 1.0
  }

  /** Every rotation is spanning, so the factors below apply to any angle. */
  lemma RotationSpan(c: real, s: real)
    requires IsRotation(c, s)
    ensures Spanning(c, s)
  {
    ScaleWeak(c, 0.0, s);
    var t := c + s;
    assert t * t == c * c + s * s + 2.0 * (c * s);
    if t < 1.0 {
      ScaleWeak(t, t, 1.0);
      assert false;
    }
  }

  /**
   A `w` x `h` rectangle rotated by θ has the bounding box
   (`w c + h s`) x (`w s + h c`); these two facts bound that box from below.
   */
  lemma RotatedBoxAtLeast(w: real, h: real, c: real, s: real)
    requires w > 0.0 && h > 0.0 && Spanning(c, s)
    ensures w * c + h * s > 0.0 && w * s + h * c > 0.0
    ensures w * c + h * s >= w || w * s + h * c >= h
  {
    RotatedBoxPositive(w, h, c, s);
    RotatedBoxGrows(w, h, c, s);
  }

  lemma RotatedBoxPositive(w: real, h: real, c: real, s: real)
    requires w > 0.0 && h > 0.0 && Spanning(c, s)
    ensures w * c + h * s > 0.0 && w * s + h * c > 0.0
  {
    ProductSign(w, c);
    ProductSign(w, s);
    ProductSign(h, c);
    ProductSign(h, s);
  }

  lemma ProductSign(m: real, x: real)
    requires m > 0.0 && x >= 0.0
    ensures m * x >= 0.0 && (x > 0.0 ==> m * x > 0.0)
  {
    ScaleWeak(m, 0.0, x);
    if x > 0.0 {
      ScaleStrict(m, 0.0, x);
    }
  }

  /** The two sides of the rotated box together are at least `w + h`, so one side does not shrink. */
  lemma RotatedBoxGrows(w: real, h: real, c: real, s: real)
    requires w > 0.0 && h > 0.0 && Spanning(c, s)
    ensures w * c + h * s >= w || w * s + h * c >= h
  {
    assert (w * c + h * s) + (w * s + h * c) >= w + h by {
      assert (w * c + h * s) + (w * s + h * c) == (w + h) * (c + s);
      ScaleWeak(w + h, 1.0, c + s);
    }
  }

  /**
   A photo scaled by `k` about the centre of a `w` x `h` frame and rotated by
   θ still covers the frame when the frame's own rotated bounding box fits
   inside the scaled photo.
   */
  predicate CoversAfterRotation(w: real, h: real, c: real, s: real, k: real) {
    k * w >= w * c + h * s && k * h >= w * s + h * c
  }

  /**
   The editor's `coverScaleForRotation` (rotation below 0.01 degrees is
   treated as none), over the given |cos| and |sin|: one for no rotation,
   otherwise a factor of at least one whose scaled photo covers the stage
   after the rotation, with no slack on at least one axis (so no smaller
   factor covers).
   */
  function CoverScale(w: real, h: real, deg: real, c: real, s: real): (k: real)
    requires w > 0.0 && h > 0.0 && Spanning(c, s)
    ensures k >= 1.0
    ensures Abs(deg) < 0.01 ==> k == 1.0
    ensures Abs(deg) >= 0.01 ==> CoversAfterRotation(w, h, c, s, k)
    ensures Abs(deg) >= 0.01 ==> k * w == w * c + h * s || k * h == w * s + h * c
  {
    if Abs(deg) < 0.01 then 1.0
    else
      RotatedBoxAtLeast(w, h, c, s);
      CoverFactor(w, h, c, s);
      LeastCoverOf(w, h, w * c + h * s, w * s + h * c)
  }

  /** The least cover factor of a frame's rotated bounding box, stated over the rotation. */
  lemma CoverFactor(w: real, h: real, c: real, s: real)
    requires w > 0.0 && h > 0.0 && (w * c + h * s >= w || w * s + h * c >= h)
    ensures var k := LeastCoverOf(w, h, w * c + h * s, w * s + h * c);
      k >= 1.0 && CoversAfterRotation(w, h, c, s, k) && (k * w == w * c + h * s || k * h == w * s + h * c)
  {
    LeastCover(w, h, w * c + h * s, w * s + h * c);
  }

  /** The least factor, at least one, that stretches `w` x `h` over `rw` x `rh`. */
  function LeastCoverOf(w: real, h: real, rw: real, rh: real): real
    requires w > 0.0 && h > 0.0
  {
    Max(Max(rw / w, rh / h), 1.0)
  }

  /** That factor covers both extents, with no slack on one of them when one is no smaller. */
  lemma LeastCover(w: real, h: real, rw: real, rh: real)
    requires w > 0.0 && h > 0.0 && (rw >= w || rh >= h)
    ensures var k := LeastCoverOf(w, h, rw, rh);
      k >= 1.0 && k * w >= rw && k * h >= rh && (k * w == rw || k * h == rh)
  {
    var x := rw / w;
    var y := rh / h;
    QuotientFacts(rw, w);
    QuotientFacts(rh, h);
    var k := Max(Max(x, y), 1.0);
    assert k == x || k == y;
    ScaleWeak(w, x, k);
    ScaleWeak(h, y, k);
  }

  /**
   A card of `w` x `h` scaled by `k` and rotated by θ fits back inside the
   unrotated `w` x `h` area.
   */
  predicate FitsAfterRotation(w: real, h: real, c: real, s: real, k: real) {
    k * (w * c + h * s) <= w && k * (w * s + h * c) <= h
  }

  /**
   `shrinkToFitRotation` over the given |cos| and |sin|: a factor of at most
   one that lets the rotated card fit inside its unrotated footprint, with no
   slack on at least one axis (so no larger factor fits).
   */
  function ShrinkToFitRotation(w: real, h: real, c: real, s: real): (k: real)
    requires w > 0.0 && h > 0.0 && Spanning(c, s)
    ensures 0.0 < k <= 1.0
    ensures FitsAfterRotation(w, h, c, s, k)
    ensures k * (w * c + h * s) == w || k * (w * s + h * c) == h
  {
    RotatedBoxAtLeast(w, h, c, s);
    ShrinkFactor(w, h, c, s);
    var wPrime := w * c + h * s;
    var hPrime := w * s + h * c;
    Min(w / wPrime, h / hPrime)
  }

  lemma ShrinkFactor(w: real, h: real, c: real, s: real)
    requires w > 0.0 && h > 0.0
    requires w * c + h * s > 0.0 && w * s + h * c > 0.0
    requires w * c + h * s >= w || w * s + h * c >= h
    ensures var wPrime := w * c + h * s; var hPrime := w * s + h * c;
      var k := Min(w / wPrime, h / hPrime);
      0.0 < k <= 1.0 && FitsAfterRotation(w, h, c, s, k) && (k * wPrime == w || k * hPrime == h)
  {
    GreatestFit(w, h, w * c + h * s, w * s + h * c);
  }

  /** The greatest factor that shrinks `wp` x `hp` into `w` x `h`, one of which is no larger. */
  lemma GreatestFit(w: real, h: real, wp: real, hp: real)
    requires w > 0.0 && h > 0.0 && wp > 0.0 && hp > 0.0 && (wp >= w || hp >= h)
    ensures var k := Min(w / wp, h / hp);
      0.0 < k <= 1.0 && k * wp <= w && k * hp <= h && (k * wp == w || k * hp == h)
  {
    var x := w / wp;
    var y := h / hp;
    QuotientFacts(w, wp);
    QuotientFacts(h, hp);
    var k := Min(x, y);
    ScaleWeak(wp, k, x);
    ScaleWeak(hp, k, y);
  }
}

=== FILE: numeric.dfy ===
/**
 The conventional Some/None wrapper, used for Kotlin's nullable results.
 */
module Optional {

  datatype Option<+T> = None | Some(value: T)
}

/**
 Kotlin number semantics used by the widget code, written over Dafny's
 unbounded `int` and exact `real`.

 - `Float.toInt()` rounds toward zero (`Trunc`);
 - `Int / Int` rounds toward zero (`Div`), unlike Dafny's Euclidean `/`;
 - `Float % m` keeps the sign of the dividend (`Rem`);
 - `coerceIn(lo, hi)` throws when `lo > hi`, so `Clamp` requires `lo <= hi`
   and every call site has to show it.
 */
module Numeric {

  function Min(a: real, b: real): real { if a <= b then a else b }

  function Max(a: real, b: real): real { if a >= b then a else b }

  function MinInt(a: int, b: int): int { if a <= b then a else b }

  function MaxInt(a: int, b: int): int { if a >= b then a else b }

  function Abs(x: real): real { if x < 0.0 then -x else x }

  function AbsInt(x: int): int { if x < 0 then -x else x }

  /** Kotlin `Float.toInt()`: drops the fraction, rounding toward zero. */
  function Trunc(x: real): (r: int)
    ensures 0.0 <= x ==> 0 <= r && r as real <= x < r as real + 1.0
    ensures x < 0.0 ==> r <= 0 && r as real - 1.0 < x <= r as real
  {
    if x >= 0.0 then x.Floor else -((-x).Floor)
  }

  /** Kotlin `Int / Int` for a positive divisor: the quotient rounded toward zero. */
  function Div(a: int, b: int): (q: int)
    requires b > 0
    ensures 0 <= a ==> 0 <= q && q * b <= a < q * b + b
    ensures a < 0 ==> q <= 0 && q * b - b < a <= q * b
  {
    if a >= 0 then
      NaturalQuotient(a, b);
      a / b
    else
      NaturalQuotient(-a, b);
      assert (-((-a) / b)) * b == -(((-a) / b) * b);
      -((-a) / b)
  }

  /** Dafny's quotient of a natural number: the largest whole number of `b`s that fit. */
  lemma NaturalQuotient(n: int, b: int)
    requires n >= 0 && b > 0
    ensures 0 <= n / b && (n / b) * b <= n < (n / b) * b + b
  {
    var q, r := n / b, n % b;
    assert n == q * b + r && 0 <= r < b;
  }

  /** Kotlin `coerceIn(lo, hi)` on floats. */
  function Clamp(x: real, lo: real, hi: real): (r: real)
    requires lo <= hi
    ensures lo <= r <= hi
    ensures lo <= x <= hi ==> r == x
    ensures x < lo ==> r == lo
    ensures x > hi ==> r == hi
  {
    if x < lo then lo else if x > hi then hi else x
  }

  /** Kotlin `coerceIn(lo, hi)` on ints: the float clamp of whole numbers is whole. */
  function ClampInt(x: int, lo: int, hi: int): (r: int)
    requires lo <= hi
    ensures lo <= r <= hi
    ensures lo <= x <= hi ==> r == x
    ensures x < lo ==> r == lo
    ensures x > hi ==> r == hi
  {
    Clamp(x as real, lo as real, hi as real).Floor
  }

  /** `d` is a whole number of `m`s. */
  predicate IsWholeMultiple(d: real, m: real)
    requires m > 0.0
  {
    (d / m).Floor as real == d / m
  }

  /** Kotlin `Float % m` for a positive `m` (IEEE fmod): `x - m * trunc(x / m)`. */
  function Rem(x: real, m: real): (r: real)
    requires m > 0.0
    ensures 0.0 <= x ==> 0.0 <= r < m
    ensures x < 0.0 ==> -m < r <= 0.0
    ensures IsWholeMultiple(x - r, m)
  {
    var q := Trunc(x / m);
    QuotientBounds(x, m, q);
    var r := x - m * q as real;
    assert x - r == q as real * m;
    QuotientUnique(x - r, m, q as real);
    r
  }

  lemma QuotientBounds(x: real, m: real, q: int)
    requires m > 0.0 && q == Trunc(x / m)
    ensures 0.0 <= x ==> m * q as real <= x < m * q as real + m
    ensures x < 0.0 ==> m * q as real - m < x <= m * q as real
  {
    ScaledBounds(x, m, x / m, q as real);
  }

  lemma ScaledBounds(x: real, m: real, t: real, qr: real)
    requires m > 0.0 && x == m * t
    requires 0.0 <= t ==> qr <= t < qr + 1.0
    requires t < 0.0 ==> qr - 1.0 < t <= qr
    ensures 0.0 <= x ==> m * qr <= x < m * qr + m
    ensures x < 0.0 ==> m * qr - m < x <= m * qr
  {
    if 0.0 <= t {
      ScaleStrict(m, t, qr + 1.0);
      ScaleWeak(m, qr, t);
      calc {
        x;
        m * t;
      < m * (qr + 1.0);
        m * qr + m;
      }
    } else {
      ScaleStrict(m, qr - 1.0, t);
      ScaleWeak(m, t, qr);
      ScaleStrict(m, t, 0.0);
      calc {
        m * qr - m;
        m * (qr - 1.0);
      < m * t;
        x;
      }
    }
  }

  lemma ScaleStrict(m: real, a: real, b: real)
    requires m > 0.0 && a < b
    ensures m * a < m * b
  {
    assert m * b - m * a == m * (b - a);
  }

  lemma ScaleWeak(m: real, a: real, b: real)
    requires m >= 0.0 && a <= b
    ensures m * a <= m * b
  {
    assert m * b - m * a == m * (b - a);
  }

  /** `a / b` undoes multiplication by `b`, is positive for positive `a`, and compares with one as `a` does with `b`. */
  lemma QuotientFacts(a: real, b: real)
    requires b > 0.0
    ensures (a / b) * b == a
    ensures a > 0.0 ==> a / b > 0.0
    ensures a <= b ==> a / b <= 1.0
    ensures a >= b ==> a / b >= 1.0
  {
    QuotientPositive(a, b);
    QuotientAtMostOne(a, b);
    QuotientAtLeastOne(a, b);
  }

  lemma QuotientPositive(a: real, b: real)
    requires b > 0.0
    ensures a > 0.0 ==> a / b > 0.0
  {
    var q := a / b;
    assert b * q == a;
    if a > 0.0 && q <= 0.0 {
      ScaleWeak(b, q, 0.0);
      assert false;
    }
  }

  lemma QuotientAtMostOne(a: real, b: real)
    requires b > 0.0
    ensures a <= b ==> a / b <= 1.0
  {
    var q := a / b;
    assert b * q == a;
    if a <= b && q > 1.0 {
      ScaleStrict(b, 1.0, q);
      assert false;
    }
  }

  lemma QuotientAtLeastOne(a: real, b: real)
    requires b > 0.0
    ensures a >= b ==> a / b >= 1.0
  {
    var q := a / b;
    assert b * q == a;
    if a >= b && q < 1.0 {
      ScaleStrict(b, q, 1.0);
      assert false;
    }
  }

  lemma WholeMultipleSum(a: real, b: real, m: real)
    requires m > 0.0 && IsWholeMultiple(a, m) && IsWholeMultiple(b, m)
    ensures IsWholeMultiple(a + b, m)
  {
    var ka := (a / m).Floor;
    var kb := (b / m).Floor;
    assert (a + b) / m == (ka + kb) as real by {
      QuotientFacts(a, m);
      QuotientFacts(b, m);
      assert (ka as real + kb as real) * m == ka as real * m + kb as real * m;
      QuotientUnique(a + b, m, (ka + kb) as real);
    }
  }

  /** A real `z` with `z * m == c` is the quotient `c / m`. */
  lemma QuotientUnique(c: real, m: real, z: real)
    requires m > 0.0 && z * m == c
    ensures c / m == z
  {
    var d := c / m;
    assert d * m == c;
    if d < z {
      ScaleStrict(m, d, z);
    } else if d > z {
      ScaleStrict(m, z, d);
    }
  }

  /**
   The degree normalisation `((deg % 360f) + 360f) % 360f` used by the
   editor's `setRotationDeg` and the widget's `savePhotoRotation`: the
   result is the angle in [0, 360) that differs from `deg` by whole turns.
   */
  function NormalizeDegrees(deg: real): (r: real)
    ensures 0.0 <= r < 360.0
    ensures IsWholeMultiple(deg - r, 360.0)
    ensures 0.0 <= deg < 360.0 ==> r == deg
  {
    var once := Rem(deg, 360.0);
    var r := Rem(once + 360.0, 360.0);
    assert deg - r == (deg - once) + ((once + 360.0) - r) + (-360.0);
    assert IsWholeMultiple(-360.0, 360.0);
    WholeMultipleSum(deg - once, (once + 360.0) - r, 360.0);
    WholeMultipleSum((deg - once) + ((once + 360.0) - r), -360.0, 360.0);
    r
  }

  /** Normalising twice is normalising once. */
  lemma NormalizeDegreesIdempotent(deg: real)
    ensures NormalizeDegrees(NormalizeDegrees(deg)) == NormalizeDegrees(deg)
  {
  }

  /** Kotlin `n / 2` is `(n / 2f).toInt()`: both round the half toward zero. */
  lemma HalfIsTruncatedHalf(n: int)
    ensures Div(n, 2) == Trunc(n as real / 2.0)
  {
    var q := Div(n, 2);
    if n >= 0 {
      assert q as real <= n as real / 2.0 < q as real + 1.0;
    } else {
      assert q as real - 1.0 < n as real / 2.0 <= q as real;
    }
  }

  /** Non-negative halves round down, matching Dafny's own division. */
  lemma HalfOfNatural(n: int)
    requires n >= 0
    ensures Trunc(n as real / 2.0) == n / 2
  {
    HalfIsTruncatedHalf(n);
  }
}

=== FILE: store.dfy ===
/**
 The widget's persisted settings: one shared preferences map from string
 keys to floats and strings. Every setting of widget `id` lives under its
 own key, a fixed prefix followed by the decimal `id`; saves write one key
 (two for a position), loads fall back to a default when the key is
 missing, and deleting a note removes a fixed set of seven keys.
 */
module Store {
  import opened Numeric
  import opened Optional
  import opened Text
  import opened Crop

  /** A stored preference: `putFloat` or `putString`. */
  datatype Value = FloatV(f: real) | StrV(s: string)

  type Prefs = map<string, Value>

  /** The settings kept per widget. */
  datatype Field =
    | Note | Caption | Photo | CaptionSize | CaptionX | CaptionY | Rotation
    | CropText | Zoom | NoteX | NoteY | ModeName

  /** The key prefix of each setting; the widget id follows it. */
  function Prefix(f: Field): string {
    match f
    case Note => "note_"
    case Caption => "caption_"
    case Photo => "photo_"
    case CaptionSize => "caption_size_"
    case CaptionX => "caption_posx_"
    case CaptionY => "caption_posy_"
    case Rotation => "photo_rot_deg_"
    case CropText => "crop_"
    case Zoom => "photo_zoom_"
    case NoteX => "note_pos_x_"
    case NoteY => "note_pos_y_"
    case ModeName => "mode_"
  }

  /** Settings stored with `putFloat`; the rest are strings. */
  predicate HoldsFloat(f: Field) {
    !(f.Note? || f.Caption? || f.Photo? || f.CropText? || f.ModeName?)
  }

  /** The preference key of setting `f` of widget `id`. */
  function Key(f: Field, id: int): string {
    Prefix(f) + ShowInt(id)
  }

  lemma PrefixHasNoNumerals(f: Field)
    ensures forall k :: 0 <= k < |Prefix(f)| ==> !IsNumeral(Prefix(f)[k])
  {
  }

  lemma PrefixInjective(f: Field, g: Field)
    ensures Prefix(f) == Prefix(g) <==> f == g
  {
  }

  /** A prefix free of numerals ends exactly where a numeral-only suffix begins. */
  lemma SplitPoint(p: string, d: string, q: string, e: string)
    requires p + d == q + e && |d| >= 1 && |e| >= 1
    requires IsNumeral(d[0]) && IsNumeral(e[0])
    requires forall k :: 0 <= k < |p| ==> !IsNumeral(p[k])
    requires forall k :: 0 <= k < |q| ==> !IsNumeral(q[k])
    ensures |p| == |q|
  {
    if |p| < |q| {
      CharAfterShorter(p, d, q, e);
      assert false;
    } else if |q| < |p| {
      CharAfterShorter(q, e, p, d);
      assert false;
    }
  }

  /** Where the shorter prefix ends, the longer one still continues. */
  lemma CharAfterShorter(p: string, d: string, q: string, e: string)
    requires p + d == q + e && |d| >= 1 && |p| < |q|
    ensures d[0] == q[|p|]
  {
    assert (p + d)[|p|] == d[0];
    assert (q + e)[|p|] == q[|p|];
  }

  /**
   Different settings, or the same setting of different widgets, never share
   a key.
   */
  lemma KeyInjective(f: Field, i: int, g: Field, j: int)
    ensures Key(f, i) == Key(g, j) <==> f == g && i == j
  {
    if Key(f, i) == Key(g, j) {
      var p, q := Prefix(f), Prefix(g);
      var s := Key(f, i);
      PrefixHasNoNumerals(f);
      PrefixHasNoNumerals(g);
      SplitPoint(p, ShowInt(i), q, ShowInt(j));
      assert p == s[..|p|] == q;
      PrefixInjective(f, g);
      assert ShowInt(i) == s[|p|..] == ShowInt(j);
      ShowIntInjective(i, j);
    }
  }

  /** Every setting's key holds a value of the setting's kind, as the source's typed getters demand. */
  ghost predicate WellTyped(p: Prefs) {
    forall f: Field, id: int {:trigger Key(f, id)} :: Key(f, id) in p ==> (p[Key(f, id)].FloatV? <==> HoldsFloat(f))
  }

  /** `v` is of the kind setting `f` holds. */
  predicate Fits(f: Field, v: Value) {
    v.FloatV? <==> HoldsFloat(f)
  }

  /** `p` and `q` agree on every key outside `changed`. */
  ghost predicate AgreeOutside(p: Prefs, q: Prefs, changed: set<string>) {
    forall k :: k !in changed ==> (k in p <==> k in q) && (k in p ==> p[k] == q[k])
  }

  /** Storing one setting. */
  function Put(p: Prefs, f: Field, id: int, v: Value): (q: Prefs)
    requires WellTyped(p) && Fits(f, v)
    ensures WellTyped(q)
    ensures Key(f, id) in q && q[Key(f, id)] == v
    ensures AgreeOutside(p, q, {Key(f, id)})
  {
    var q := p[Key(f, id) := v];
    assert WellTyped(q) by {
      forall g: Field, j: int | Key(g, j) in q
        ensures q[Key(g, j)].FloatV? <==> HoldsFloat(g)
      {
        KeyInjective(f, id, g, j);
      }
    }
    q
  }

  /** `getFloat(key, default)`. */
  function GetFloat(p: Prefs, f: Field, id: int, default: real): (x: real)
    requires WellTyped(p) && HoldsFloat(f)
    ensures Key(f, id) !in p ==> x == default
    ensures Key(f, id) in p ==> p[Key(f, id)] == FloatV(x)
  {
    if Key(f, id) in p then p[Key(f, id)].f else default
  }

  /** `getString(key, null)`. */
  function GetString(p: Prefs, f: Field, id: int): (s: Option<string>)
    requires WellTyped(p) && !HoldsFloat(f)
    ensures s.None? <==> Key(f, id) !in p
    ensures s.Some? ==> p[Key(f, id)] == StrV(s.value)
  {
    if Key(f, id) in p then Some(p[Key(f, id)].s) else None
  }

  /**
   A float read after a save: the setting just saved reads back as the saved
   value, whatever the default; any other setting, of any widget, reads as
   before the save.
   */
  lemma GetFloatAfterPut(p: Prefs, f: Field, id: int, v: Value, g: Field, j: int, default: real)
    requires WellTyped(p) && Fits(f, v) && HoldsFloat(g)
    ensures (g, j) == (f, id) ==> GetFloat(Put(p, f, id, v), g, j, default) == v.f
    ensures (g, j) != (f, id) ==> GetFloat(Put(p, f, id, v), g, j, default) == GetFloat(p, g, j, default)
  {
    if (g, j) != (f, id) {
      PutKeepsOthers(p, f, id, v, g, j);
    }
  }

  /**
   A text read after a save: the setting just saved reads back as the saved
   text; any other setting, of any widget, reads as before the save.
   */
  lemma GetStringAfterPut(p: Prefs, f: Field, id: int, v: Value, g: Field, j: int)
    requires WellTyped(p) && Fits(f, v) && !HoldsFloat(g)
    ensures (g, j) == (f, id) ==> GetString(Put(p, f, id, v), g, j) == Some(v.s)
    ensures (g, j) != (f, id) ==> GetString(Put(p, f, id, v), g, j) == GetString(p, g, j)
  {
    if (g, j) != (f, id) {
      PutKeepsOthers(p, f, id, v, g, j);
    }
  }

  /** A save of one setting leaves every other setting, of every widget, as it was. */
  lemma PutKeepsOthers(p: Prefs, f: Field, id: int, v: Value, g: Field, j: int)
    requires WellTyped(p) && Fits(f, v) && (g, j) != (f, id)
    ensures (Key(g, j) in Put(p, f, id, v) <==> Key(g, j) in p)
    ensures Key(g, j) in p ==> Put(p, f, id, v)[Key(g, j)] == p[Key(g, j)]
  {
    KeyInjective(f, id, g, j);
  }

  // ---- Photo rotation ----

  const DefaultRotation: real := 0.0

  /** `savePhotoRotation`: the angle is stored normalised into `[0, 360)`. */
  function SavePhotoRotation(p: Prefs, id: int, deg: real): (q: Prefs)
    requires WellTyped(p)
    ensures WellTyped(q) && AgreeOutside(p, q, {Key(Rotation, id)})
    ensures 0.0 <= LoadPhotoRotation(q, id) < 360.0
    ensures IsWholeMultiple(deg - LoadPhotoRotation(q, id), 360.0)
    ensures 0.0 <= deg < 360.0 ==> LoadPhotoRotation(q, id) == deg
  {
    Put(p, Rotation, id, FloatV(NormalizeDegrees(deg)))
  }

  function LoadPhotoRotation(p: Prefs, id: int): real
    requires WellTyped(p)
  {
    GetFloat(p, Rotation, id, DefaultRotation)
  }

  // ---- Normalised crop ----

  /** The `"%.6f,%.6f,%.6f,%.6f"` text `saveNormCrop` stores. */
  function CropString(c: NormCrop): (s: string)
    ensures Split(s, ',') == [Format6(c.left), Format6(c.top), Format6(c.right), Format6(c.bottom)]
  {
    var parts := [Format6(c.left), Format6(c.top), Format6(c.right), Format6(c.bottom)];
    SplitJoin(parts, ',');
    Join(parts, ',')
  }

  function SaveNormCrop(p: Prefs, id: int, c: NormCrop): (q: Prefs)
    requires WellTyped(p)
    ensures WellTyped(q) && AgreeOutside(p, q, {Key(CropText, id)})
    ensures GetString(q, CropText, id) == Some(CropString(c))
  {
    Put(p, CropText, id, StrV(CropString(c)))
  }

  /**
   The defensive clamp of a parsed crop: left and top into `[0, 1]`, right
   and bottom into `[left, 1]` and `[top, 1]`. The result is always a box in
   the unit square, and a box already there passes through unchanged.
   */
  function Defensive(l: real, t: real, r: real, b: real): (c: NormCrop)
    ensures InUnitBox(c)
    ensures InUnitBox(NormCrop(l, t, r, b)) ==> c == NormCrop(l, t, r, b)
  {
    var lc := Clamp(l, 0.0, 1.0);
    var tc := Clamp(t, 0.0, 1.0);
    NormCrop(lc, tc, Clamp(r, lc, 1.0), Clamp(b, tc, 1.0))
  }

  /**
   The parsing half of `loadNormCrop`: exactly four comma-separated numbers,
   clamped defensively; anything else gives nothing.
   */
  function ParseNormCrop(s: string): (c: Option<NormCrop>)
    ensures c.Some? ==> InUnitBox(c.value)
    ensures c.Some? <==> AllNumbers(Split(s, ','))
  {
    var parts := Split(s, ',');
    if AllNumbers(parts) then
      Some(Defensive(ParseDecimal(parts[0]).value, ParseDecimal(parts[1]).value,
                     ParseDecimal(parts[2]).value, ParseDecimal(parts[3]).value))
    else None
  }

  /** Exactly four pieces, each a number. */
  predicate AllNumbers(parts: seq<string>) {
    |parts| == 4 && forall k :: 0 <= k < 4 ==> ParseDecimal(parts[k]).Some?
  }

  /** `loadNormCrop`: nothing when the key is missing, otherwise the parsed text. */
  function LoadNormCrop(p: Prefs, id: int): (c: Option<NormCrop>)
    requires WellTyped(p)
    ensures Key(CropText, id) !in p ==> c.None?
    ensures c.Some? ==> InUnitBox(c.value)
  {
    match GetString(p, CropText, id)
    case None => None
    case Some(s) => ParseNormCrop(s)
  }

  /**
   Saving a crop and loading it back gives the crop rounded to six decimals
   and clamped defensively.
   */
  lemma NormCropRoundTrip(p: Prefs, id: int, c: NormCrop)
    requires WellTyped(p)
    ensures LoadNormCrop(SaveNormCrop(p, id, c), id)
      == Some(Defensive(Round6(c.left), Round6(c.top), Round6(c.right), Round6(c.bottom)))
  {
    Format6RoundTrip(c.left);
    Format6RoundTrip(c.top);
    Format6RoundTrip(c.right);
    Format6RoundTrip(c.bottom);
    var parts := Split(CropString(c), ',');
    assert AllNumbers(parts);
  }

  /**
   A crop inside the unit square comes back as its six-decimal rounding, each
   edge within half a millionth of the saved one: the defensive clamp never
   moves it.
   */
  lemma NormCropRoundTripInBox(p: Prefs, id: int, c: NormCrop)
    requires WellTyped(p) && InUnitBox(c)
    ensures LoadNormCrop(SaveNormCrop(p, id, c), id)
      == Some(NormCrop(Round6(c.left), Round6(c.top), Round6(c.right), Round6(c.bottom)))
    ensures var n := LoadNormCrop(SaveNormCrop(p, id, c), id).value;
      && Abs(n.left - c.left) <= 0.0000005 && Abs(n.top - c.top) <= 0.0000005
      && Abs(n.right - c.right) <= 0.0000005 && Abs(n.bottom - c.bottom) <= 0.0000005
  {
    NormCropRoundTrip(p, id, c);
    Round6Monotone(c.left, c.right);
    Round6Monotone(c.top, c.bottom);
    Round6Unit(c.left);
    Round6Unit(c.top);
    Round6Unit(c.right);
    Round6Unit(c.bottom);
  }

  /**
   Text without exactly three commas, such as `bad,data`, does not split
   into four pieces and loads as no crop.
   */
  lemma ParseNormCropRejects(s: string)
    requires multiset(s)[','] != 3
    ensures ParseNormCrop(s).None?
  {
    SplitCount(s, ',');
  }

  // ---- Zoom ----

  const DefaultZoom: real := 1.0

  /** `savePhotoZoom`: the zoom is stored clamped into `[1, 3]`. */
  function SavePhotoZoom(p: Prefs, id: int, zoom: real): (q: Prefs)
    requires WellTyped(p)
    ensures WellTyped(q) && AgreeOutside(p, q, {Key(Zoom, id)})
    ensures MinZoom <= LoadPhotoZoom(q, id) <= MaxZoom
    ensures MinZoom <= zoom <= MaxZoom ==> LoadPhotoZoom(q, id) == zoom
    ensures zoom < MinZoom ==> LoadPhotoZoom(q, id) == MinZoom
    ensures zoom > MaxZoom ==> LoadPhotoZoom(q, id) == MaxZoom
  {
    Put(p, Zoom, id, FloatV(ClampZoom(zoom)))
  }

  function LoadPhotoZoom(p: Prefs, id: int): real
    requires WellTyped(p)
  {
    GetFloat(p, Zoom, id, DefaultZoom)
  }

  // ---- Caption and note positions ----

  const DefaultPosX: real := 0.5
  const DefaultPosY: real := 0.8

  /** A normalised position. */
  datatype Pos = Pos(x: real, y: real)

  predicate InUnitSquare(q: Pos) { 0.0 <= q.x <= 1.0 && 0.0 <= q.y <= 1.0 }

  /** A position clamped into the unit square. */
  function ClampPos(x: real, y: real): (q: Pos)
    ensures InUnitSquare(q)
    ensures InUnitSquare(Pos(x, y)) ==> q == Pos(x, y)
  {
    Pos(Clamp(x, 0.0, 1.0), Clamp(y, 0.0, 1.0))
  }

  /** Saving a position writes both coordinates, clamped into the unit square. */
  function SavePos(p: Prefs, fx: Field, fy: Field, id: int, x: real, y: real): (q: Prefs)
    requires WellTyped(p) && HoldsFloat(fx) && HoldsFloat(fy) && fx != fy
    ensures WellTyped(q) && AgreeOutside(p, q, {Key(fx, id), Key(fy, id)})
    ensures LoadPos(q, fx, fy, id) == ClampPos(x, y)
  {
    var q1 := Put(p, fx, id, FloatV(Clamp(x, 0.0, 1.0)));
    var q := Put(q1, fy, id, FloatV(Clamp(y, 0.0, 1.0)));
    PutKeepsOthers(q1, fy, id, FloatV(Clamp(y, 0.0, 1.0)), fx, id);
    q
  }

  function LoadPos(p: Prefs, fx: Field, fy: Field, id: int): Pos
    requires WellTyped(p) && HoldsFloat(fx) && HoldsFloat(fy)
  {
    Pos(GetFloat(p, fx, id, DefaultPosX), GetFloat(p, fy, id, DefaultPosY))
  }

  /** `saveCaptionPos`. */
  function SaveCaptionPos(p: Prefs, id: int, x: real, y: real): (q: Prefs)
    requires WellTyped(p)
    ensures WellTyped(q) && AgreeOutside(p, q, {Key(CaptionX, id), Key(CaptionY, id)})
    ensures LoadCaptionPos(q, id) == ClampPos(x, y)
  {
    SavePos(p, CaptionX, CaptionY, id, x, y)
  }

  /** `loadCaptionPos`: `(0.5, 0.8)` when nothing is stored. */
  function LoadCaptionPos(p: Prefs, id: int): (q: Pos)
    requires WellTyped(p)
    ensures Key(CaptionX, id) !in p && Key(CaptionY, id) !in p ==> q == Pos(DefaultPosX, DefaultPosY)
  {
    LoadPos(p, CaptionX, CaptionY, id)
  }

  /** `saveNotePos`. */
  function SaveNotePos(p: Prefs, id: int, x: real, y: real): (q: Prefs)
    requires WellTyped(p)
    ensures WellTyped(q) && AgreeOutside(p, q, {Key(NoteX, id), Key(NoteY, id)})
    ensures LoadNotePos(q, id) == ClampPos(x, y)
  {
    SavePos(p, NoteX, NoteY, id, x, y)
  }

  /** `loadNotePos`: `(0.5, 0.8)` when nothing is stored. */
  function LoadNotePos(p: Prefs, id: int): (q: Pos)
    requires WellTyped(p)
    ensures Key(NoteX, id) !in p && Key(NoteY, id) !in p ==> q == Pos(DefaultPosX, DefaultPosY)
  {
    LoadPos(p, NoteX, NoteY, id)
  }

  // ---- Caption size ----

  const DefaultCaptionSp: real := 14.0

  /** `saveCaptionSize`: stored as given, without a clamp. */
  function SaveCaptionSize(p: Prefs, id: int, sp: real): (q: Prefs)
    requires WellTyped(p)
    ensures WellTyped(q) && AgreeOutside(p, q, {Key(CaptionSize, id)})
    ensures LoadCaptionSize(q, id) == sp
  {
    Put(p, CaptionSize, id, FloatV(sp))
  }

  /** `loadCaptionSize`: 14 sp when nothing is stored. */
  function LoadCaptionSize(p: Prefs, id: int): (sp: real)
    requires WellTyped(p)
    ensures Key(CaptionSize, id) !in p ==> sp == DefaultCaptionSp
  {
    GetFloat(p, CaptionSize, id, DefaultCaptionSp)
  }

  // ---- Texts and photo ----

  /** `saveNote`. */
  function SaveNote(p: Prefs, id: int, note: string): (q: Prefs)
    requires WellTyped(p)
    ensures WellTyped(q) && AgreeOutside(p, q, {Key(Note, id)})
    ensures LoadNote(q, id) == note
  {
    Put(p, Note, id, StrV(note))
  }

  /** `loadNote`: empty when nothing is stored. */
  function LoadNote(p: Prefs, id: int): (s: string)
    requires WellTyped(p)
    ensures Key(Note, id) !in p ==> s == ""
  {
    match GetString(p, Note, id) case None => "" case Some(s) => s
  }

  /** `saveCaption`. */
  function SaveCaption(p: Prefs, id: int, caption: string): (q: Prefs)
    requires WellTyped(p)
    ensures WellTyped(q) && AgreeOutside(p, q, {Key(Caption, id)})
    ensures LoadCaption(q, id) == caption
  {
    Put(p, Caption, id, StrV(caption))
  }

  /** `loadCaption`: empty when nothing is stored. */
  function LoadCaption(p: Prefs, id: int): (s: string)
    requires WellTyped(p)
    ensures Key(Caption, id) !in p ==> s == ""
  {
    match GetString(p, Caption, id) case None => "" case Some(s) => s
  }

  /** `savePhotoUri`: a missing photo is stored as the empty string. */
  function SavePhotoUri(p: Prefs, id: int, uri: Option<string>): (q: Prefs)
    requires WellTyped(p)
    ensures WellTyped(q) && AgreeOutside(p, q, {Key(Photo, id)})
    ensures LoadPhotoUri(q, id) == (if uri.None? || IsBlank(uri.value) then None else uri)
  {
    Put(p, Photo, id, StrV(if uri.Some? then uri.value else ""))
  }

  /** `loadPhotoUri`: a missing or blank entry means no photo. */
  function LoadPhotoUri(p: Prefs, id: int): (u: Option<string>)
    requires WellTyped(p)
    ensures u.Some? ==> !IsBlank(u.value) && Key(Photo, id) in p && p[Key(Photo, id)] == StrV(u.value)
    ensures u.None? ==> Key(Photo, id) !in p || IsBlank(p[Key(Photo, id)].s)
  {
    var s := match GetString(p, Photo, id) case None => "" case Some(s) => s;
    if IsBlank(s) then None else Some(s)
  }

  // ---- Deletion ----

  /** The seven keys `deleteNote` removes. */
  function DeletedKeys(id: int): set<string> {
    {Key(Note, id), Key(Caption, id), Key(Photo, id), Key(CaptionSize, id),
     Key(CaptionX, id), Key(CaptionY, id), Key(Rotation, id)}
  }

  /**
   `deleteNote`: the note, caption, photo, caption size, caption position and
   rotation of widget `id` go back to their defaults; nothing else changes.
   */
  function DeleteNote(p: Prefs, id: int): (q: Prefs)
    requires WellTyped(p)
    ensures WellTyped(q) && AgreeOutside(p, q, DeletedKeys(id))
    ensures forall k :: k in DeletedKeys(id) ==> k !in q
    ensures LoadNote(q, id) == "" && LoadCaption(q, id) == "" && LoadPhotoUri(q, id).None?
    ensures LoadCaptionSize(q, id) == DefaultCaptionSp && LoadPhotoRotation(q, id) == DefaultRotation
    ensures LoadCaptionPos(q, id) == Pos(DefaultPosX, DefaultPosY)
  {
    var q := p - DeletedKeys(id);
    assert WellTyped(q) by {
      forall g: Field, j: int | Key(g, j) in q
        ensures q[Key(g, j)].FloatV? <==> HoldsFloat(g)
      {
        assert Key(g, j) in p;
      }
    }
    q
  }

  /**
   What `deleteNote` leaves behind: the crop, zoom, note position and mode of
   the same widget, and every setting of every other widget.
   */
  lemma DeleteNoteKeeps(p: Prefs, id: int, g: Field, j: int)
    requires WellTyped(p)
    requires j != id || g in {CropText, Zoom, NoteX, NoteY, ModeName}
    ensures (Key(g, j) in DeleteNote(p, id) <==> Key(g, j) in p)
    ensures Key(g, j) in p ==> DeleteNote(p, id)[Key(g, j)] == p[Key(g, j)]
  {
    KeyInjective(g, j, Note, id);
    KeyInjective(g, j, Caption, id);
    KeyInjective(g, j, Photo, id);
    KeyInjective(g, j, CaptionSize, id);
    KeyInjective(g, j, CaptionX, id);
    KeyInjective(g, j, CaptionY, id);
    KeyInjective(g, j, Rotation, id);
  }

  // ---- Mode ----

  /** What the widget shows. */
  datatype Mode = NoteMode | PhotoMode

  /** The enum constant's name, as `mode.name` stores it. */
  function ModeText(m: Mode): string {
    match m case NoteMode => "NOTE" case PhotoMode => "PHOTO"
  }

  function SaveMode(p: Prefs, id: int, m: Mode): (q: Prefs)
    requires WellTyped(p)
    ensures WellTyped(q) && AgreeOutside(p, q, {Key(ModeName, id)})
    ensures LoadMode(q, id) == m
  {
    Put(p, ModeName, id, StrV(ModeText(m)))
  }

  /** `loadMode`: the stored name's mode; a missing or unknown name means NOTE. */
  function LoadMode(p: Prefs, id: int): (m: Mode)
    requires WellTyped(p)
    ensures m == PhotoMode <==> GetString(p, ModeName, id) == Some("PHOTO")
  {
    match GetString(p, ModeName, id)
    case Some(s) => if s == "PHOTO" then PhotoMode else NoteMode
    case None => NoteMode
  }

  /** `toggleMode`: stores and returns the mode other than the loaded one. */
  function ToggleMode(p: Prefs, id: int): (r: (Prefs, Mode))
    requires WellTyped(p)
    ensures WellTyped(r.0) && AgreeOutside(p, r.0, {Key(ModeName, id)})
    ensures r.1 != LoadMode(p, id) && LoadMode(r.0, id) == r.1
  {
    var next := if LoadMode(p, id) == NoteMode then PhotoMode else NoteMode;
    (SaveMode(p, id, next), next)
  }

  /** Two toggles bring back the mode that was loaded before them. */
  lemma ToggleTwice(p: Prefs, id: int)
    requires WellTyped(p)
    ensures LoadMode(ToggleMode(ToggleMode(p, id).0, id).0, id) == LoadMode(p, id)
  {
  }

  /** The mode the widget renders: PHOTO without a stored photo falls back to NOTE. */
  function EffectiveMode(m: Mode, photo: Option<string>): (e: Mode)
    ensures e == PhotoMode <==> m == PhotoMode && photo.Some?
  {
    if m == PhotoMode && photo.None? then NoteMode else m
  }
}

=== FILE: text.dfy ===
/**
 The string handling the widget relies on: Kotlin's `isBlank`, `split` on
 one character, `Int.toString` (the `$id` in preference keys), Java's
 `"%.6f"` formatting with its half-up rounding, and a decimal parser for
 the strings that formatting produces.
 */
module Text {
  import opened Numeric
  import opened Optional

  /** Kotlin `Char.isWhitespace`: Java whitespace plus the Unicode space separators. */
  predicate IsWhitespace(c: char) {
    || c == '\t' || c == '\n' || c == '\U{000B}' || c == '\U{000C}' || c == '\r'
    || ('\U{001C}' <= c <= '\U{001F}') || c == ' ' || c == '\U{00A0}' || c == '\U{1680}'
    || ('\U{2000}' <= c <= '\U{200A}') || c == '\U{2028}' || c == '\U{2029}'
    || c == '\U{202F}' || c == '\U{205F}' || c == '\U{3000}'
  }

  /** Kotlin `isBlank`: empty or whitespace only. */
  predicate IsBlank(s: string) {
    forall i :: 0 <= i < |s| ==> IsWhitespace(s[i])
  }

  /**
   Kotlin `ifBlank { d }`: the result is one of the two, text with content is
   kept, and the result is blank only when both are, so a non-blank default
   guarantees a non-blank result.
   */
  function IfBlank(s: string, d: string): (r: string)
    ensures r == s || r == d
    ensures !IsBlank(s) ==> r == s
    ensures IsBlank(r) <==> IsBlank(s) && IsBlank(d)
  {
    if IsBlank(s) then d else s
  }

  predicate IsDigit(c: char) { '0' <= c <= '9' }

  predicate AllDigits(s: string) {
    forall i :: 0 <= i < |s| ==> IsDigit(s[i])
  }

  function DigitChar(d: nat): (c: char)
    requires d < 10
    ensures IsDigit(c)
  {
    (d + '0' as int) as char
  }

  function DigitValue(c: char): (d: nat)
    requires IsDigit(c)
    ensures d < 10 && DigitChar(d) == c
  {
    c as int - '0' as int
  }

  /** The value of a string of decimal digits, most significant first; the empty string is zero. */
  function DigitsValue(s: string): nat
    requires AllDigits(s)
  {
    if |s| == 0 then 0 else DigitsValue(s[..|s| - 1]) * 10 + DigitValue(s[|s| - 1])
  }

  function Pow10(n: nat): (p: nat)
    ensures p >= 1
  {
    if n == 0 then 1 else 10 * Pow10(n - 1)
  }

  /** `Int.toString` of a natural number: digits only, without leading zeros. */
  function ShowNat(n: nat): (s: string)
    ensures |s| >= 1 && AllDigits(s)
    ensures |s| > 1 ==> s[0] != '0'
  {
    if n < 10 then [DigitChar(n)] else ShowNat(n / 10) + [DigitChar(n % 10)]
  }

  /** Reading back a rendered natural number gives the number. */
  lemma {:induction false} ShowNatRoundTrip(n: nat)
    ensures DigitsValue(ShowNat(n)) == n
  {
    if n >= 10 {
      var s := ShowNat(n);
      assert s[..|s| - 1] == ShowNat(n / 10);
      ShowNatRoundTrip(n / 10);
    }
  }

  /** The characters `Int.toString` can produce. */
  predicate IsNumeral(c: char) { IsDigit(c) || c == '-' }

  /** `Int.toString`: a minus sign for negative numbers, then the magnitude's digits. */
  function ShowInt(i: int): (s: string)
    ensures |s| >= 1
    ensures forall k :: 0 <= k < |s| ==> IsNumeral(s[k])
  {
    if i < 0 then "-" + ShowNat(-i) else ShowNat(i)
  }

  /** Kotlin `toIntOrNull` on the strings `ShowInt` produces: an optional minus sign and at least one digit. */
  function ParseInt(s: string): (r: Option<int>)
    ensures r.Some? ==> |s| >= 1
  {
    if |s| >= 2 && s[0] == '-' && AllDigits(s[1..]) then Some(0 - DigitsValue(s[1..]) as int)
    else if |s| >= 1 && AllDigits(s) then Some(DigitsValue(s))
    else None
  }

  /** Parsing undoes `Int.toString`. */
  lemma ShowIntRoundTrip(i: int)
    ensures ParseInt(ShowInt(i)) == Some(i)
  {
    if i < 0 {
      var n := ShowNat(-i);
      var s := "-" + n;
      assert ShowInt(i) == s;
      assert s[0] == '-' && s[1..] == n;
      ShowNatRoundTrip(-i);
    } else {
      var s := ShowNat(i);
      assert ShowInt(i) == s;
      assert IsDigit(s[0]);
      ShowNatRoundTrip(i);
    }
  }

  /** Distinct numbers render differently, which is what keeps preference keys of different widgets apart. */
  lemma ShowIntInjective(i: int, j: int)
    ensures ShowInt(i) == ShowInt(j) <==> i == j
  {
    if ShowInt(i) == ShowInt(j) {
      ShowIntRoundTrip(i);
      ShowIntRoundTrip(j);
    }
  }

  /** The lowest `width` decimal digits of `n`, zero-padded. */
  function PadDigits(n: nat, width: nat): (s: string)
    ensures |s| == width && AllDigits(s)
  {
    if width == 0 then [] else PadDigits(n / 10, width - 1) + [DigitChar(n % 10)]
  }

  /** Zero-padded digits read back as the number modulo the field's range. */
  lemma {:induction false} PadDigitsValue(n: nat, width: nat)
    ensures DigitsValue(PadDigits(n, width)) == n % Pow10(width)
  {
    if width > 0 {
      var s := PadDigits(n, width);
      assert s[..|s| - 1] == PadDigits(n / 10, width - 1);
      PadDigitsValue(n / 10, width - 1);
      ModTen(n, Pow10(width - 1));
    }
  }

  /** `(n / 10) % p * 10 + n % 10 == n % (10 * p)`. */
  lemma ModTen(n: nat, p: nat)
    requires p >= 1
    ensures (n / 10) % p * 10 + n % 10 == n % (10 * p)
  {
    var q := n / 10;
    var a := q / p;
    var b := q % p;
    assert n == (a * p + b) * 10 + n % 10;
    assert n == a * (10 * p) + (b * 10 + n % 10);
    assert 0 <= b * 10 + n % 10 < 10 * p;
    ModUnique(n, 10 * p, a, b * 10 + n % 10);
  }

  lemma ModUnique(n: nat, d: nat, a: int, r: int)
    requires d >= 1 && n == a * d + r && 0 <= r < d
    ensures n % d == r
  {
    var a0, r0 := n / d, n % d;
    assert n == a0 * d + r0;
    if a < a0 {
      ScaleAtLeast(a0 - a, d);
      assert false;
    }
    if a > a0 {
      ScaleAtLeast(a - a0, d);
      assert false;
    }
  }

  lemma ScaleAtLeast(k: int, d: nat)
    requires k >= 1
    ensures k * d >= d
  {
    assert k * d == d + (k - 1) * d;
  }

  const Micro: nat := 1000000

  /**
   `"%.6f"` rounding of a value to millionths: half-up on the magnitude (ties
   move away from zero), so the result is within half a millionth of the
   value and has the value's sign.
   */
  function Micros(x: real): (m: int)
    ensures (m as real) - 0.5 <= x * 1000000.0 <= (m as real) + 0.5
    ensures x >= 0.0 ==> m >= 0
    ensures x <= 0.0 ==> m <= 0
  {
    if x >= 0.0 then (x * 1000000.0 + 0.5).Floor else -((-x * 1000000.0 + 0.5).Floor)
  }

  /** The value the six-decimal rendering of `x` stands for. */
  function Round6(x: real): (y: real)
    ensures Abs(y - x) <= 0.0000005
  {
    Micros(x) as real / 1000000.0
  }

  lemma FloorMonotone(a: real, b: real)
    requires a <= b
    ensures a.Floor <= b.Floor
  {
    if a.Floor > b.Floor {
      assert false;
    }
  }

  /** Rounding to millionths keeps the order of values. */
  lemma Round6Monotone(x: real, y: real)
    requires x <= y
    ensures Round6(x) <= Round6(y)
  {
    if 0.0 <= x {
      FloorMonotone(x * 1000000.0 + 0.5, y * 1000000.0 + 0.5);
    } else if y < 0.0 {
      FloorMonotone(-y * 1000000.0 + 0.5, -x * 1000000.0 + 0.5);
    }
    assert Micros(x) <= Micros(y);
  }

  /** Rounding to millionths maps the unit interval into itself. */
  lemma Round6Unit(x: real)
    requires 0.0 <= x <= 1.0
    ensures 0.0 <= Round6(x) <= 1.0
  {
    Round6Monotone(x, 1.0);
    assert Micros(1.0) == Micro;
  }

  /**
   Java `String.format(Locale.US, "%.6f", x)`: a minus sign for negative
   values, the integer part, a point and exactly six decimals.
   */
  function Format6(x: real): (s: string)
    ensures forall k :: 0 <= k < |s| ==> s[k] != ','
  {
    Rendered(x < 0.0, AbsInt(Micros(x)))
  }

  /** A count of millionths written with six decimals, after a minus sign when `negative`. */
  function Rendered(negative: bool, a: nat): (s: string)
    ensures forall k :: 0 <= k < |s| ==> s[k] != ','
  {
    (if negative then "-" else "") + ShowNat(a / Micro) + "." + PadDigits(a % Micro, 6)
  }

  /** The first position of `c` in `s`, if any. */
  function IndexOf(s: string, c: char): (r: Option<nat>)
    ensures r.None? ==> forall k :: 0 <= k < |s| ==> s[k] != c
    ensures r.Some? ==> r.value < |s| && s[r.value] == c && forall k :: 0 <= k < r.value ==> s[k] != c
  {
    if |s| == 0 then None
    else if s[0] == c then Some(0)
    else match IndexOf(s[1..], c)
      case None => None
      case Some(i) => Some(i + 1)
  }

  /**
   A subset of Kotlin `toFloatOrNull`: an optional sign, then decimal digits
   with at most one point and at least one digit; the value is exact.
   */
  function ParseDecimal(s: string): (r: Option<real>)
    ensures r.Some? ==> |s| >= 1
  {
    if |s| >= 1 && s[0] == '-' then
      match ParseUnsigned(s[1..])
      case None => None
      case Some(v) => Some(-v)
    else if |s| >= 1 && s[0] == '+' then ParseUnsigned(s[1..])
    else ParseUnsigned(s)
  }

  function ParseUnsigned(s: string): (r: Option<real>)
    ensures r.Some? ==> |s| >= 1 && r.value >= 0.0
  {
    match IndexOf(s, '.')
    case None => if |s| >= 1 && AllDigits(s) then Some(DigitsValue(s) as real) else None
    case Some(i) => PointedValue(s[..i], s[i + 1..])
  }

  /** The value of digits either side of a decimal point; at least one digit is needed. */
  function PointedValue(whole: string, frac: string): (r: Option<real>)
    ensures r.Some? ==> |whole| + |frac| >= 1 && r.value >= 0.0
  {
    if AllDigits(whole) && AllDigits(frac) && |whole| + |frac| >= 1 then
      Some(Decimal(DigitsValue(whole), DigitsValue(frac), |frac|))
    else None
  }

  /** `whole` plus `frac` shifted right by `places` decimal places. */
  function Decimal(whole: nat, frac: nat, places: nat): real {
    whole as real + frac as real / Pow10(places) as real
  }

  /** The first `c` in `p + [c] + rest` is the one after `p` when `p` holds none. */
  lemma IndexAfter(p: string, c: char, rest: string)
    requires forall k :: 0 <= k < |p| ==> p[k] != c
    ensures IndexOf(p + [c] + rest, c) == Some(|p|)
  {
    var s := p + [c] + rest;
    assert s[|p|] == c;
    assert forall k :: 0 <= k < |p| ==> s[k] == p[k];
    match IndexOf(s, c)
    case None =>
    case Some(i) =>
  }

  /** Whole millionths split into an integer part and a six-digit fraction. */
  lemma MicroSplit(a: nat)
    ensures Decimal(a / Micro, a % Micro, 6) == a as real / 1000000.0
  {
    assert Pow10(6) == Micro;
    assert a == (a / Micro) * Micro + a % Micro;
  }

  /** A point between two digit strings parses as the whole part plus the scaled fraction. */
  lemma ParsePointed(whole: string, frac: string)
    requires AllDigits(whole) && AllDigits(frac) && |whole| >= 1
    ensures ParseUnsigned(whole + "." + frac) == Some(Decimal(DigitsValue(whole), DigitsValue(frac), |frac|))
  {
    var s := whole + "." + frac;
    PointedPieces(whole, frac, s);
    assert ParseUnsigned(s) == PointedValue(whole, frac);
  }

  lemma PointedPieces(whole: string, frac: string, s: string)
    requires s == whole + "." + frac
    requires forall k :: 0 <= k < |whole| ==> whole[k] != '.'
    ensures IndexOf(s, '.') == Some(|whole|) && s[..|whole|] == whole && s[|whole| + 1..] == frac
  {
    IndexAfter(whole, '.', frac);
    assert s == whole + ['.'] + frac;
  }

  /** The unsigned part of a six-decimal rendering parses to the rendered magnitude. */
  lemma UnsignedRoundTrip(a: nat)
    ensures ParseUnsigned(ShowNat(a / Micro) + "." + PadDigits(a % Micro, 6)) == Some(a as real / 1000000.0)
  {
    var whole, frac := ShowNat(a / Micro), PadDigits(a % Micro, 6);
    ParsePointed(whole, frac);
    ShowNatRoundTrip(a / Micro);
    SixDigits(a % Micro);
    MicroSplit(a);
  }

  /** Six zero-padded digits of a number below a million read back as the number. */
  lemma SixDigits(r: nat)
    requires r < Micro
    ensures DigitsValue(PadDigits(r, 6)) == r
  {
    PadDigitsValue(r, 6);
    assert Pow10(6) == Micro;
  }

  /** Parsing a rendering of millionths gives back their value, negated after a minus sign. */
  lemma RenderedRoundTrip(negative: bool, a: nat)
    ensures ParseDecimal(Rendered(negative, a))
      == Some(if negative then -(a as real / 1000000.0) else a as real / 1000000.0)
  {
    if negative {
      NegativeRoundTrip(a);
    } else {
      PositiveRoundTrip(a);
    }
  }

  lemma NegativeRoundTrip(a: nat)
    ensures ParseDecimal(Rendered(true, a)) == Some(-(a as real / 1000000.0))
  {
    var body := ShowNat(a / Micro) + "." + PadDigits(a % Micro, 6);
    assert Rendered(true, a) == "-" + body;
    assert ParseDecimal("-" + body)
      == (match ParseUnsigned(body) case None => None case Some(v) => Some(-v)) by {
      SignedParse(body);
    }
    UnsignedRoundTrip(a);
  }

  lemma PositiveRoundTrip(a: nat)
    ensures ParseDecimal(Rendered(false, a)) == Some(a as real / 1000000.0)
  {
    var whole := ShowNat(a / Micro);
    var body := whole + "." + PadDigits(a % Micro, 6);
    assert Rendered(false, a) == body;
    assert ParseDecimal(body) == ParseUnsigned(body) by {
      assert body[0] == whole[0];
      UnsignedParse(body);
    }
    UnsignedRoundTrip(a);
  }

  /** A minus sign negates what follows it. */
  lemma SignedParse(body: string)
    ensures ParseDecimal("-" + body)
      == (match ParseUnsigned(body) case None => None case Some(v) => Some(-v))
  {
    assert ("-" + body)[1..] == body;
  }

  /** Without a sign the whole string is the unsigned number. */
  lemma UnsignedParse(body: string)
    requires |body| >= 1 && IsDigit(body[0])
    ensures ParseDecimal(body) == ParseUnsigned(body)
  {
  }

  /** Parsing a six-decimal rendering gives back the rounded value. */
  lemma Format6RoundTrip(x: real)
    ensures ParseDecimal(Format6(x)) == Some(Round6(x))
  {
    var m := Micros(x);
    var a := AbsInt(m);
    assert ParseDecimal(Format6(x)) == Some(if x < 0.0 then -(a as real / 1000000.0) else a as real / 1000000.0) by {
      RenderedRoundTrip(x < 0.0, a);
    }
    assert (if x < 0.0 then -(a as real / 1000000.0) else a as real / 1000000.0) == m as real / 1000000.0;
  }

  /** Kotlin `split(sep)`: the pieces between separators, including empty ones. */
  function Split(s: string, sep: char): (parts: seq<string>)
    ensures |parts| >= 1
    ensures forall k :: 0 <= k < |parts| ==> sep !in parts[k]
    decreases |s|
  {
    match IndexOf(s, sep)
    case None => [s]
    case Some(i) => [s[..i]] + Split(s[i + 1..], sep)
  }

  /** Splitting gives one piece more than there are separators in the string. */
  lemma {:induction false} SplitCount(s: string, sep: char)
    ensures |Split(s, sep)| == multiset(s)[sep] + 1
    decreases |s|
  {
    match IndexOf(s, sep)
    case None =>
      assert sep !in multiset(s);
    case Some(i) =>
      SplitCount(s[i + 1..], sep);
      assert s == s[..i] + [sep] + s[i + 1..];
      assert sep !in multiset(s[..i]);
      assert multiset(s) == multiset(s[..i]) + multiset([sep]) + multiset(s[i + 1..]);
  }

  /** The pieces joined back with the separator. */
  function Join(parts: seq<string>, sep: char): string
    requires |parts| >= 1
  {
    if |parts| == 1 then parts[0] else parts[0] + [sep] + Join(parts[1..], sep)
  }

  /** Joining the pieces of a split gives back the string. */
  lemma {:induction false} JoinSplit(s: string, sep: char)
    ensures Join(Split(s, sep), sep) == s
    decreases |s|
  {
    match IndexOf(s, sep)
    case None =>
    case Some(i) =>
      var rest := s[i + 1..];
      var parts := Split(s, sep);
      assert parts == [s[..i]] + Split(rest, sep);
      assert parts[0] == s[..i] && parts[1..] == Split(rest, sep);
      JoinSplit(rest, sep);
      assert Join(parts, sep) == s[..i] + [sep] + rest;
      assert s == s[..i] + [sep] + rest;
  }

  /** Splitting joined pieces that hold no separator gives back the pieces. */
  lemma {:induction false} SplitJoin(parts: seq<string>, sep: char)
    requires |parts| >= 1 && forall k :: 0 <= k < |parts| ==> sep !in parts[k]
    ensures Split(Join(parts, sep), sep) == parts
    decreases |parts|
  {
    if |parts| > 1 {
      var p := parts[0];
      var rest := Join(parts[1..], sep);
      var s := p + [sep] + rest;
      assert Join(parts, sep) == s;
      assert sep !in p;
      IndexAfter(p, sep, rest);
      assert s[..|p|] == p;
      assert s[|p| + 1..] == rest;
      assert Split(s, sep) == [p] + Split(rest, sep);
      SplitJoin(parts[1..], sep);
      assert [p] + parts[1..] == parts;
    }
  }
}

=== FILE: touch.dfy ===
/**
 The preview's touch handling (`CaptionPreviewView.onTouchEvent`): one
 pure step from the preview, the layout of its last draw and the gesture in
 progress to the next preview and gesture, whether the event was consumed,
 and the callback (if any) the step fires.

 An event's `x` and `y` are those of its pointer at index 0. The platform's
 finger distance and twist angle between the gesture's two tracked pointers
 arrive with the event, as does the clock reading.
 */
module Touch {
  import opened Numeric
  import opened Optional
  import opened Geometry
  import opened Caption
  import opened Crop
  import opened Text
  import opened Editor

  datatype DragMode = NoDrag | CaptionDrag | MoveCrop | ResizeCrop | ResizeCaption

  datatype Pointer = Pointer(id: int, x: real, y: real)

  datatype Action = Down | PointerDown | Move | PointerUp | Up | Cancel | OtherAction

  /**
   A motion event: the masked action, the pointers currently down, the index
   of the pointer the action is about, the time in milliseconds, and the
   distance and angle (in degrees) between the gesture's tracked pointers.
   */
  datatype Event = Event(action: Action, pointers: seq<Pointer>, actionIndex: int,
                         time: int, distance: real, angle: real)

  /** What the platform guarantees of a motion event. */
  predicate WellFormed(ev: Event) {
    && |ev.pointers| >= 1
    && (ev.action == PointerDown || ev.action == PointerUp ==> |ev.pointers| >= 2)
    && 0 <= ev.actionIndex < |ev.pointers|
    && (forall i, j :: 0 <= i < j < |ev.pointers| ==> ev.pointers[i].id != ev.pointers[j].id)
    && ev.distance >= 0.0
    && -180.0 <= ev.angle <= 180.0
  }

  /**
   The gesture in progress: its mode, the tracked pointer ids (-1 for none),
   where and when the first finger went down, the last drag position, and
   what a pinch started from.
   */
  datatype Gesture = Gesture(
    mode: DragMode,
    id1: int,
    id2: int,
    downX: real,
    downY: real,
    downTime: int,
    lastDragX: real,
    lastDragY: real,
    startDist: real,
    startZoom: real,
    startAngle: real,
    startRotation: real,
    startSp: real)

  function InitialGesture(): (g: Gesture)
    ensures g.mode == NoDrag && GestureValid(g)
  {
    Gesture(NoDrag, -1, -1, 0.0, 0.0, 0, 0.0, 0.0, 0.0, 1.0, 0.0, 0.0, InitialCaptionSp)
  }

  /** A pinch's starting distance is at least a pixel, and a crop pinch starts from a normal rotation and a real angle. */
  predicate GestureValid(g: Gesture) {
    && (g.mode == ResizeCrop || g.mode == ResizeCaption ==> g.startDist >= 1.0)
    && (g.mode == ResizeCrop ==> 0.0 <= g.startRotation < 360.0 && -180.0 <= g.startAngle <= 180.0)
  }

  /**
   A touch changes only the crop, the rotation and the caption's size and
   position: the photo, the caption text and the presentation flags stay.
   */
  predicate SameSetup(e: Preview, v: Preview) {
    && v.photo == e.photo && v.caption == e.caption && v.noteMode == e.noteMode
    && v.cropGestures == e.cropGestures && v.plain == e.plain
    && v.bubbleVisible == e.bubbleVisible && v.captionVisible == e.captionVisible
  }

  /** The crop window and the rotation are those of `e`. */
  predicate CropKept(e: Preview, v: Preview) {
    v.zoom == e.zoom && v.centreU == e.centreU && v.centreV == e.centreV && v.rotation == e.rotation
  }

  /**
   What every reaction to a touch keeps: the preview valid, the gesture
   consistent, the setup unchanged, and the crop untouched while crop
   gestures are off.
   */
  predicate Keeps(e: Preview, r: Reaction) {
    && r.view.Valid() && GestureValid(r.gesture) && SameSetup(e, r.view)
    && (!e.cropGestures ==> CropKept(e, r.view))
  }

  /**
   What every reaction reports faithfully: a crop that moved is left inside
   the photo, the size callback fires exactly when the caption size changes
   and carries the new size, the position callback fires whenever the
   caption moves and carries the new position, and a tap lands inside the
   unit square.
   */
  predicate Reports(e: Preview, r: Reaction) {
    && ((r.view.zoom != e.zoom || r.view.centreU != e.centreU || r.view.centreV != e.centreV) ==>
          e.photo.Some? && e.photo.value.Valid()
          && CentreAdmissible(e.photo.value, r.view.zoom, r.view.centreU, r.view.centreV))
    && ((r.notice.Some? && r.notice.value.CaptionSizeChanged?) <==> r.view.captionSp != e.captionSp)
    && (r.notice.Some? && r.notice.value.CaptionSizeChanged? ==> r.notice.value.sp == r.view.captionSp)
    && (r.notice.Some? && r.notice.value.PositionChanged? ==>
          r.notice.value.x == r.view.posX && r.notice.value.y == r.view.posY)
    && ((r.view.posX != e.posX || r.view.posY != e.posY) ==>
          r.notice == Some(PositionChanged(r.view.posX, r.view.posY)))
    && (r.notice.Some? && r.notice.value.CaptionTap? ==>
          0.0 <= r.notice.value.u <= 1.0 && 0.0 <= r.notice.value.v <= 1.0)
  }

  /** The screen's callbacks. */
  datatype Notice =
    | PositionChanged(x: real, y: real)
    | CaptionSizeChanged(sp: real)
    | CaptionTap(u: real, v: real)

  datatype Reaction = Reaction(view: Preview, gesture: Gesture, handled: bool, notice: Option<Notice>)

  /** The first index of a pointer with this id, or -1 (`findPointerIndex`). */
  function PointerIndex(ps: seq<Pointer>, id: int): (i: int)
    ensures -1 <= i < |ps|
    ensures 0 <= i ==> ps[i].id == id && forall k :: 0 <= k < i ==> ps[k].id != id
    ensures i == -1 <==> forall k :: 0 <= k < |ps| ==> ps[k].id != id
  {
    if |ps| == 0 then -1
    else if ps[0].id == id then 0
    else
      var rest := PointerIndex(ps[1..], id);
      if rest < 0 then -1 else rest + 1
  }

  /** A point on the non-blank caption the last draw laid out. */
  predicate HitsCaption(e: Preview, l: Layout, x: real, y: real) {
    l.bubble.Some? && l.bubble.value.Contains(x, y) && !IsBlank(e.caption)
  }

  // ---------------------------------------------------------------------
  // ACTION_DOWN and ACTION_POINTER_DOWN
  // ---------------------------------------------------------------------

  /**
   The first finger: a drag of the caption when it lands on it, otherwise a
   crop pan when crop gestures are on; the tap baseline and drag baseline
   are the finger.
   */
  function OnDown(e: Preview, l: Layout, g: Gesture, ev: Event): (r: Reaction)
    requires WellFormed(ev)
    ensures var p := ev.pointers[0];
      && r.view == e && r.handled && r.notice.None?
      && (r.gesture.mode == CaptionDrag <==> HitsCaption(e, l, p.x, p.y))
      && (r.gesture.mode == MoveCrop <==> !HitsCaption(e, l, p.x, p.y) && e.cropGestures)
      && r.gesture.id1 == p.id && r.gesture.downTime == ev.time
      && r.gesture.downX == r.gesture.lastDragX == p.x && r.gesture.downY == r.gesture.lastDragY == p.y
    ensures r.gesture == g.(mode := r.gesture.mode, id1 := r.gesture.id1, downX := r.gesture.downX,
      downY := r.gesture.downY, downTime := r.gesture.downTime, lastDragX := r.gesture.lastDragX,
      lastDragY := r.gesture.lastDragY)
    ensures e.Valid() ==> Keeps(e, r)
    ensures Reports(e, r)
  {
    var p := ev.pointers[0];
    var mode := if HitsCaption(e, l, p.x, p.y) then CaptionDrag
                else if e.cropGestures then MoveCrop
                else NoDrag;
    Reaction(e, g.(mode := mode, id1 := p.id, downX := p.x, downY := p.y, downTime := ev.time,
                   lastDragX := p.x, lastDragY := p.y), true, None)
  }

  /**
   A second finger starts a pinch: of the caption when crop gestures are off
   or the fingers' midpoint is on the caption, otherwise of the crop (zoom
   and twist). Any other pointer count is left to the platform, which does
   not consume it.
   */
  function OnPointerDown(e: Preview, l: Layout, g: Gesture, ev: Event): (r: Reaction)
    requires WellFormed(ev)
    ensures |ev.pointers| != 2 ==> r == Reaction(e, g, false, None)
    ensures |ev.pointers| == 2 ==>
      var p0 := ev.pointers[0];
      var p1 := ev.pointers[1];
      var onCaption := HitsCaption(e, l, (p0.x + p1.x) / 2.0, (p0.y + p1.y) / 2.0);
      && r.view == e && r.handled && r.notice.None?
      && r.gesture.id1 == p0.id && r.gesture.id2 == p1.id
      && r.gesture.startDist == Max(ev.distance, 1.0)
      && (r.gesture.mode == ResizeCaption <==> !e.cropGestures || onCaption)
      && (r.gesture.mode == ResizeCrop <==> e.cropGestures && !onCaption)
    ensures |ev.pointers| == 2 && r.gesture.mode == ResizeCaption ==> r.gesture.startSp == e.captionSp
    ensures |ev.pointers| == 2 && r.gesture.mode == ResizeCrop ==>
      r.gesture.startZoom == e.zoom && r.gesture.startRotation == e.rotation && r.gesture.startAngle == ev.angle
    ensures e.Valid() && GestureValid(g) ==> Keeps(e, r)
    ensures Reports(e, r)
  {
    if |ev.pointers| != 2 then Reaction(e, g, false, None)
    else
      var p0 := ev.pointers[0];
      var p1 := ev.pointers[1];
      var onCaption := HitsCaption(e, l, (p0.x + p1.x) / 2.0, (p0.y + p1.y) / 2.0);
      var pinch := g.(id1 := p0.id, id2 := p1.id, startDist := Max(ev.distance, 1.0));
      if !e.cropGestures || onCaption then
        Reaction(e, pinch.(mode := ResizeCaption, startSp := e.captionSp), true, None)
      else
        Reaction(e, pinch.(mode := ResizeCrop, startZoom := e.zoom, startAngle := ev.angle,
                           startRotation := e.rotation), true, None)
  }

  // ---------------------------------------------------------------------
  // ACTION_MOVE
  // ---------------------------------------------------------------------

  /**
   Dragging the caption: the finger, clamped into the stage, becomes the
   caption's normalised position, so the caption's anchor lands under the
   finger (or on the nearest stage edge).
   */
  function DragCaption(e: Preview, l: Layout, g: Gesture, ev: Event): (r: Reaction)
    requires WellFormed(ev) && Drawn(l)
    ensures e.Valid() ==> r.view.Valid()
    ensures SameSetup(e, r.view) && CropKept(e, r.view)
    ensures r.view == e.(posX := r.view.posX, posY := r.view.posY) && r.gesture == g && r.handled
    ensures 0.0 <= r.view.posX <= 1.0 && 0.0 <= r.view.posY <= 1.0
    ensures r.notice == Some(PositionChanged(r.view.posX, r.view.posY))
    ensures TargetX(l.stage, r.view.posX) == Clamp(ev.pointers[0].x, l.stage.left as real, l.stage.right as real)
    ensures TargetY(l.stage, r.view.posY) == Clamp(ev.pointers[0].y, l.stage.top as real, l.stage.bottom as real)
    ensures e.Valid() && GestureValid(g) ==> Keeps(e, r)
    ensures Reports(e, r)
  {
    var s := l.stage;
    var x := Clamp(ev.pointers[0].x, s.left as real, s.right as real);
    var y := Clamp(ev.pointers[0].y, s.top as real, s.bottom as real);
    var px := Clamp((x - s.left as real) / s.Width() as real, 0.0, 1.0);
    var py := Clamp((y - s.top as real) / s.Height() as real, 0.0, 1.0);
    FractionOfExtent(s.left as real, s.Width() as real, x);
    FractionOfExtent(s.top as real, s.Height() as real, y);
    Reaction(e.(posX := px, posY := py), g, true, Some(PositionChanged(px, py)))
  }

  /** A point of a positive extent is that extent's fraction `(c - lo) / w` of the way along it. */
  lemma FractionOfExtent(lo: real, w: real, c: real)
    requires w > 0.0 && lo <= c <= lo + w
    ensures 0.0 <= (c - lo) / w <= 1.0
    ensures lo + w * Clamp((c - lo) / w, 0.0, 1.0) == c
  {
    QuotientFacts(c - lo, w);
  }


  /**
   One axis of a crop centre, kept so the crop window (of half-extent
   `half`) stays inside the photo, as a fraction of the photo's extent.
   */
  function AdmitAxis(c: real, half: real, extent: real): (f: real)
    requires 0.0 < half && 2.0 * half <= extent
    ensures 0.0 <= f <= 1.0 && AxisInside(f, half, extent)
    ensures half <= c <= extent - half ==> f * extent == c
  {
    var k := KeepInside(c, half, extent);
    QuotientFacts(k, extent);
    Clamp(k / extent, 0.0, 1.0)
  }

  /** Keeping a centre inside preserves the order of positions. */
  lemma AdmitAxisMonotone(a: real, b: real, half: real, extent: real)
    requires 0.0 < half && 2.0 * half <= extent && a <= b
    ensures AdmitAxis(a, half, extent) <= AdmitAxis(b, half, extent)
  {
    var fa := AdmitAxis(a, half, extent);
    var fb := AdmitAxis(b, half, extent);
    assert fa * extent <= fb * extent by {
      assert fa * extent == KeepInside(a, half, extent);
      assert fb * extent == KeepInside(b, half, extent);
    }
    if fa > fb {
      ScaleStrict(extent, fb, fa);
      assert false;
    }
  }

  /** The crop centre for photo-pixel position `(cx, cy)`, kept so the window at `zoom` stays inside the photo. */
  function AdmitCentre(size: Size, zoom: real, cx: real, cy: real): (c: (real, real))
    requires size.Valid()
    ensures CentreAdmissible(size, zoom, c.0, c.1)
    ensures CentreAdmissible(size, zoom, cx / size.w as real, cy / size.h as real) ==>
      c == (cx / size.w as real, cy / size.h as real)
  {
    var hs := Halves(size, zoom);
    var u := AdmitAxis(cx, hs.w, size.w as real);
    var v := AdmitAxis(cy, hs.h, size.h as real);
    AdmitKeeps(cx, hs.w, size.w as real);
    AdmitKeeps(cy, hs.h, size.h as real);
    (u, v)
  }

  /** The floor on the displayed scale (view pixels per photo pixel) a pan divides by. */
  const MinPanScale: real := 0.000001

  /**
   Panning the crop: the photo moves with the finger under the fixed frame,
   so the crop centre moves the opposite way by the finger's travel in photo
   pixels, kept so the window stays inside the photo. With crop gestures off
   nothing happens, not even the drag baseline.
   */
  function PanCrop(e: Preview, l: Layout, g: Gesture, ev: Event): (r: Reaction)
    requires e.Valid() && e.photo.Some? && Drawn(l) && WellFormed(ev)
    ensures r.view.Valid() && SameSetup(e, r.view)
    ensures !e.cropGestures ==> r == Reaction(e, g, true, None)
    ensures r.handled && r.notice.None?
    ensures r.view == e.(centreU := r.view.centreU, centreV := r.view.centreV)
    ensures e.cropGestures ==>
      && CentreAdmissible(e.photo.value, e.zoom, r.view.centreU, r.view.centreV)
      && r.gesture == g.(lastDragX := ev.pointers[0].x, lastDragY := ev.pointers[0].y)
    ensures e.cropGestures && CentreAdmissible(e.photo.value, e.zoom, e.centreU, e.centreV) ==>
      && (ev.pointers[0].x >= g.lastDragX ==> r.view.centreU <= e.centreU)
      && (ev.pointers[0].x <= g.lastDragX ==> r.view.centreU >= e.centreU)
      && (ev.pointers[0].y >= g.lastDragY ==> r.view.centreV <= e.centreV)
      && (ev.pointers[0].y <= g.lastDragY ==> r.view.centreV >= e.centreV)
    ensures GestureValid(g) ==> Keeps(e, r)
    ensures Reports(e, r)
  {
    if !e.cropGestures then Reaction(e, g, true, None)
    else
      var p := ev.pointers[0];
      var c := PanCentre(e.photo.value, e.zoom, l.fit.Width(), e.centreU, e.centreV, p.x - g.lastDragX, p.y - g.lastDragY);
      Reaction(e.(centreU := c.0, centreV := c.1), g.(lastDragX := p.x, lastDragY := p.y), true, None)
  }

  /**
   The crop centre after a pan by `(dx, dy)` view pixels over a fit `fitW`
   pixels wide: the photo moves with the finger, so the centre moves back by
   the travel in photo pixels, kept so the window at `zoom` stays inside.
   */
  function PanCentre(b: Size, zoom: real, fitW: int, u: real, v: real, dx: real, dy: real): (c: (real, real))
    requires b.Valid()
    ensures CentreAdmissible(b, zoom, c.0, c.1)
    ensures CentreAdmissible(b, zoom, u, v) ==>
      && (dx >= 0.0 ==> c.0 <= u) && (dx <= 0.0 ==> c.0 >= u)
      && (dy >= 0.0 ==> c.1 <= v) && (dy <= 0.0 ==> c.1 >= v)
  {
    var sw := b.w as real;
    var sh := b.h as real;
    var s := Max(fitW as real / sw, MinPanScale);
    var hs := Halves(b, zoom);
    var pu := PanAxis(u, sw, s, dx, hs.w);
    var pv := PanAxis(v, sh, s, dy, hs.h);
    (pu, pv)
  }

  /**
   One axis of a pan by `d` view pixels at `s` view pixels per photo pixel:
   the centre moves back by `d / s` photo pixels, kept inside.
   */
  function PanAxis(u: real, extent: real, s: real, d: real, half: real): (f: real)
    requires extent > 0.0 && s > 0.0 && 0.0 < half && 2.0 * half <= extent
    ensures 0.0 <= f <= 1.0 && AxisInside(f, half, extent)
    ensures AxisInside(u, half, extent) ==>
      && (d >= 0.0 ==> f <= u)
      && (d <= 0.0 ==> f >= u)
  {
    PanDirection(u, extent, s, d, half);
    AdmitAxis(u * extent + (-(d / s) / extent) * extent, half, extent)
  }

  /**
   One axis of a pan: a finger moving forward never moves an admissible
   centre forward, and a finger moving back never moves it back.
   */
  lemma PanDirection(u: real, extent: real, s: real, d: real, half: real)
    requires extent > 0.0 && s > 0.0 && 0.0 < half && 2.0 * half <= extent
    ensures var c := u * extent + (-(d / s) / extent) * extent;
      half <= u * extent <= extent - half ==>
        && (d >= 0.0 ==> AdmitAxis(c, half, extent) <= u)
        && (d <= 0.0 ==> AdmitAxis(c, half, extent) >= u)
  {
    var c := u * extent + (-(d / s) / extent) * extent;
    QuotientFacts(-(d / s), extent);
    assert c == u * extent - d / s;
    if half <= u * extent <= extent - half {
      var f := AdmitAxis(u * extent, half, extent);
      assert f * extent == u * extent;
      if f != u {
        if f < u { ScaleStrict(extent, f, u); } else { ScaleStrict(extent, u, f); }
        assert false;
      }
      if d >= 0.0 {
        QuotientFacts(d, s);
        AdmitAxisMonotone(c, u * extent, half, extent);
      }
      if d <= 0.0 {
        QuotientFacts(d, s);
        AdmitAxisMonotone(u * extent, c, half, extent);
      }
    }
  }

  /**
   What a pinch asks the pinched quantity to become: its value at the
   pinch's start scaled by how far the fingers' distance (at least one
   pixel) has grown from the starting distance.
   */
  function PinchTarget(start: real, g: Gesture, ev: Event): real
    requires g.startDist >= 1.0
  {
    start * Max(ev.distance, 1.0) / g.startDist
  }

  /**
   Pinching the crop: the zoom follows the ratio of finger distances from
   where the pinch started, clamped into `[1, 3]`; the centre is kept so the
   new window stays inside the photo; the rotation is the starting rotation
   plus the fingers' twist, normalised into `[0, 360)`.
   */
  function PinchCrop(e: Preview, g: Gesture, ev: Event): (r: Reaction)
    requires e.Valid() && e.photo.Some? && WellFormed(ev) && GestureValid(g) && g.mode == ResizeCrop
    ensures r.view.Valid() && SameSetup(e, r.view)
    ensures !e.cropGestures ==> r == Reaction(e, g, true, None)
    ensures r.handled && r.notice.None? && r.gesture == g
    ensures r.view == e.(zoom := r.view.zoom, centreU := r.view.centreU, centreV := r.view.centreV,
                         rotation := r.view.rotation)
    ensures e.cropGestures ==>
      var wanted := PinchTarget(g.startZoom, g, ev);
      && MinZoom <= r.view.zoom <= MaxZoom
      && (MinZoom <= wanted <= MaxZoom ==> r.view.zoom == wanted)
      && CentreAdmissible(e.photo.value, r.view.zoom, r.view.centreU, r.view.centreV)
      && 0.0 <= r.view.rotation < 360.0
      && IsWholeMultiple(g.startRotation + (ev.angle - g.startAngle) - r.view.rotation, 360.0)
    ensures e.cropGestures && r.view.zoom >= e.zoom && CentreAdmissible(e.photo.value, e.zoom, e.centreU, e.centreV) ==>
      r.view.centreU == e.centreU && r.view.centreV == e.centreV
    ensures GestureValid(g) ==> Keeps(e, r)
    ensures Reports(e, r)
  {
    if !e.cropGestures then Reaction(e, g, true, None)
    else
      var zoom := Clamp(PinchTarget(g.startZoom, g, ev), MinZoom, MaxZoom);
      var c := PinchCentre(e.photo.value, e.zoom, zoom, e.centreU, e.centreV);
      Reaction(e.(zoom := zoom, centreU := c.0, centreV := c.1,
                  rotation := Twist(g.startRotation, g.startAngle, ev.angle)), g, true, None)
  }

  /**
   The crop centre after the zoom goes from `oldZoom` to `zoom`: kept so the
   new window stays inside the photo, and left where it was when it was
   admissible and the zoom grew.
   */
  function PinchCentre(b: Size, oldZoom: real, zoom: real, u: real, v: real): (c: (real, real))
    requires b.Valid() && MinZoom <= oldZoom <= MaxZoom && MinZoom <= zoom <= MaxZoom
    ensures CentreAdmissible(b, zoom, c.0, c.1)
    ensures zoom >= oldZoom && CentreAdmissible(b, oldZoom, u, v) ==> c == (u, v)
  {
    var sw := b.w as real;
    var sh := b.h as real;
    QuotientFacts(u * sw, sw);
    QuotientFacts(v * sh, sh);
    SameFraction((u * sw) / sw, u, sw);
    SameFraction((v * sh) / sh, v, sh);
    if zoom >= oldZoom && CentreAdmissible(b, oldZoom, u, v) then
      ZoomInKeepsCentre(b, oldZoom, zoom, u, v);
      AdmitCentre(b, zoom, u * sw, v * sh)
    else AdmitCentre(b, zoom, u * sw, v * sh)
  }

  /** The rotation after a twist from `startAngle` to `angle`: the source adds ten turns before the remainder. */
  function Twist(startRotation: real, startAngle: real, angle: real): (r: real)
    requires 0.0 <= startRotation < 360.0 && -180.0 <= startAngle <= 180.0 && -180.0 <= angle <= 180.0
    ensures 0.0 <= r < 360.0
    ensures IsWholeMultiple(startRotation + (angle - startAngle) - r, 360.0)
  {
    var x := startRotation + (angle - startAngle) + 3600.0;
    var r := Rem(x, 360.0);
    assert IsWholeMultiple(-3600.0, 360.0) by {
      assert -3600.0 / 360.0 == -10.0;
    }
    WholeMultipleSum(x - r, -3600.0, 360.0);
    assert startRotation + (angle - startAngle) - r == (x - r) + -3600.0;
    r
  }

  /** Zooming in shrinks the window, so a centre admissible before stays admissible. */
  lemma ZoomInKeepsCentre(b: Size, z1: real, z2: real, u: real, v: real)
    requires b.Valid() && MinZoom <= z1 <= z2 <= MaxZoom && CentreAdmissible(b, z1, u, v)
    ensures CentreAdmissible(b, z2, u, v)
  {
    HalvesShrink(b, z1, z2);
  }

  /** Zooming in does not widen the window. */
  lemma HalvesShrink(b: Size, z1: real, z2: real)
    requires b.Valid() && MinZoom <= z1 <= z2 <= MaxZoom
    ensures Halves(b, z2).w <= Halves(b, z1).w && Halves(b, z2).h <= Halves(b, z1).h
  {
    assert ClampZoom(z1) == z1 && ClampZoom(z2) == z2;
    WindowShrinks(b.w as real, b.h as real, z1, z2);
  }

  /** The window at the larger zoom is no larger on either axis. */
  lemma WindowShrinks(sw: real, sh: real, z1: real, z2: real)
    requires sw > 0.0 && sh > 0.0 && 1.0 <= z1 <= z2
    ensures WindowSize(sw, sh, z2).w <= WindowSize(sw, sh, z1).w
    ensures WindowSize(sw, sh, z2).h <= WindowSize(sw, sh, z1).h
  {
    var w1 := WindowSize(sw, sh, z1);
    var w2 := WindowSize(sw, sh, z2);
    SmallerWindow(w1.w, w2.w, z1, z2);
    SmallerWindow(w1.h, w2.h, z1, z2);
  }

  /** A position whose window is already inside is kept, as a fraction of the extent. */
  lemma AdmitKeeps(c: real, half: real, extent: real)
    requires 0.0 < half && 2.0 * half <= extent
    ensures AxisInside(c / extent, half, extent) ==> AdmitAxis(c, half, extent) == c / extent
  {
    QuotientFacts(c, extent);
    if AxisInside(c / extent, half, extent) {
      SameFraction(AdmitAxis(c, half, extent), c / extent, extent);
    }
  }

  /** Equal multiples of a positive extent are equal. */
  lemma SameFraction(f: real, u: real, extent: real)
    requires extent > 0.0 && f * extent == u * extent
    ensures f == u
  {
    if f < u { ScaleStrict(extent, f, u); }
    if u < f { ScaleStrict(extent, u, f); }
  }

  /** Two windows of the same full size at zooms `z1 <= z2`: the second is no larger. */
  lemma SmallerWindow(a: real, b: real, z1: real, z2: real)
    requires a > 0.0 && b > 0.0 && 1.0 <= z1 <= z2 && a * z1 == b * z2
    ensures b <= a
  {
    if b > a {
      ScaleStrict(z2, a, b);
      ScaleWeak(a, z1, z2);
      assert false;
    }
  }

  /**
   Pinching the caption: the size follows the ratio of finger distances,
   clamped into `[9, 48]`, while both tracked fingers are down; the size
   callback fires exactly when the size changes.
   */
  function PinchCaption(e: Preview, g: Gesture, ev: Event): (r: Reaction)
    requires e.Valid() && GestureValid(g) && g.mode == ResizeCaption
    ensures r.handled && r.gesture == g && r.view == e.(captionSp := r.view.captionSp)
    ensures Keeps(e, r) && CropKept(e, r.view)
    ensures r.notice.Some? <==> r.view.captionSp != e.captionSp
    ensures r.notice.Some? ==> r.notice.value == CaptionSizeChanged(r.view.captionSp)
    ensures |ev.pointers| < 2 || PointerIndex(ev.pointers, g.id1) < 0 || PointerIndex(ev.pointers, g.id2) < 0 ==>
      r.view == e
    ensures |ev.pointers| >= 2 && PointerIndex(ev.pointers, g.id1) >= 0 && PointerIndex(ev.pointers, g.id2) >= 0 ==>
      var wanted := PinchTarget(g.startSp, g, ev);
      CaptionMinSp <= wanted <= CaptionMaxSp ==> r.view.captionSp == wanted
  {
    if |ev.pointers| < 2 || PointerIndex(ev.pointers, g.id1) < 0 || PointerIndex(ev.pointers, g.id2) < 0 then
      Reaction(e, g, true, None)
    else
      CaptionResized(e, g, Clamp(PinchTarget(g.startSp, g, ev), CaptionMinSp, CaptionMaxSp))
  }

  /** The caption at size `sp`, with the size callback fired when that is a change. */
  function CaptionResized(e: Preview, g: Gesture, sp: real): (r: Reaction)
    requires e.Valid() && GestureValid(g) && CaptionMinSp <= sp <= CaptionMaxSp
    ensures r.handled && r.gesture == g && r.view == e.(captionSp := sp)
    ensures Keeps(e, r) && CropKept(e, r.view)
    ensures r.notice.Some? <==> sp != e.captionSp
    ensures r.notice.Some? ==> r.notice.value == CaptionSizeChanged(sp)
  {
    if sp != e.captionSp then Reaction(e.(captionSp := sp), g, true, Some(CaptionSizeChanged(sp)))
    else Reaction(e, g, true, None)
  }

  /** A move continues the gesture in progress; without one it is consumed and ignored. */
  function OnMove(e: Preview, l: Layout, g: Gesture, ev: Event): (r: Reaction)
    requires e.Valid() && e.photo.Some? && Drawn(l) && WellFormed(ev) && GestureValid(g)
    ensures r.handled && r.gesture.mode == g.mode
    ensures Keeps(e, r) && Reports(e, r)
  {
    match g.mode
    case NoDrag => Reaction(e, g, true, None)
    case CaptionDrag => DragCaption(e, l, g, ev)
    case MoveCrop => PanCrop(e, l, g, ev)
    case ResizeCrop => PinchCrop(e, g, ev)
    case ResizeCaption => PinchCaption(e, g, ev)
  }

  // ---------------------------------------------------------------------
  // ACTION_POINTER_UP
  // ---------------------------------------------------------------------

  /**
   The pointer index a crop pinch's end takes the drag baseline from, as
   written: 0 when the lifted pointer is the first tracked one, else 1.
   */
  function LiftedAnchorIndex(ev: Event, id1: int): (i: int)
    requires WellFormed(ev) && |ev.pointers| >= 2
    ensures 0 <= i <= 1
    ensures |ev.pointers| == 2 && ev.pointers[0].id == id1 ==> i == ev.actionIndex
  {
    if ev.pointers[ev.actionIndex].id == id1 then 0 else 1
  }

  /** The pointer index of a finger that stays down: the first one that is not being lifted. */
  function RemainingIndex(ev: Event): (i: int)
    requires WellFormed(ev) && |ev.pointers| >= 2
    ensures 0 <= i < |ev.pointers| && i != ev.actionIndex
  {
    if ev.actionIndex == 0 then 1 else 0
  }

  /**
   A finger lifts: a crop pinch falls back to a crop pan from the pointer at
   `anchor` (to the platform, which does not consume it); a caption pinch
   falls back to a caption drag. Anything else is left to the platform.
   */
  function PointerUpFrom(e: Preview, g: Gesture, ev: Event, anchor: int): (r: Reaction)
    requires WellFormed(ev) && 0 <= anchor < |ev.pointers|
    ensures r.view == e && r.notice.None?
    ensures g.mode == ResizeCrop ==>
      && !r.handled
      && r.gesture == g.(mode := r.gesture.mode, lastDragX := ev.pointers[anchor].x, lastDragY := ev.pointers[anchor].y)
      && (r.gesture.mode == MoveCrop <==> e.cropGestures)
      && (r.gesture.mode == NoDrag <==> !e.cropGestures)
    ensures g.mode == ResizeCaption ==> r.handled && r.gesture == g.(mode := CaptionDrag, id2 := -1)
    ensures g.mode != ResizeCrop && g.mode != ResizeCaption ==> r == Reaction(e, g, false, None)
    ensures e.Valid() && GestureValid(g) ==> Keeps(e, r)
    ensures Reports(e, r)
  {
    if g.mode == ResizeCrop then
      var p := ev.pointers[anchor];
      Reaction(e, g.(mode := if e.cropGestures then MoveCrop else NoDrag, lastDragX := p.x, lastDragY := p.y),
               false, None)
    else if g.mode == ResizeCaption then
      Reaction(e, g.(mode := CaptionDrag, id2 := -1), true, None)
    else Reaction(e, g, false, None)
  }

  /** `ACTION_POINTER_UP` as written: the baseline comes from `LiftedAnchorIndex`. */
  function OnPointerUpAsWritten(e: Preview, g: Gesture, ev: Event): (r: Reaction)
    requires WellFormed(ev) && |ev.pointers| >= 2
    ensures |ev.pointers| == 2 && ev.pointers[0].id == g.id1 && g.mode == ResizeCrop ==>
      r.gesture.lastDragX == ev.pointers[ev.actionIndex].x && r.gesture.lastDragY == ev.pointers[ev.actionIndex].y
    ensures e.Valid() && GestureValid(g) ==> Keeps(e, r)
    ensures Reports(e, r)
  {
    PointerUpFrom(e, g, ev, LiftedAnchorIndex(ev, g.id1))
  }

  /** `ACTION_POINTER_UP` with the baseline taken from a finger that stays down. */
  function OnPointerUp(e: Preview, g: Gesture, ev: Event): (r: Reaction)
    requires WellFormed(ev) && |ev.pointers| >= 2
    ensures g.mode == ResizeCrop ==>
      exists i :: 0 <= i < |ev.pointers| && i != ev.actionIndex &&
        r.gesture.lastDragX == ev.pointers[i].x && r.gesture.lastDragY == ev.pointers[i].y
    ensures e.Valid() && GestureValid(g) ==> Keeps(e, r)
    ensures Reports(e, r)
  {
    PointerUpFrom(e, g, ev, RemainingIndex(ev))
  }

  /**
   The end of a crop pinch as written: two fingers at x = 100 and x = 300,
   the second lifted; the pan baseline becomes the lifted finger's 300, so
   the remaining finger's next move, even where it already is, pans by 200
   pixels.
   */
  lemma PinchEndJumps(e: Preview, g: Gesture, ev: Event, next: Event)
    requires e.Valid() && e.photo == Some(Size(1000, 1000)) && e.cropGestures
    requires g.mode == ResizeCrop && g.id1 == 1
    requires ev == Event(PointerUp, [Pointer(1, 100.0, 100.0), Pointer(2, 300.0, 100.0)], 1, 0, 200.0, 0.0)
    requires next == Event(Move, [Pointer(1, 100.0, 100.0)], 0, 10, 0.0, 0.0)
    ensures OnPointerUpAsWritten(e, g, ev).gesture.lastDragX == 300.0
    ensures next.pointers[0].x - OnPointerUpAsWritten(e, g, ev).gesture.lastDragX == -200.0
  {
    assert WellFormed(ev);
    assert LiftedAnchorIndex(ev, g.id1) == 1;
  }

  /**
   With the baseline taken from the remaining finger, its next move from
   where it already is leaves an admissible crop where it was.
   */
  lemma PinchEndKeepsCrop(e: Preview, l: Layout, g: Gesture, ev: Event, next: Event)
    requires e.Valid() && e.photo.Some? && e.cropGestures && Drawn(l)
    requires CentreAdmissible(e.photo.value, e.zoom, e.centreU, e.centreV)
    requires GestureValid(g) && g.mode == ResizeCrop
    requires WellFormed(ev) && ev.action == PointerUp && |ev.pointers| == 2
    requires WellFormed(next) && next.action == Move
    requires next.pointers[0] == ev.pointers[RemainingIndex(ev)]
    ensures var up := OnPointerUp(e, g, ev);
      up.gesture.mode == MoveCrop &&
      var moved := OnMove(up.view, l, up.gesture, next);
      moved.view.centreU == e.centreU && moved.view.centreV == e.centreV
  {
    var up := OnPointerUp(e, g, ev);
    var moved := PanCrop(up.view, l, up.gesture, next);
    assert next.pointers[0].x == up.gesture.lastDragX;
    assert next.pointers[0].y == up.gesture.lastDragY;
    assert moved.view.centreU <= e.centreU && moved.view.centreU >= e.centreU;
    assert moved.view.centreV <= e.centreV && moved.view.centreV >= e.centreV;
  }

  // ---------------------------------------------------------------------
  // ACTION_UP and ACTION_CANCEL
  // ---------------------------------------------------------------------

  const TapMaxMillis: int := 250

  /** A short, still, one-finger touch. */
  predicate IsTap(g: Gesture, ev: Event, slop: int)
    requires WellFormed(ev)
  {
    && ev.time - g.downTime < TapMaxMillis
    && Abs(ev.pointers[0].x - g.downX) < slop as real
    && Abs(ev.pointers[0].y - g.downY) < slop as real
    && |ev.pointers| == 1
  }

  /**
   A tap in normalised coordinates, as written: both axes are measured in
   photo pixels through the fit's width over the photo's width, also in note
   mode, where the fit is the stage.
   */
  function TapUV(b: Size, fit: Rect, x: real, y: real): (uv: (real, real))
    requires b.Valid() && fit.Width() >= 1
    ensures 0.0 <= uv.0 <= 1.0 && 0.0 <= uv.1 <= 1.0
  {
    var s := fit.Width() as real / b.w as real;
    (Clamp(ViewToPhoto(x, fit.left as real, s, b.w as real), 0.0, 1.0),
     Clamp(ViewToPhoto(y, fit.top as real, s, b.h as real), 0.0, 1.0))
  }

  /** The fraction of an axis of `n` photo pixels, drawn from `lo` at `s` view pixels each, under view coordinate `c`. */
  function ViewToPhoto(c: real, lo: real, s: real, n: real): real
    requires s != 0.0 && n != 0.0
  {
    ((c - lo) / s) / n
  }

  /** A tap in normalised coordinates of the rectangle the preview maps them back through. */
  function TapFixed(e: Preview, l: Layout, x: real, y: real): (uv: (real, real))
    requires e.photo.Some? && e.photo.value.Valid() && Drawn(l)
    ensures 0.0 <= uv.0 <= 1.0 && 0.0 <= uv.1 <= 1.0
  {
    if e.noteMode then
      (Clamp((x - l.fit.left as real) / l.fit.Width() as real, 0.0, 1.0),
       Clamp((y - l.fit.top as real) / l.fit.Height() as real, 0.0, 1.0))
    else TapUV(e.photo.value, l.fit, x, y)
  }

  /**
   In note mode, as written: a 100 x 100 photo, a stage of 80 x 100, a tap
   at (40, 50) is normalised to (0.5, 0.625), which maps back to (40, 62.5).
   */
  lemma NoteTapMisplaced(e: Preview, l: Layout, uv: (real, real))
    requires e.Valid() && e.noteMode && e.photo == Some(Size(100, 100))
    requires l.fit == Rect(0, 0, 80, 100)
    requires uv == TapUV(e.photo.value, l.fit, 40.0, 50.0)
    ensures uv == (0.5, 0.625)
    ensures MapUVToView(e, l, uv.0, uv.1) == (40.0, 62.5)
  {
    assert 80.0 / 100.0 == 0.8;
    assert (40.0 / 0.8) / 100.0 == 0.5;
    assert (50.0 / 0.8) / 100.0 == 0.625;
  }

  /**
   A tap inside the measured rectangle maps back to itself: in note mode
   anywhere on the stage; in photo mode anywhere on the photo's fitted
   image, whose height is the photo's height at the fit's scale.
   */
  lemma TapRoundTrip(e: Preview, l: Layout, x: real, y: real)
    requires e.photo.Some? && e.photo.value.Valid() && Drawn(l)
    requires l.fit.left as real <= x <= l.fit.right as real
    requires e.noteMode ==> l.fit.top as real <= y <= l.fit.bottom as real
    requires !e.noteMode ==>
      l.fit.top as real <= y <= l.fit.top as real + e.photo.value.h as real * (l.fit.Width() as real / e.photo.value.w as real)
    ensures var uv := TapFixed(e, l, x, y);
      MapUVToView(e, l, uv.0, uv.1) == (x, y)
  {
    if e.noteMode {
      NoteTapRoundTrip(e, l, x, y);
    } else {
      var uv := TapUV(e.photo.value, l.fit, x, y);
      PhotoTapRoundTrip(e.photo.value, l.fit, x, y);
    }
  }

  /** The note-mode half of `TapRoundTrip`. */
  lemma NoteTapRoundTrip(e: Preview, l: Layout, x: real, y: real)
    requires e.photo.Some? && e.photo.value.Valid() && Drawn(l) && e.noteMode
    requires l.fit.left as real <= x <= l.fit.right as real
    requires l.fit.top as real <= y <= l.fit.bottom as real
    ensures var uv := TapFixed(e, l, x, y);
      MapUVToView(e, l, uv.0, uv.1) == (x, y)
  {
    var f := l.fit;
    FractionOfExtent(f.left as real, f.Width() as real, x);
    FractionOfExtent(f.top as real, f.Height() as real, y);
    var uv := TapFixed(e, l, x, y);
    assert Clamp(uv.0, 0.0, 1.0) == uv.0 && Clamp(uv.1, 0.0, 1.0) == uv.1;
    assert MapUVToView(e, l, uv.0, uv.1) == (TargetX(f, uv.0), TargetY(f, uv.1));
    assert TargetX(f, uv.0) == f.left as real + f.Width() as real * uv.0;
    assert TargetX(f, uv.0) == x;
    assert TargetY(f, uv.1) == y;
  }

  /** The photo-mode half of `TapRoundTrip`. */
  lemma PhotoTapRoundTrip(b: Size, f: Rect, x: real, y: real)
    requires b.Valid() && f.Width() >= 1
    requires f.left as real <= x <= f.right as real
    requires f.top as real <= y <= f.top as real + b.h as real * (f.Width() as real / b.w as real)
    ensures var s := f.Width() as real / b.w as real;
      var uv := TapUV(b, f, x, y);
      && PhotoToView(f.left as real, Clamp(uv.0, 0.0, 1.0), b.w as real, s) == x
      && PhotoToView(f.top as real, Clamp(uv.1, 0.0, 1.0), b.h as real, s) == y
  {
    var s := f.Width() as real / b.w as real;
    QuotientFacts(f.Width() as real, b.w as real);
    assert b.w as real * s == f.Width() as real;
    PhotoAxisRoundTrip(f.left as real, s, b.w as real, x);
    PhotoAxisRoundTrip(f.top as real, s, b.h as real, y);
  }

  /** One axis of a photo-mode tap and its mapping back, for a point on the fitted image. */
  lemma PhotoAxisRoundTrip(lo: real, s: real, n: real, c: real)
    requires s > 0.0 && n > 0.0 && lo <= c <= lo + n * s
    ensures PhotoToView(lo, Clamp(Clamp(ViewToPhoto(c, lo, s, n), 0.0, 1.0), 0.0, 1.0), n, s) == c
  {
    var t := (c - lo) / s;
    QuotientFacts(c - lo, s);
    assert t <= n by {
      if t > n {
        ScaleStrict(s, n, t);
        assert false;
      }
    }
    assert t >= 0.0 by {
      if t < 0.0 {
        ScaleStrict(s, t, 0.0);
        assert false;
      }
    }
    QuotientFacts(t, n);
  }

  /**
   The finger lifts: a tap reports where it landed, normalised to `uv`;
   either way the gesture ends.
   */
  function LiftWith(e: Preview, g: Gesture, ev: Event, slop: int, uv: (real, real)): (r: Reaction)
    requires WellFormed(ev) && 0.0 <= uv.0 <= 1.0 && 0.0 <= uv.1 <= 1.0
    ensures r.view == e && r.handled
    ensures r.gesture == g.(mode := NoDrag, id1 := -1, id2 := -1)
    ensures r.notice.Some? <==> IsTap(g, ev, slop)
    ensures r.notice.Some? ==> r.notice.value == CaptionTap(uv.0, uv.1)
    ensures e.Valid() ==> Keeps(e, r)
    ensures Reports(e, r)
  {
    var notice := if IsTap(g, ev, slop) then Some(CaptionTap(uv.0, uv.1)) else None;
    Reaction(e, g.(mode := NoDrag, id1 := -1, id2 := -1), true, notice)
  }

  /**
   `ACTION_UP` and `ACTION_CANCEL` as written: a tap is normalised by
   `TapUV`, through the photo's pixels in either mode.
   */
  function OnUp(e: Preview, l: Layout, g: Gesture, ev: Event, slop: int): (r: Reaction)
    requires e.photo.Some? && e.photo.value.Valid() && Drawn(l) && WellFormed(ev)
    ensures r.view == e && r.handled
    ensures r.gesture == g.(mode := NoDrag, id1 := -1, id2 := -1)
    ensures r.notice.Some? <==> IsTap(g, ev, slop)
    ensures r.notice.Some? ==>
      r.notice.value == CaptionTap(TapUV(e.photo.value, l.fit, ev.pointers[0].x, ev.pointers[0].y).0,
                                   TapUV(e.photo.value, l.fit, ev.pointers[0].x, ev.pointers[0].y).1)
    ensures e.Valid() ==> Keeps(e, r)
    ensures Reports(e, r)
  {
    LiftWith(e, g, ev, slop, TapUV(e.photo.value, l.fit, ev.pointers[0].x, ev.pointers[0].y))
  }

  /** The lift with a tap normalised by `TapFixed`, which maps back to where it landed. */
  function OnUpCorrected(e: Preview, l: Layout, g: Gesture, ev: Event, slop: int): (r: Reaction)
    requires e.photo.Some? && e.photo.value.Valid() && Drawn(l) && WellFormed(ev)
    ensures r.view == e && r.handled
    ensures r.gesture == g.(mode := NoDrag, id1 := -1, id2 := -1)
    ensures r.notice.Some? <==> IsTap(g, ev, slop)
    ensures r.notice.Some? ==>
      r.notice.value == CaptionTap(TapFixed(e, l, ev.pointers[0].x, ev.pointers[0].y).0,
                                   TapFixed(e, l, ev.pointers[0].x, ev.pointers[0].y).1)
    ensures e.Valid() ==> Keeps(e, r)
    ensures Reports(e, r)
  {
    LiftWith(e, g, ev, slop, TapFixed(e, l, ev.pointers[0].x, ev.pointers[0].y))
  }

  // ---------------------------------------------------------------------
  // The dispatcher
  // ---------------------------------------------------------------------

  /**
   `onTouchEvent` as written: without a photo nothing is consumed; otherwise
   the action goes to its handler. Whatever the event, the result keeps the
   preview valid and the gesture consistent, changes only the crop, rotation
   and caption size and position, never the crop with crop gestures off,
   and reports what changed faithfully.
   */
  function OnTouch(e: Preview, l: Layout, g: Gesture, ev: Event, slop: int): (r: Reaction)
    requires e.Valid() && Drawn(l) && WellFormed(ev) && GestureValid(g)
    ensures e.photo.None? ==> r == Reaction(e, g, false, None)
    ensures Keeps(e, r) && Reports(e, r)
  {
    if e.photo.None? then Reaction(e, g, false, None)
    else
      match ev.action
      case Down => OnDown(e, l, g, ev)
      case PointerDown => OnPointerDown(e, l, g, ev)
      case Move => OnMove(e, l, g, ev)
      case PointerUp => OnPointerUpAsWritten(e, g, ev)
      case Up => OnUp(e, l, g, ev, slop)
      case Cancel => OnUp(e, l, g, ev, slop)
      case OtherAction => Reaction(e, g, false, None)
  }

  /**
   `onTouchEvent` with both lift handlers corrected: a crop pinch's end pans
   from a finger that stays down, and a tap maps back to where it landed.
   It keeps the same guarantees as the handler as written, and differs from
   it only on those two actions.
   */
  function OnTouchCorrected(e: Preview, l: Layout, g: Gesture, ev: Event, slop: int): (r: Reaction)
    requires e.Valid() && Drawn(l) && WellFormed(ev) && GestureValid(g)
    ensures e.photo.None? ==> r == Reaction(e, g, false, None)
    ensures Keeps(e, r) && Reports(e, r)
    ensures ev.action !in {PointerUp, Up, Cancel} ==> r == OnTouch(e, l, g, ev, slop)
  {
    if e.photo.None? then Reaction(e, g, false, None)
    else
      match ev.action
      case PointerUp => OnPointerUp(e, g, ev)
      case Up => OnUpCorrected(e, l, g, ev, slop)
      case Cancel => OnUpCorrected(e, l, g, ev, slop)
      case _ => OnTouch(e, l, g, ev, slop)
  }
}
